=== FILE: README.md ===
# Leo notes: a Dafny model of the editing and organising core

Leo is a note-taking web app. Notebooks nest through parent links. Notes live inside notebooks,
and both go to a wastebasket (soft delete) before they are removed for good. The text of a note
is edited in a block editor and saved through debounced callbacks. A PIN pad guards a private
space. Sign-up insists on a strong password and a verified e-mail.

This project models that core as pure functions over immutable data and proves what the code
promises. It has one module per source component:

| module | file | models |
|---|---|---|
| `Debounce` | debounce.dfy | `useDebouncedCallback`: call, timer expiry, `flush`, `cancel`, `hasPending`, promise settlement and unmount, as one event-driven machine with a trace of callback invocations |
| `Editor` | editor.dfy | `NoteEditor`: the initial-content choice fixed at mount, and suppressing the first change while tagging later ones with the instance's note id |
| `Session` | session.dfy | `MainView`: two debouncers (title 500 ms, content 1000 ms), the local title buffer, `isSaving`, the screen choice and the mounted editor |
| `Notes` | notes.dfy | `useNotes`: document parsing, the notebook list (active, newest edit first), the trashed list (newest deletion first), `useNote`, the snapshot rule, create/update patches, the optimistic merge, and soft delete / restore / delete |
| `Notebooks` | notebooks.dfy | `useNotebooks`: parsing, active/trashed lists, `getDescendantNotebookIds`, the cascades of soft delete / restore / permanent delete, create/update/move patches |
| `Sidebar` | sidebar.dfy | `Sidebar`: create/rename/delete notebook guards, note creation and deletion, the wastebasket partition, count, expand toggle and clearing order |
| `PinPad` | pinpad.dfy | `PinCodeModal`: the enter / create / confirm step machine |
| `Auth` | auth.dfy | `useAuth`: password strength, error-code messages, the sign-in / sign-up / reset flows, `isAuthenticated` |
| `UiStore` | uistore.dfy | the zustand UI store: sidebar, selection and theme transitions |
| `Firestore`, `JsString`, `Sorting`, `Wrappers` | firestore.dfy, jsstring.dfy, sorting.dfy, wrappers.dfy | the platform pieces the code relies on: Firestore patches with server timestamps, `String.prototype.trim` and UTF-16 length, a stable descending sort, `Array.prototype.filter`, and `Option` |

How the outside world is modelled:

- Firestore reads arrive as sequences of `(id, document)` pairs.
- Writes are values: a `Patch` or a `Write` record. Applying a patch resolves
  `serverTimestamp()` to a server time `t`.
- The client clock `new Date()` is a parameter `now`.
- Timestamps are integers.
- Timer expiry and promise settlement are explicit events, and the outcome of every awaited call is
  an input.
- Component handlers return their new state together with the list of effects they issue: calls,
  store actions and alerts.

The debouncer models every callback as returning a promise, because every callback passed to it
in this code is `async`. Its state holds:

- the pending arguments;
- the timer: idle, armed with the arguments its closure captured, or stale after unmount;
- the tracked in-flight invocation;
- the set of invocations still running;
- one entry per `flush()` call: awaiting an invocation, running its own invocation, or finished
  with an outcome.

Modelling it this way exposed two consequences of the code as written. Both are proved by
concrete lemmas:

- `Debounce.FlushMayOverlapTimerCall`: there is only one in-flight slot, and settling any
  invocation clears it. So after an earlier timer-fired invocation and a later one, the earlier
  one's settlement lets a `flush` start while the later one is still running.
- `Debounce.SuspendedFlushRepeatsUnmountCall`: unmount invokes the pending arguments but does not
  clear them. So a `flush` that was suspended across unmount invokes the same arguments a second
  time.

The source is at one revision. The model follows that revision in these points:

- `MainView` calls `useNote(selectedNoteId)` without a notebook id.
- `MainView` mounts `NoteEditor` without a `key` or `noteId`.
- `MainView` sends updates without a `notebookId`.

`Session` takes the note query's `(isLoading, data)` as input events, so it covers every value
the query can deliver.

At the same revision, `Sidebar` and `PinCodeModal` use store members that `src/stores/uiStore.ts`
does not declare: `expandedNotebooks`, `toggleNotebookExpand` and `unlockPrivateSpace`. A
selector for a missing member yields `undefined`, so using it throws a `TypeError`:

- `PinPad` takes the unlock call's behaviour as the input `unlocks`. With `unlocks` false,
  as in this revision, a correct PIN leaves the modal open with four digits in the buffer.
  A successful PIN save has already stored the PIN in the profile cache (`useUpdatePin`'s
  `onSuccess`), and then lands in the `catch`, which reports "Failed to save PIN" at an empty
  "create" step. The render that follows sees `isSetup` turned false, so the reset effect
  runs again and moves the pad to an empty "enter" step with the error cleared. With
  `unlocks` true, the call is a working store action, recorded as the `Unlock` effect. The
  `PinPad` lemmas state both cases.
- `NotebookItem` calls `state.expandedNotebooks.has(...)` while it renders
  (`src/components/layout/Sidebar.tsx:161`). So at this revision, rendering any active
  notebook throws, and none of the notebook-item or note-item handlers can run. `Sidebar`
  models those handlers as the component intends, with the missing members as effects
  (`ExpandNotebook`); "## Left out" names each of them.

## Model

| member | source | states |
|---|---|---|
| `Debounce.ReachableInv` | src/hooks/useDebouncedCallback.ts:82-105 | in every state reachable from the initial one by any events, the timer is idle exactly when no arguments are pending, an armed timer holds the pending arguments, the tracked invocation is running, and every waiting flush refers to a running invocation |
| `Debounce.StepPreservesInv` | src/hooks/useDebouncedCallback.ts:45-105 | call, timer expiry, flush, cancel, settlement and unmount each preserve that invariant |
| `Debounce.RunPreservesInv` | src/hooks/useDebouncedCallback.ts:45-105 | any sequence of events preserves the invariant |
| `Debounce.SettlePreservesInv` | src/hooks/useDebouncedCallback.ts:59-66 | settling an invocation, which resumes the flushes waiting on it, preserves the invariant |
| `Debounce.CallAllKeepsLast` | src/hooks/useDebouncedCallback.ts:83-90 | after a burst of calls, only the last call's arguments are pending and armed; no invocation has happened |
| `Debounce.Coalesce` | src/hooks/useDebouncedCallback.ts:83-102 | a burst of calls followed by one timer expiry invokes the callback exactly once, with the last arguments, and tracks that invocation; nothing stays pending |
| `Debounce.FlushCases` | src/hooks/useDebouncedCallback.ts:45-68 | with a tracked invocation, flush only waits on it and invokes nothing; with nothing tracked and arguments pending, it invokes the callback once with them and leaves nothing pending; with neither, it finishes at once having invoked nothing |
| `Debounce.AwaitingUntilSettled` | src/hooks/useDebouncedCallback.ts:46-49 | a waiting flush stays waiting through every event except the settlement of the invocation it waits on, and that invocation is still running |
| `Debounce.SettleEndsRunningFlush` | src/hooks/useDebouncedCallback.ts:58-66 | a flush running its own invocation finishes with that invocation's outcome, so a rejection propagates out of `flush` |
| `Debounce.SettleRejectsAwaitingFlush` | src/hooks/useDebouncedCallback.ts:46-49 | a flush waiting on an invocation that rejects finishes rejected |
| `Debounce.SettleRunsPendingOnce` | src/hooks/useDebouncedCallback.ts:46-66 | when the awaited invocation fulfils with a timer set and arguments pending, the first flush waiting on it nulls both refs, invokes the callback once with those arguments and waits on that new invocation; every later flush waiting on the same invocation then resolves without invoking |
| `Debounce.SettleWithoutPending` | src/hooks/useDebouncedCallback.ts:46-66 | with no timer set or nothing pending, settling the awaited invocation invokes nothing, clears the in-flight record and settles every flush waiting on it the same way |
| `Debounce.SettleClearsTracked` | src/hooks/useDebouncedCallback.ts:59-98 | settling an invocation, fulfilled or rejected, removes it from the running set and clears the in-flight record, unless a resumed flush started a newer invocation; the other running invocations stay running |
| `Debounce.CancelDiscards` | src/hooks/useDebouncedCallback.ts:70-76 | cancel drops the pending arguments and disarms the timer without invoking anything, and it changes nothing when no timer is set |
| `Debounce.HasPendingMeansTimerOrInflight` | src/hooks/useDebouncedCallback.ts:78-80 | `hasPending` holds exactly when a timer is set or a running invocation is tracked |
| `Debounce.UnmountFlushesPending` | src/hooks/useDebouncedCallback.ts:29-37 | unmount with an armed timer invokes the callback once with the pending arguments instead of dropping them, and with no timer it does nothing |
| `Debounce.FlushMayOverlapTimerCall` | src/hooks/useDebouncedCallback.ts:46-99 | an event sequence in which a flush starts its invocation while an earlier timer-fired invocation is still running |
| `Debounce.SuspendedFlushRepeatsUnmountCall` | src/hooks/useDebouncedCallback.ts:29-58 | an event sequence in which a flush suspended across unmount invokes the arguments that unmount already sent |
| `Editor.InitialContent` | src/components/editor/NoteEditor.tsx:17-38 | the initial document is never empty: a non-empty block array is used verbatim, and anything else gives exactly one empty paragraph |
| `Editor.InitialFixedAtMount` | src/components/editor/NoteEditor.tsx:33-38 | re-rendering with any sequence of new props leaves the initial content chosen at mount unchanged |
| `Editor.FirstChangeSuppressed` | src/components/editor/NoteEditor.tsx:45-52 | of the changes after mount, the first is dropped and every later one is forwarded with the instance's note id |
| `Editor.FeedAfterFirst` | src/components/editor/NoteEditor.tsx:45-52 | once the first change has passed, every change is forwarded, in order, tagged with the instance's note id, and the instance does not change |
| `Session.Delay` | src/components/layout/MainView.tsx:35-49 | the title save's delay is strictly shorter than the content save's |
| `Session.ScreenOf` | src/components/layout/MainView.tsx:68-95 | the placeholder shows exactly when nothing is selected, the spinner exactly when something is selected and loading, "not found" exactly when loaded without a note, and the editor otherwise |
| `Session.Render` | src/components/layout/MainView.tsx:97-121 | an editor instance exists exactly while mounted on the editor screen; a new one is mounted from the note's content, and an existing one keeps its initial content |
| `Session.RunSave` | src/components/layout/MainView.tsx:26-48 | a save run records one run; with no selection it sends nothing and changes nothing else; otherwise it raises `isSaving` and sends an update for the selected note carrying only the given field |
| `Session.RunPreservesInv` | src/components/layout/MainView.tsx:18-66 | any sequence of session events keeps both debouncers' invariants, keeps the editor present exactly on the editor screen, and keeps every recorded save tied to an invocation of its debouncer |
| `Session.StepPreservesInv` | src/components/layout/MainView.tsx:18-66 | each single event preserves the session invariant |
| `Session.TitleTypedSchedulesSave` | src/components/layout/MainView.tsx:52-59 | typing a title sets the local title and arms the title debouncer with that value, without invoking anything or touching the content debouncer |
| `Session.DeliveryOverwritesTitle` | src/components/layout/MainView.tsx:18-22 | whenever a note value arrives, the local title becomes its title, with no dirty guard; the pending title save is untouched |
| `Session.TypedTitleOverwrittenBeforeSave` | src/components/layout/MainView.tsx:18-59 | a note that arrives during the title delay replaces the typed title on screen while the typed value stays armed for saving |
| `Session.TitleTimerSendsTitleOnly` | src/components/layout/MainView.tsx:39-50 | the title timer invokes the title save once with the armed value; with a selection, the update's patch has exactly `updatedAt` and `title`; without one, nothing is sent and `isSaving` is unchanged |
| `Session.ContentTimerSendsContentOnly` | src/components/layout/MainView.tsx:25-36 | the content timer invokes the content save once with the armed document; with a selection, the patch has exactly `updatedAt` and `content`; without one, nothing is sent |
| `Session.PendingTitleFollowsSelection` | src/components/layout/MainView.tsx:39-50 | a title typed for one note and saved after the selection changed is sent to the newly selected note |
| `Session.SettleLowersIsSaving` | src/components/layout/MainView.tsx:31-46 | the settlement of a save, fulfilled or rejected, lowers `isSaving` |
| `Session.IsSavingLoweredWhileContentSaves` | src/components/layout/MainView.tsx:25-50 | `isSaving` is one flag shared by both saves: a title save settling lowers it while a content save is still running |
| `Session.EditorChangeSchedulesContent` | src/components/layout/MainView.tsx:61-66 | after its first change, every editor change arms the content debouncer with the new document and leaves the title debouncer alone |
| `Session.FirstEditorChangeIgnored` | src/components/editor/NoteEditor.tsx:47-50 | the editor's first change schedules no content save |
| `Session.EditorMountsWithScreen` | src/components/layout/MainView.tsx:120 | an editor appearing on the editor screen starts from the note's initial content, and one that stays keeps its initial content across events, including a change of selected note |
| `Session.UnmountSendsPendingTitle` | src/components/layout/MainView.tsx:39-50 | unmounting with a title save armed sends that title to the selected note at once |
| `Notes.Parse` | src/hooks/useNotes.ts:150-159 | a document becomes a note with its id, notebook, title and content; a stored creation or update time is kept and a missing one falls back to the client clock; `deleted_at` is the stored `deletedAt`, set exactly when that is |
| `Notes.NotesListSpec` | src/hooks/useNotes.ts:64-78 | the notebook's list holds exactly the parsed non-deleted documents, each as often as it was read, each tagged with that notebook, newest `updated_at` first |
| `Notes.CollectTrashedMembers` | src/hooks/useNotes.ts:105-125 | the collected notes are exactly the documents with `deletedAt` set, each tagged with the notebook it was read from |
| `Notes.TrashedNotesSpec` | src/hooks/useNotes.ts:95-130 | the trashed list is empty when signed out; otherwise it holds each trashed note as often as it was read, newest deletion first |
| `Notes.FetchNote` | src/hooks/useNotes.ts:143-161 | `useNote` yields a note exactly when someone is signed in, the note id and the notebook id are both non-empty and the document exists, and the note is the parsed document |
| `Notes.NoteSnapshot` | src/hooks/useNotes.ts:169-183 | a snapshot of a missing document leaves the cached note as it was; an existing one replaces it with the parsed document |
| `Notes.CreateRoundTrip` | src/hooks/useNotes.ts:199-216 | the note returned by create is what reading back the written document gives once the server stamps it: title defaults to "Untitled", content to `[]`, not deleted |
| `Notes.UpdatePatch` | src/hooks/useNotes.ts:241-245 | the update always sets `updatedAt` to the server time, and contains `title` / `content` exactly when they are supplied, and nothing else |
| `Notes.OptimisticUpdate` | src/hooks/useNotes.ts:250-260 | the cache changes only when a note is cached; supplied fields overwrite, `updated_at` becomes now, and every other field keeps its cached value |
| `Notes.OptimisticMatchesServer` | src/hooks/useNotes.ts:241-260 | the optimistic value equals the note read back after the server applies the update patch at the same time |
| `Notes.SoftDeleteMarks` | src/hooks/useNotes.ts:276-279 | soft delete stamps `deletedAt` on the named document only, and keeps every document |
| `Notes.RestoreClears` | src/hooks/useNotes.ts:294-297 | restore sets `deletedAt` to null on the named document only |
| `Notes.DeleteRemoves` | src/hooks/useNotes.ts:312-313 | permanent delete removes the named document and keeps every other one |
| `Notes.SoftDeleteHides` | src/hooks/useNotes.ts:271-287 | after a soft delete, the note is absent from its notebook's list |
| `Notes.SoftDeleteTrashes` | src/hooks/useNotes.ts:271-287 | after a soft delete, the note is among that notebook's trashed notes |
| `Notes.SoftDeleteKeepsOthers` | src/hooks/useNotes.ts:271-287 | a soft delete keeps every other active note in the list |
| `Notes.RestoreReturnsToList` | src/hooks/useNotes.ts:289-305 | after a restore, the note is back in its notebook's list |
| `Notebooks.Parse` | src/hooks/useNotebooks.ts:26-37 | a missing or empty parent becomes null, any other parent is kept; `deleted_at` is the stored `deletedAt`, absent exactly when that is; a stored `createdAt` or `updatedAt` is kept, and a missing one falls back to the client clock |
| `Notebooks.ActiveNotebooks` | src/hooks/useNotebooks.ts:63-67 | the active list holds exactly the parsed notebooks without `deletedAt`, each as often as it was read |
| `Notebooks.TrashedNotebooks` | src/hooks/useNotebooks.ts:88-91 | the trashed list holds exactly the parsed notebooks with `deletedAt`, each as often as it was read, newest deletion first |
| `Notebooks.Children` | src/hooks/useNotebooks.ts:100 | the direct children are exactly the notebooks whose parent is the id |
| `Notebooks.DescendantsAreReachable` | src/hooks/useNotebooks.ts:98-109 | when no cycle of parent links lies below the notebook (a rank on the notebooks below it exists), an id is among the descendants exactly when it is reachable from the notebook by following parent links downwards |
| `Notebooks.RankExcludesCycles` | src/hooks/useNotebooks.ts:98-109 | a rank on the notebooks below the start covers every notebook reachable from it, and none of them lies on a cycle |
| `Notebooks.CycleElsewhereHarmless` | src/hooks/useNotebooks.ts:190-211 | a cycle of parent links away from the notebook does not stop its cascade: soft deleting a root beside an `A`/`B` cycle writes the root and its notes only |
| `Notebooks.CascadeContiguous` | src/hooks/useNotebooks.ts:100-106 | the cascade list is in preorder: each notebook is immediately followed by exactly its own descendants |
| `Notebooks.ReversedCascadeChildrenFirst` | src/hooks/useNotebooks.ts:276-277 | in the reversed cascade, every descendant of a notebook comes before it |
| `Notebooks.CascadeWritesMembers` | src/hooks/useNotebooks.ts:200-211 | the cascade issues one write per notebook in the list and one per note inside it, and no other writes |
| `Notebooks.SoftDeleteCovers` | src/hooks/useNotebooks.ts:196-212 | soft delete stamps the notebook first, then every reachable descendant and every note in any of them, and writes nothing outside that set |
| `Notebooks.RestoreMirrorsSoftDelete` | src/hooks/useNotebooks.ts:235-250 | restore clears `deletedAt` on exactly the notebooks and notes that soft delete would stamp |
| `Notebooks.DeleteBlock` | src/hooks/useNotebooks.ts:278-287 | a notebook's block of permanent deletes ends with deleting the notebook |
| `Notebooks.PermanentDeleteOrder` | src/hooks/useNotebooks.ts:276-288 | every notebook deletion comes after the deletion of all its notes and of every notebook reachable below it |
| `Notebooks.PermanentDeleteRemovesOwn` | src/hooks/useNotebooks.ts:273-288 | permanent delete deletes the notebook itself and every note in it |
| `Notebooks.CreateRoundTrip` | src/hooks/useNotebooks.ts:117-133 | the notebook returned by create is what reading back the written document gives: title defaults to "Untitled", an empty parent to null, not deleted |
| `Notebooks.UpdatePatch` | src/hooks/useNotebooks.ts:152-155 | the update always sets `updatedAt`, and contains the title and parent exactly when they are supplied, and nothing else |
| `Notebooks.UpdateApplies` | src/hooks/useNotebooks.ts:146-157 | after the update, the supplied fields take the new values, the others keep theirs, and `updated_at` is the server time |
| `Notebooks.MovePatch` | src/hooks/useNotebooks.ts:170-176 | a move writes the same patch as an update that sets only the parent |
| `Notebooks.MoveCanCreateCycle` | src/hooks/useNotebooks.ts:170-176 | moving a notebook under its own child is accepted, and leaves the two notebooks on a cycle that no rank can cover, so no cascade can start from either |
| `Notebooks.CascadeSent` | src/hooks/useNotebooks.ts:201-211 | whatever its awaited steps settle as, the soft-delete or restore loop sends a prefix of the full write list, and the whole list when every step fulfils |
| `Notebooks.CascadeStopsAt` | src/hooks/useNotebooks.ts:201-211 | at the first rejected step of a notebook, the loop has sent everything for the notebooks before it, that notebook's own update, and its note updates only when the rejection came from them; nothing for later notebooks |
| `Notebooks.PartialSoftDeleteLeavesChildActive` | src/hooks/useNotebooks.ts:201-211 | when a child's update rejects, the parent and its notes are stamped and no note of the child is written: the child stays active below a trashed parent |
| `Notebooks.DeleteSent` | src/hooks/useNotebooks.ts:277-287 | whatever its awaited steps settle as, the permanent-delete loop sends a prefix of the full write list, and the whole list when every step fulfils |
| `Notebooks.PermanentDeleteStopsSafely` | src/hooks/useNotebooks.ts:277-287 | however the permanent delete is cut short, each notebook delete sent comes after the deletes of its notes and of every notebook reachable below it |
| `JsString.TrimEmptyIff` | src/components/layout/Sidebar.tsx:44-59 | a title trims to the empty string exactly when every character of it is white space |
| `JsString.TrimSlice` | src/components/layout/Sidebar.tsx:48-63 | the trimmed title is a slice of the original, all white space is removed around it, and it neither starts nor ends with white space |
| `JsString.TrimIdempotent` | src/components/layout/Sidebar.tsx:48-63 | trimming a trimmed title changes nothing |
| `Sorting.SortDesc` | src/hooks/useNotes.ts:78 | the sort is a permutation of its input, ordered by key from largest to smallest |
| `Sorting.SortStable` | src/hooks/useNotes.ts:78 | items with equal keys keep their input order |
| `Sidebar.HandleCreateNotebook` | src/components/layout/Sidebar.tsx:43-56 | nothing is sent exactly when there is no user or the title is blank; otherwise the trimmed title is sent; success clears the input and closes the creator; failure keeps both and alerts with the error's message or the fallback |
| `Sidebar.CreatedNotebookTitle` | src/components/layout/Sidebar.tsx:43-49 | the notebook created from the sidebar has the trimmed title, no parent and the signed-in user |
| `Sidebar.HandleRename` | src/components/layout/Sidebar.tsx:58-65 | a blank title leaves edit mode without an update; otherwise the trimmed title is sent, and edit mode ends only if the update succeeds |
| `Sidebar.RenameKeepsPlace` | src/components/layout/Sidebar.tsx:58-65 | a rename changes the title to the trimmed one and keeps the parent and the deletion state |
| `Sidebar.HandleDeleteNotebook` | src/components/layout/Sidebar.tsx:67-72 | a soft delete of the notebook is sent exactly when the user confirms |
| `Sidebar.HandleCreateNote` | src/components/layout/Sidebar.tsx:167-180 | a collapsed notebook is expanded, an expanded one left as it is, and then an "Untitled Note" with empty content is created in it |
| `Sidebar.CreatedNoteIsEmpty` | src/components/layout/Sidebar.tsx:172-176 | the created note is active, titled "Untitled Note", empty and in that notebook |
| `Sidebar.ClickNote` | src/components/layout/Sidebar.tsx:296 | clicking a note selects it and changes nothing else in the store |
| `Sidebar.HandleDeleteNote` | src/components/layout/Sidebar.tsx:280-286 | an unconfirmed delete does nothing; a confirmed one soft-deletes the note, and clears the selection exactly when that note was selected and the delete succeeded |
| `Sidebar.DeleteNoteSelection` | src/components/layout/Sidebar.tsx:280-286 | after a successful delete of the selected note, the store's selected note is null and nothing else changed; in every other case the store is unchanged |
| `Sidebar.TrashedIds` | src/components/layout/Sidebar.tsx:331 | the set holds exactly the ids of the trashed notebooks |
| `Sidebar.Orphans` | src/components/layout/Sidebar.tsx:334 | the orphans are the trashed notes, in order, whose notebook is not trashed |
| `Sidebar.GroupedKeys` | src/components/layout/Sidebar.tsx:337-345 | the groups are keyed by exactly the trashed notebooks that have trashed notes |
| `Sidebar.GroupedGroups` | src/components/layout/Sidebar.tsx:337-345 | each group holds exactly that notebook's trashed notes, in their original order |
| `Sidebar.TrashedNotePlaced` | src/components/layout/Sidebar.tsx:331-345 | every trashed note is in exactly one place: among the orphans when its notebook is not trashed, otherwise in its notebook's group and in no other |
| `Sidebar.TotalTrashedCounts` | src/components/layout/Sidebar.tsx:347 | the badge count plus the notes inside trashed notebooks equals all trashed notes plus all trashed notebooks |
| `Sidebar.TrashedNoteInTrashedNotebookUncounted` | src/components/layout/Sidebar.tsx:347 | a note inside a trashed notebook adds nothing to the count |
| `Sidebar.Toggle` | src/components/layout/Sidebar.tsx:349-356 | the toggle flips the membership of the given id and of no other |
| `Sidebar.ToggleTwice` | src/components/layout/Sidebar.tsx:349-356 | toggling the same id twice restores the set |
| `Sidebar.ClearCalls` | src/components/layout/Sidebar.tsx:358-367 | unconfirmed, nothing is deleted; confirmed, every trashed notebook is deleted in list order, then every orphan note |
| `Sidebar.Awaited` | src/components/layout/Sidebar.tsx:361-366 | the calls that run form a prefix of the planned calls: all of them when every call succeeds, and they stop right after the first failure |
| `Sidebar.ClearNamesEveryNote` | src/components/layout/Sidebar.tsx:358-367 | when confirmed, every trashed note is named either by its own delete or by the delete of its trashed notebook |
| `Sidebar.ClearReachesEveryNote` | src/components/layout/Sidebar.tsx:358-367 | when every call succeeds, every trashed note is deleted, directly or by its notebook's cascade, and no notebook delete follows a note delete |
| `PinPad.StepPad` | src/components/modals/PinCodeModal.tsx:22-114 | opening clears both buffers and the error and picks "create" when no PIN is stored, else "enter"; a later render repeats that reset exactly when whether a PIN is stored has changed since, and otherwise changes nothing; only a settled save changes the stored PIN; delete clears the error and drops the last character of the active buffer; escape closes |
| `PinPad.DropLast` | src/components/modals/PinCodeModal.tsx:58-60 | dropping the last character of a non-empty buffer leaves exactly its prefix, and an empty buffer stays empty |
| `PinPad.RunBounded` | src/components/modals/PinCodeModal.tsx:36-46 | through any sequence of events, both buffers stay at most four characters long |
| `PinPad.DigitClearsError` | src/components/modals/PinCodeModal.tsx:34-73 | a digit clears the error, unless it completes a wrong PIN in "enter", which sets "Incorrect PIN" and clears the buffer |
| `PinPad.CorrectPinUnlocks` | src/components/modals/PinCodeModal.tsx:36-68 | the fourth digit of the stored PIN in "enter" unlocks, closes and clears the buffer; when the unlock call throws, nothing after it runs, and the modal stays open holding the four digits |
| `PinPad.FullBufferIgnoresDigits` | src/components/modals/PinCodeModal.tsx:34-53 | a digit pressed on a full active buffer only clears the error |
| `PinPad.CreateMovesToConfirm` | src/components/modals/PinCodeModal.tsx:40-45 | the fourth digit in "create" schedules the move to "confirm", which happens when the delay elapses |
| `PinPad.ConfirmFinalizes` | src/components/modals/PinCodeModal.tsx:46-90 | the fourth confirmation digit schedules finalising; matching PINs are saved, and that PIN's save is awaited; a mismatch sets "PINs do not match", clears the confirmation, keeps the PIN and stays in "confirm" |
| `PinPad.SaveSettles` | src/components/modals/PinCodeModal.tsx:77-86 | the oldest awaited save settles; a successful one has already stored that PIN in the profile cache (an empty one as none) and then unlocks and closes; a failed one leaves the stored PIN as it was and returns to "create" with both buffers cleared and "Failed to save PIN", and so does a successful save whose unlock call throws |
| `PinPad.RunAppend` | src/components/modals/PinCodeModal.tsx:34-62 | running two event sequences one after the other is running their concatenation |
| `PinPad.SetupFlow` | src/components/modals/PinCodeModal.tsx:22-91 | with no stored PIN, opening, typing a PIN, waiting, typing it again, waiting and a successful save saves that PIN, then unlocks and closes; the PIN ends up stored either way; when the unlock call throws, the pad reports "Failed to save PIN" at an empty "create" step, and the next render, seeing the PIN stored, resets it to an empty "enter" step without the error |
| `PinPad.UnlockFlow` | src/components/modals/PinCodeModal.tsx:22-73 | with a non-empty stored PIN, opening and typing four digits unlocks exactly when they are the stored PIN and the unlock call works, leaving the buffer empty; when that call throws, the modal stays open with the four digits; any other PIN shows "Incorrect PIN" and empties the buffer |
| `PinPad.DeleteDuringDelay` | src/components/modals/PinCodeModal.tsx:40-62 | a delete pressed between the fourth digit and the move to "confirm" leaves a three-character PIN to be confirmed |
| `Auth.ValidatePasswordStrength` | src/hooks/useAuth.ts:53-59 | no message exactly when the password has at least 8 UTF-16 code units, an A-Z, a 0-9 and a character outside A-Za-z0-9; otherwise the message of the first failing check, in the order length, uppercase, digit, special |
| `Auth.AstralCharacterCountsTwice` | src/hooks/useAuth.ts:54 | length counts UTF-16 code units: six characters and an emoji pass the length check, seven characters inside the Basic Multilingual Plane do not |
| `Auth.FindSpecial` | src/hooks/useAuth.ts:57 | the search reports a character outside A-Za-z0-9 exactly when one exists |
| `Auth.AuthErrorMessage` | src/hooks/useAuth.ts:16-50 | every code gets a non-empty message: the nine listed codes get their own, and the fallback is given exactly when the code is not listed |
| `Auth.MessagesDistinct` | src/hooks/useAuth.ts:16-50 | different listed codes get different messages |
| `Auth.SignInRethrow` | src/hooks/useAuth.ts:83-90 | an error without a code is re-thrown unchanged; anything else becomes a new error carrying the friendly message |
| `Auth.SignIn` | src/hooks/useAuth.ts:74-91 | sign-in resolves exactly when the user's e-mail is verified; an unverified user is signed out and refused with the verify-first message, unless that sign-out fails, which throws the sign-out error converted the same way; a failed sign-in throws the converted error |
| `Auth.UnverifiedSignInRefused` | src/hooks/useAuth.ts:79-82 | an unverified sign-in calls sign-in and then sign-out, and throws the verify-first error |
| `Auth.SignInErrors` | src/hooks/useAuth.ts:83-90 | a coded error is converted to its friendly message; an uncoded `Error` comes out unchanged |
| `Auth.SignUp` | src/hooks/useAuth.ts:93-122 | a weak password throws its message before any call; otherwise the calls are a prefix of create user, send verification, write profile, sign out; it resolves with the verification notice exactly when no step fails, and otherwise stops at the failing step and throws the converted error |
| `Auth.SignUpEndsSignedOut` | src/hooks/useAuth.ts:100-117 | a successful sign-up sends the verification, writes the profile and ends signed out |
| `Auth.ResetPassword` | src/hooks/useAuth.ts:128-135 | reset sends one reset request, resolves with the notice exactly when it succeeds, and otherwise throws the converted error |
| `Auth.Notified` | src/hooks/useAuth.ts:65-72 | an auth-state notification stores the user and ends loading |
| `Auth.AuthenticatedIffVerified` | src/hooks/useAuth.ts:137-141 | initially loading and not authenticated; after a notification, authenticated exactly when a user is present and verified |
| `UiStore.Init` | src/stores/uiStore.ts:23-36 | initially the sidebar is open, nothing is selected, and dark mode follows the system preference |
| `UiStore.ActionsTouchOwnFields` | src/stores/uiStore.ts:24-38 | sidebar actions leave the selection and theme alone, selection actions the sidebar and theme, theme actions the rest; selecting a notebook also clears the note selection, and selecting a note keeps the notebook |
| `UiStore.ToggleTwice` | src/stores/uiStore.ts:24-37 | toggling the sidebar or the theme twice restores the store |
| `UiStore.SetIdempotent` | src/stores/uiStore.ts:25-38 | setting a flag sets it exactly, and setting it again changes nothing |
| `UiStore.SelectionOrder` | src/stores/uiStore.ts:30-31 | selecting a note after a notebook keeps both; selecting a notebook after a note drops the note |

## Left out

- Firestore I/O, `onSnapshot` subscriptions and React Query cache invalidation. Reads are inputs; writes are recorded as values.
- Real timers, the event loop and promise scheduling. Timer expiry and settlement are explicit events, and `Promise.all` batches are modelled as one ordered block of writes.
- Notebooks.CascadeSent: a rejected `Promise.all` of note writes counts its whole batch as sent. Every write in it was issued, but which of them reached Firestore is not modelled. `Notebooks.DeleteSent` treats the note deletes the same way.
- Notebooks.CascadeSent: a rejection of the opening `getDocs` of all notebooks, or of the descendant walk, sends no write at all. The model starts from the parsed list and the cascade, so this path is not a separate case.
- ISO date strings and `new Date()` parsing. Timestamps are integers, and the client clock is the parameter `now`.
- Notebooks.ActiveNotebooks: the active list keeps the document order instead of sorting by `localeCompare` on titles, because locale collation is not modelled.
- Debounce.FlushCases: the promise that a flushed invocation never starts while an earlier one runs holds only for the tracked invocation. With two timer-fired invocations, a flush can overlap the later one, as `Debounce.FlushMayOverlapTimerCall` exhibits.
- PinPad.StepPad: a key press is a single character, so the keyboard handler's string comparison `e.key >= '0' && e.key <= '9'` on multi-character key names is not modelled.
- PinPad.StepPad: the loading overlay and the rendering of the pad are not modelled. A working `unlockPrivateSpace` is only recorded as the `Unlock` effect, because the store declares no such action to model.
- PinPad.SetupFlow: the render after the `catch` is a separate `Rendered` event. A render that React performs between `onSuccess` and the `catch` (its reset would then be overwritten by the `catch`'s state) is not modelled.
- PinPad.StepPad: `Rendered` stands for a render while the modal is open. Closing the modal and rendering it closed are not modelled; the next `Opened` runs the reset in any case.
- PinPad.StepPad: the stored PIN changes only through this modal's own saves. A profile refetch, another tab's write, and the profile still loading are not modelled.
- PinPad.StepPad: when several saves are awaited at once, a `SaveSettled` event settles the oldest. Saves that settle out of order are not modelled.
- PinPad.StepPad: when the unlock call throws, the `TypeError` leaves the handler. How React and the browser then report it is not modelled. The model keeps only the state the handler had set before the throw.
- Sidebar.HandleCreateNote: a failed note creation is only logged to the console, so it produces no effect in the model.
- Sidebar.HandleRename: modelled as the component intends. At this revision, rendering a `NotebookItem` throws on the undeclared `expandedNotebooks` (Sidebar.tsx:161), so the handler never runs.
- Sidebar.RenameKeepsPlace: about `Sidebar.HandleRename`, which cannot run at this revision, for the same reason.
- Sidebar.HandleDeleteNotebook: passed to `NotebookItem`, which cannot render at this revision, so it never runs.
- Sidebar.HandleCreateNote: part of `NotebookItem`, which cannot render at this revision, so it never runs.
- Sidebar.CreatedNoteIsEmpty: about `Sidebar.HandleCreateNote`, which cannot run at this revision.
- Sidebar.ClickNote: part of `NoteItem`, which is only rendered inside a `NotebookItem`, so it never runs at this revision.
- Sidebar.HandleDeleteNote: part of `NoteItem`, which cannot run at this revision, for the same reason.
- Sidebar.DeleteNoteSelection: about `Sidebar.HandleDeleteNote`, which cannot run at this revision.
- The expanded-notebooks set that `Sidebar` reads from the store is recorded only as `ExpandNotebook` effects, because the store does not declare it. `selectNote`'s second argument is dropped for the same reason.
- `MainView`'s `useNote` call without a notebook id. `Session` takes the query's result as an input instead of deriving it from `Notes.FetchNote`.
- `src/components/layout/NoteList.tsx`: it is not rendered, and it imports a hook that `useNotes.ts` does not define.
- `useProfile.ts` and `useUserSettings.ts`: thin Firestore wrappers with trivial defaults. The one part `PinPad` needs, that a successful PIN save writes the PIN into the cached profile, is modelled in `PinPad`'s save settlement.
- UI, boot and configuration files: `LoginForm`, `SettingsModal`, `App`, `main.tsx`, `ErrorBoundary`, `UpdatePrompt`, `ThemeToggle`, `navigation`, and the build configs.
- `src/lib/types.ts` and `database.types.ts`: declarations only. The model uses the shapes the hooks build.
- Notebooks.DescendantsAreReachable: holds only when no cycle of parent links lies below the notebook. On such a cycle the code's walk recurses until the stack overflows, and the mutation rejects with a `RangeError` before any write. The model requires a rank on the notebooks below and does not model that rejection.
- No `isDescendant` check before reparenting, and no dirty-title guard: the code has neither. `Notebooks.MoveCanCreateCycle` shows what a move can do without the check.

=== FILE: auth.dfy ===
/**
 * `useAuth.ts`: password-strength validation, the mapping from Firebase error codes to
 * messages, and the sign-in, sign-up and password-reset flows. A Firebase call either
 * succeeds or throws a value; each flow returns the calls it made, in order, and how its own
 * promise settles.
 */
module Auth {
  import opened Wrappers
  import opened JsString

  // ---------------------------------------------------------------------------------------
  // Password strength

  const MinPasswordLength := 8

  const TooShort := "Password must be at least 8 characters long."
  const NoUppercase := "Password must contain at least one uppercase letter."
  const NoDigit := "Password must contain at least one number."
  const NoSpecial := "Password must contain at least one special character."

  predicate IsUpper(c: char) { 'A' <= c <= 'Z' }
  predicate IsDigit(c: char) { '0' <= c <= '9' }
  predicate IsLower(c: char) { 'a' <= c <= 'z' }

  /** `/[A-Z]/.test(s)` */
  predicate HasUpper(s: string) { exists i :: 0 <= i < |s| && IsUpper(s[i]) }
  /** `/[0-9]/.test(s)` */
  predicate HasDigit(s: string) { exists i :: 0 <= i < |s| && IsDigit(s[i]) }
  /** `/[^A-Za-z0-9]/.test(s)`; a character outside the Basic Multilingual Plane is two
      surrogate code units, neither of them alphanumeric, so it counts as special either way. */
  predicate HasSpecial(s: string) { exists i :: 0 <= i < |s| && !IsUpper(s[i]) && !IsLower(s[i]) && !IsDigit(s[i]) }

  function FindUpper(s: string): (r: bool)
    ensures r <==> HasUpper(s)
    decreases |s|
  {
    if s == [] then false
    else
      assert forall i :: 0 < i < |s| ==> s[i] == s[1..][i - 1];
      IsUpper(s[0]) || FindUpper(s[1..])
  }

  function FindDigit(s: string): (r: bool)
    ensures r <==> HasDigit(s)
    decreases |s|
  {
    if s == [] then false
    else
      assert forall i :: 0 < i < |s| ==> s[i] == s[1..][i - 1];
      IsDigit(s[0]) || FindDigit(s[1..])
  }

  function FindSpecial(s: string): (r: bool)
    ensures r <==> HasSpecial(s)
    decreases |s|
  {
    if s == [] then false
    else
      assert forall i :: 0 < i < |s| ==> s[i] == s[1..][i - 1];
      (!IsUpper(s[0]) && !IsLower(s[0]) && !IsDigit(s[0])) || FindSpecial(s[1..])
  }

  /** `validatePasswordStrength`: no message exactly for a strong password, otherwise the
      message of the first failing check, in the order length, uppercase, digit, special. The
      length is JavaScript's, in UTF-16 code units. */
  function ValidatePasswordStrength(password: string): (r: Option<string>)
    ensures r.None? <==>
      Utf16Length(password) >= MinPasswordLength && HasUpper(password) && HasDigit(password) && HasSpecial(password)
    ensures r == Some(TooShort) <==> Utf16Length(password) < MinPasswordLength
    ensures r == Some(NoUppercase) <==> Utf16Length(password) >= MinPasswordLength && !HasUpper(password)
    ensures r == Some(NoDigit) <==>
      Utf16Length(password) >= MinPasswordLength && HasUpper(password) && !HasDigit(password)
    ensures r == Some(NoSpecial) <==>
      Utf16Length(password) >= MinPasswordLength && HasUpper(password) && HasDigit(password) && !HasSpecial(password)
  {
    if Utf16Length(password) < MinPasswordLength then Some(TooShort)
    else if !FindUpper(password) then Some(NoUppercase)
    else if !FindDigit(password) then Some(NoDigit)
    else if !FindSpecial(password) then Some(NoSpecial)
    else None
  }

  /** Length is counted in UTF-16 code units: seven characters pass the length check when one
      of them lies outside the Basic Multilingual Plane, and seven plain ones do not. */
  lemma AstralCharacterCountsTwice()
    ensures ValidatePasswordStrength("Ab1!xy\U{1F600}").None?
    ensures ValidatePasswordStrength("Ab1!xyz") == Some(TooShort)
  {
    var p := "Ab1!xy\U{1F600}";
    assert |p| == 7;
    assert Utf16Length(p) == 8 by {
      assert p[1..] == "b1!xy\U{1F600}";
      assert p[1..][1..] == "1!xy\U{1F600}";
      assert p[1..][1..][1..] == "!xy\U{1F600}";
      assert p[1..][1..][1..][1..] == "xy\U{1F600}";
      assert p[1..][1..][1..][1..][1..] == "y\U{1F600}";
      assert p[1..][1..][1..][1..][1..][1..] == "\U{1F600}";
    }
    assert IsUpper(p[0]) && IsDigit(p[2]) && !IsLower(p[3]);
  }

  // ---------------------------------------------------------------------------------------
  // Error messages

  const Fallback := "Something went wrong. Please try again."

  /** The codes `getAuthErrorMessage` knows, with their messages. */
  const Messages: map<string, string> := map[
    "auth/invalid-email" := "Please enter a valid email address.",
    "auth/email-already-in-use" := "This email is already registered. Try signing in instead.",
    "auth/user-not-found" := "No account found with this email. Please sign up first.",
    "auth/weak-password" := "Password must be at least 8 characters, including uppercase, number, and special character.",
    "auth/wrong-password" := "Incorrect password. Please try again.",
    "auth/user-disabled" := "This account has been disabled. Contact support for help.",
    "auth/too-many-requests" := "Too many failed attempts. Please wait a moment and try again.",
    "auth/network-request-failed" := "Network error. Please check your internet connection.",
    "auth/invalid-credential" := "Invalid email or password. Please check and try again."]

  /** `getAuthErrorMessage`, on the error's `code` (`None` when it has none). Every code gets a
      non-empty message; the fallback is used exactly for codes outside the table. */
  function AuthErrorMessage(code: Option<string>): (r: string)
    ensures r != ""
    ensures code.Some? && code.value in Messages ==> r == Messages[code.value]
    ensures r == Fallback <==> !(code.Some? && code.value in Messages)
  {
    if code.Some? && code.value in Messages then Messages[code.value] else Fallback
  }

  /** Different known codes give different messages. */
  lemma MessagesDistinct(a: string, b: string)
    requires a in Messages && b in Messages && a != b
    ensures AuthErrorMessage(Some(a)) != AuthErrorMessage(Some(b))
  {}

  // ---------------------------------------------------------------------------------------
  // The flows

  /** A thrown value: whether it is an `Error`, its `code` property if it has one, and its
      message. */
  datatype Thrown = Thrown(isError: bool, code: Option<string>, message: string)

  /** `new Error(message)`: an error without a code. */
  function NewError(message: string): Thrown {
    Thrown(true, None, message)
  }

  datatype Call =
    | SignInWithPassword(email: string, password: string)
    | SignOut
    | CreateUser(email: string, password: string)
    | SendVerification
    | WriteProfile
    | SendPasswordReset(email: string)

  /** How a flow's promise settles: with its value, or by throwing. */
  datatype Settled = Resolved(value: Option<string>) | Threw(error: Thrown)

  /** The catch block of `signIn`: an `Error` without a code is re-thrown as it is, anything
      else becomes a new error carrying the friendly message. */
  function SignInRethrow(e: Thrown): (r: Thrown)
    ensures e.isError && e.code.None? ==> r == e
    ensures !(e.isError && e.code.None?) ==> r == NewError(AuthErrorMessage(e.code))
    ensures r.isError && r.code.None?
  {
    if e.isError && e.code.None? then e else NewError(AuthErrorMessage(e.code))
  }

  const VerifyFirst := "Please verify your email before signing in. Check your inbox for the verification link."

  /** The outcome of the Firebase sign-in: the user's `emailVerified`, or what it threw. */
  datatype SignInResult = SignedIn(emailVerified: bool) | SignInFailed(error: Thrown)

  /** `signIn`; `signOutFailure` is what the sign-out throws, if it does. */
  function SignIn(email: string, password: string, result: SignInResult, signOutFailure: Option<Thrown>): (r: (seq<Call>, Settled))
    ensures r.0 == [SignInWithPassword(email, password)] + (if result == SignedIn(false) then [SignOut] else [])
    ensures r.1.Resolved? <==> result == SignedIn(true)
    ensures result == SignedIn(false) && signOutFailure.None? ==> r.1 == Threw(NewError(VerifyFirst))
    ensures result == SignedIn(false) && signOutFailure.Some? ==> r.1 == Threw(SignInRethrow(signOutFailure.value))
    ensures result.SignInFailed? ==> r.1 == Threw(SignInRethrow(result.error))
  {
    match result
    case SignInFailed(e) => ([SignInWithPassword(email, password)], Threw(SignInRethrow(e)))
    case SignedIn(verified) =>
      if verified then ([SignInWithPassword(email, password)], Resolved(None))
      else
        var thrown := if signOutFailure.Some? then signOutFailure.value else NewError(VerifyFirst);
        ([SignInWithPassword(email, password), SignOut], Threw(SignInRethrow(thrown)))
  }

  /** An unverified user is signed out again and never signed in, and is told to verify. */
  lemma UnverifiedSignInRefused(email: string, password: string)
    ensures SignIn(email, password, SignedIn(false), None) ==
      ([SignInWithPassword(email, password), SignOut], Threw(Thrown(true, None, VerifyFirst)))
  {}

  /** A coded Firebase error reaches the caller as its friendly message, and an uncoded `Error`
      unchanged. */
  lemma SignInErrors(email: string, password: string, e: Thrown)
    ensures var r := SignIn(email, password, SignInFailed(e), None).1;
      && (e.code.Some? ==> r == Threw(NewError(AuthErrorMessage(e.code))))
      && (e.isError && e.code.None? ==> r == Threw(e))
  {}

  const VerificationSent := "Verification email sent! Please check your inbox."

  /** The Firebase calls of `signUp` after validation, in order. */
  function SignUpCalls(email: string, password: string): seq<Call> {
    [CreateUser(email, password), SendVerification, WriteProfile, SignOut]
  }

  /** `signUp`; `failure` names the first call that throws (by its index in the sequence) and
      what it throws. A weak password is refused before any call; after that, the calls run in
      order up to the first that throws, whose error becomes the friendly message. */
  function SignUp(email: string, password: string, failure: Option<(nat, Thrown)>): (r: (seq<Call>, Settled))
    ensures ValidatePasswordStrength(password).Some? ==>
      r == ([], Threw(NewError(ValidatePasswordStrength(password).value)))
    ensures ValidatePasswordStrength(password).None? ==>
      && 0 < |r.0| <= |SignUpCalls(email, password)| && r.0 == SignUpCalls(email, password)[..|r.0|]
      && (r.1.Resolved? <==> failure.None? || failure.value.0 >= 4)
      && (r.1.Resolved? ==> r.0 == SignUpCalls(email, password) && r.1.value == Some(VerificationSent))
      && (r.1.Threw? ==> |r.0| == failure.value.0 + 1 && r.1.error == NewError(AuthErrorMessage(failure.value.1.code)))
  {
    var weak := ValidatePasswordStrength(password);
    if weak.Some? then ([], Threw(NewError(weak.value)))
    else
      var calls := SignUpCalls(email, password);
      if failure.None? || failure.value.0 >= |calls| then (calls, Resolved(Some(VerificationSent)))
      else (calls[..failure.value.0 + 1], Threw(NewError(AuthErrorMessage(failure.value.1.code))))
  }

  /** A sign-up that succeeds ends signed out, the new user having been sent the verification
      mail and given a profile first. */
  lemma SignUpEndsSignedOut(email: string, password: string)
    requires ValidatePasswordStrength(password).None?
    ensures var r := SignUp(email, password, None);
      r.0[|r.0| - 1] == SignOut && SendVerification in r.0 && WriteProfile in r.0
  {}

  const ResetSent := "Password reset email sent! Please check your inbox."

  /** `resetPassword` */
  function ResetPassword(email: string, failure: Option<Thrown>): (r: (seq<Call>, Settled))
    ensures r.0 == [SendPasswordReset(email)]
    ensures failure.None? <==> r.1 == Resolved(Some(ResetSent))
    ensures failure.Some? ==> r.1 == Threw(NewError(AuthErrorMessage(failure.value.code)))
  {
    if failure.None? then ([SendPasswordReset(email)], Resolved(Some(ResetSent)))
    else ([SendPasswordReset(email)], Threw(NewError(AuthErrorMessage(failure.value.code))))
  }

  // ---------------------------------------------------------------------------------------
  // Session state

  datatype User = User(uid: string, emailVerified: bool)

  datatype AuthState = AuthState(user: Option<User>, loading: bool)

  function Initial(): AuthState { AuthState(None, true) }

  /** The `onAuthStateChanged` listener. */
  function Notified(s: AuthState, u: Option<User>): (r: AuthState)
    ensures r.user == u && !r.loading
  {
    AuthState(u, false)
  }

  /** `isAuthenticated` */
  function IsAuthenticated(s: AuthState): (r: bool)
    ensures r <==> s.user.Some? && s.user.value.emailVerified
  {
    s.user.Some? && s.user.value.emailVerified
  }

  /** Before the first notification nobody is authenticated; afterwards exactly a verified user
      is, whatever came before. */
  lemma AuthenticatedIffVerified(s: AuthState, u: Option<User>)
    ensures !IsAuthenticated(Initial()) && Initial().loading
    ensures IsAuthenticated(Notified(s, u)) <==> u.Some? && u.value.emailVerified
  {}
}

=== FILE: debounce.dfy ===
/**
 * The debounced callback of `useDebouncedCallback`, as an event-driven state machine.
 *
 * The hook keeps three refs: the pending arguments, the timeout handle and the promise of the
 * tracked in-flight invocation. Timer expiry, the settling of a promise and the component's
 * unmount are explicit events here. Every invocation of the wrapped callback is appended to
 * `calls`; an invocation is named by its index in that trace. Every callback the application
 * wraps is an `async` function, so every tracked invocation yields a promise.
 */
module Debounce {
  import opened Wrappers

  /** The timeout ref: no handle, a live handle whose closure captured `args`, or a handle that
      was cleared without the ref being nulled (only the unmount cleanup does that). */
  datatype Timer<A> = Idle | Armed(args: A) | Stale

  /** Where one call of `flush()` stands: suspended on the tracked promise of an earlier
      invocation, suspended on the invocation it started itself, or settled. */
  datatype FlushState = Awaiting(promise: nat) | Running(promise: nat) | Finished(outcome: Outcome)

  datatype Debouncer<A> = Debouncer(
    pending: Option<A>,     // pendingArgsRef
    timer: Timer<A>,        // timeoutRef
    tracked: Option<nat>,   // inflightPromiseRef, by invocation
    running: set<nat>,      // tracked invocations whose promise has not settled yet
    flushes: seq<FlushState>, // every flush() call so far, oldest first
    calls: seq<A>)          // every invocation of the callback, oldest first

  datatype Event<A> =
    | Called(args: A)
    | TimerExpired
    | Flushed
    | Cancelled
    | Settled(promise: nat, outcome: Outcome)
    | Unmounted

  function Init<A>(): Debouncer<A> {
    Debouncer(None, Idle, None, {}, [], [])
  }

  /** Runs the callback with `a` and tracks its promise. */
  function Invoke<A>(s: Debouncer<A>, a: A): (r: Debouncer<A>)
    ensures r.calls == s.calls + [a] && r.tracked == Some(|s.calls|)
    ensures r.running == s.running + {|s.calls|}
    ensures r.pending == s.pending && r.timer == s.timer && r.flushes == s.flushes
  {
    s.(calls := s.calls + [a], running := s.running + {|s.calls|}, tracked := Some(|s.calls|))
  }

  /** Calling the debounced function: clear any armed timer, record the arguments, arm a new
      timer whose closure captures them. */
  function Call<A>(s: Debouncer<A>, a: A): Debouncer<A> {
    s.(pending := Some(a), timer := Armed(a))
  }

  /** The armed timer expires: invoke with the arguments its closure captured, track the
      promise, then null both refs. A cleared timer never fires. */
  function Fire<A>(s: Debouncer<A>): Debouncer<A> {
    match s.timer
    case Armed(a) => Invoke(s, a).(pending := None, timer := Idle)
    case _ => s
  }

  /** The part of flush() after any wait: if the timeout ref and the pending arguments are both
      set, null them, invoke and suspend on that invocation; otherwise resolve. */
  function Proceed<A>(s: Debouncer<A>, i: nat): (r: Debouncer<A>)
    requires i < |s.flushes|
    ensures |r.flushes| == |s.flushes|
    ensures forall j :: 0 <= j < |s.flushes| && j != i ==> r.flushes[j] == s.flushes[j]
    ensures r.running >= s.running && r.running <= s.running + {|s.calls|}
    ensures |r.calls| >= |s.calls|
  {
    if !s.timer.Idle? && s.pending.Some? then
      var q := |s.calls|;
      Invoke(s.(timer := Idle, pending := None), s.pending.value).(flushes := s.flushes[i := Running(q)])
    else
      s.(flushes := s.flushes[i := Finished(Fulfilled)])
  }

  /** Calling flush(): wait for the tracked promise if there is one, otherwise go on at once. */
  function Flush<A>(s: Debouncer<A>): Debouncer<A> {
    match s.tracked
    case Some(p) => s.(flushes := s.flushes + [Awaiting(p)])
    case None => Proceed(s.(flushes := s.flushes + [Finished(Fulfilled)]), |s.flushes|)
  }

  /** cancel(): when the timeout ref is set, clear it and drop the pending arguments. */
  function Cancel<A>(s: Debouncer<A>): Debouncer<A> {
    if !s.timer.Idle? then s.(timer := Idle, pending := None) else s
  }

  /** hasPending() */
  predicate HasPending<A>(s: Debouncer<A>) {
    s.pending.Some? || s.tracked.Some?
  }

  /** Invocation `q` settles with `o`. Whichever `finally` handler was attached to it nulls the
      in-flight ref (without looking at which promise it holds); then every flush suspended on
      `q` resumes, in the order the flushes were called. */
  function Settle<A>(s: Debouncer<A>, q: nat, o: Outcome): Debouncer<A> {
    if q !in s.running then s
    else Resume(s.(running := s.running - {q}, tracked := None), q, o, 0)
  }

  function Resume<A>(s: Debouncer<A>, q: nat, o: Outcome, i: nat): (r: Debouncer<A>)
    requires i <= |s.flushes|
    ensures |r.flushes| == |s.flushes|
    ensures |r.calls| >= |s.calls|
    decreases |s.flushes| - i
  {
    if i == |s.flushes| then s
    else
      var s' := match s.flushes[i]
        case Running(p) =>
          if p == q then s.(flushes := s.flushes[i := Finished(o)]) else s
        case Awaiting(p) =>
          if p != q then s
          else if o == Rejected then s.(flushes := s.flushes[i := Finished(Rejected)])
          else Proceed(s, i)
        case Finished(_) => s;
      Resume(s', q, o, i + 1)
  }

  /** The unmount cleanup: when the timeout ref and the pending arguments are both set, clear
      the timer and invoke once with the pending arguments. The promise is not tracked and
      neither ref is nulled. */
  function Unmount<A>(s: Debouncer<A>): Debouncer<A> {
    if !s.timer.Idle? && s.pending.Some? then
      s.(timer := Stale, calls := s.calls + [s.pending.value])
    else s
  }

  function Step<A>(s: Debouncer<A>, e: Event<A>): Debouncer<A> {
    match e
    case Called(a) => Call(s, a)
    case TimerExpired => Fire(s)
    case Flushed => Flush(s)
    case Cancelled => Cancel(s)
    case Settled(q, o) => Settle(s, q, o)
    case Unmounted => Unmount(s)
  }

  function Run<A>(s: Debouncer<A>, es: seq<Event<A>>): Debouncer<A>
    decreases |es|
  {
    if es == [] then s else Run(Step(s, es[0]), es[1..])
  }

  /** Calls the debounced function with each of `args` in turn, no timer expiring between. */
  function CallAll<A>(s: Debouncer<A>, args: seq<A>): Debouncer<A>
    decreases |args|
  {
    if args == [] then s else CallAll(Call(s, args[0]), args[1..])
  }

  // ---------------------------------------------------------------------------------------
  // The invariant of the refs

  predicate RefersTo(f: FlushState, live: set<nat>) {
    match f
    case Awaiting(p) => p in live
    case Running(p) => p in live
    case Finished(_) => true
  }

  /** The timeout ref is set exactly when arguments are pending, a live timer captured exactly
      the pending arguments, the in-flight ref names a running invocation, and every suspended
      flush waits on a running invocation. */
  ghost predicate Inv<A>(s: Debouncer<A>) {
    && (s.timer.Idle? <==> s.pending.None?)
    && (s.timer.Armed? ==> s.pending == Some(s.timer.args))
    && (s.tracked.Some? ==> s.tracked.value in s.running)
    && (forall q :: q in s.running ==> q < |s.calls|)
    && (forall j :: 0 <= j < |s.flushes| ==> RefersTo(s.flushes[j], s.running))
  }

  lemma InitInv<A>()
    ensures Inv(Init<A>())
  {}

  /** Inv while the flushes suspended on the settled invocation `q` are being resumed: those
      before `i` are done with it, those from `i` on may still name it. */
  ghost predicate ResumeInv<A>(s: Debouncer<A>, q: nat, i: nat) {
    && i <= |s.flushes|
    && (s.timer.Idle? <==> s.pending.None?)
    && (s.timer.Armed? ==> s.pending == Some(s.timer.args))
    && (s.tracked.Some? ==> s.tracked.value in s.running)
    && (forall p :: p in s.running ==> p < |s.calls|)
    && q < |s.calls| && q !in s.running
    && (forall j :: 0 <= j < i ==> RefersTo(s.flushes[j], s.running))
    && (forall j :: i <= j < |s.flushes| ==> RefersTo(s.flushes[j], s.running + {q}))
  }

  lemma ProceedInv<A>(s: Debouncer<A>, i: nat, q: nat)
    requires i < |s.flushes|
    requires (s.timer.Idle? <==> s.pending.None?)
    requires s.timer.Armed? ==> s.pending == Some(s.timer.args)
    requires s.tracked.Some? ==> s.tracked.value in s.running
    requires forall p :: p in s.running ==> p < |s.calls|
    ensures var r := Proceed(s, i);
      && (r.timer.Idle? <==> r.pending.None?)
      && (r.timer.Armed? ==> r.pending == Some(r.timer.args))
      && (r.tracked.Some? ==> r.tracked.value in r.running)
      && (forall p :: p in r.running ==> p < |r.calls|)
      && RefersTo(r.flushes[i], r.running)
      && |r.calls| >= |s.calls|
  {}

  lemma {:induction false} ResumePreservesInv<A>(s: Debouncer<A>, q: nat, o: Outcome, i: nat)
    requires ResumeInv(s, q, i)
    ensures Inv(Resume(s, q, o, i))
    decreases |s.flushes| - i
  {
    if i < |s.flushes| {
      var s' := match s.flushes[i]
        case Running(p) =>
          if p == q then s.(flushes := s.flushes[i := Finished(o)]) else s
        case Awaiting(p) =>
          if p != q then s
          else if o == Rejected then s.(flushes := s.flushes[i := Finished(Rejected)])
          else Proceed(s, i)
        case Finished(_) => s;
      assert Resume(s, q, o, i) == Resume(s', q, o, i + 1);
      if s.flushes[i].Awaiting? && s.flushes[i].promise == q && o == Fulfilled {
        ProceedInv(s, i, q);
        assert s' == Proceed(s, i);
        assert ResumeInv(s', q, i + 1);
      } else {
        assert ResumeInv(s', q, i + 1);
      }
      ResumePreservesInv(s', q, o, i + 1);
    }
  }

  lemma SettlePreservesInv<A>(s: Debouncer<A>, q: nat, o: Outcome)
    requires Inv(s)
    ensures Inv(Settle(s, q, o))
  {
    if q in s.running {
      var t := s.(running := s.running - {q}, tracked := None);
      assert ResumeInv(t, q, 0);
      ResumePreservesInv(t, q, o, 0);
    }
  }

  /** Every event keeps the invariant. */
  lemma StepPreservesInv<A>(s: Debouncer<A>, e: Event<A>)
    requires Inv(s)
    ensures Inv(Step(s, e))
  {
    match e
    case Settled(q, o) => SettlePreservesInv(s, q, o);
    case Flushed =>
      if s.tracked.None? {
        ProceedInv(s.(flushes := s.flushes + [Finished(Fulfilled)]), |s.flushes|, 0);
      }
    case _ =>
  }

  lemma {:induction false} RunPreservesInv<A>(s: Debouncer<A>, es: seq<Event<A>>)
    requires Inv(s)
    ensures Inv(Run(s, es))
    decreases |es|
  {
    if es != [] {
      StepPreservesInv(s, es[0]);
      RunPreservesInv(Step(s, es[0]), es[1..]);
    }
  }

  /** Every state reachable from the initial one satisfies the invariant. */
  lemma ReachableInv<A>(es: seq<Event<A>>)
    ensures Inv(Run(Init<A>(), es))
  {
    RunPreservesInv(Init<A>(), es);
  }

  // ---------------------------------------------------------------------------------------
  // Coalescing

  lemma {:induction false} CallAllKeepsLast<A>(s: Debouncer<A>, args: seq<A>)
    requires |args| > 0
    ensures var r := CallAll(s, args);
      && r.timer == Armed(args[|args| - 1]) && r.pending == Some(args[|args| - 1])
      && r.calls == s.calls && r.running == s.running && r.tracked == s.tracked
      && r.flushes == s.flushes
    decreases |args|
  {
    if |args| > 1 {
      CallAllKeepsLast(Call(s, args[0]), args[1..]);
    }
  }

  /** Rapid calls coalesce: after any number of calls with no expiry between, the timer
      expiring invokes the callback exactly once, with the last call's arguments, and leaves
      nothing pending. */
  lemma Coalesce<A>(s: Debouncer<A>, args: seq<A>)
    requires |args| > 0
    ensures var r := Fire(CallAll(s, args));
      && r.calls == s.calls + [args[|args| - 1]]
      && r.pending.None? && r.timer.Idle?
      && r.tracked == Some(|s.calls|)
  {
    CallAllKeepsLast(s, args);
  }

  // ---------------------------------------------------------------------------------------
  // flush, cancel, hasPending, settle, unmount

  /** flush() invokes the callback at once exactly when nothing is tracked in flight and
      arguments are pending; it then invokes it with those arguments, leaves nothing pending
      and suspends on that invocation. With something tracked it invokes nothing and waits on
      exactly that promise; with nothing pending and nothing tracked it resolves at once. */
  lemma FlushCases<A>(s: Debouncer<A>)
    requires Inv(s)
    ensures var r := Flush(s);
      && |r.flushes| == |s.flushes| + 1
      && (s.tracked.Some? ==>
            r.calls == s.calls && r.pending == s.pending && r.flushes[|s.flushes|] == Awaiting(s.tracked.value))
      && (s.tracked.None? && s.pending.Some? ==>
            r.calls == s.calls + [s.pending.value] && r.pending.None? && r.timer.Idle?
            && r.flushes[|s.flushes|] == Running(|s.calls|))
      && (s.tracked.None? && s.pending.None? ==>
            r.calls == s.calls && r.flushes[|s.flushes|] == Finished(Fulfilled))
  {}

  /** A flush suspended on invocation `p` stays suspended, and so invokes nothing, through every
      event except the settling of `p`; while it waits, `p` is still running. */
  lemma AwaitingUntilSettled<A>(s: Debouncer<A>, e: Event<A>, i: nat)
    requires Inv(s)
    requires i < |s.flushes| && s.flushes[i].Awaiting?
    requires !(e.Settled? && e.promise == s.flushes[i].promise)
    ensures s.flushes[i].promise in s.running
    ensures i < |Step(s, e).flushes| && Step(s, e).flushes[i] == s.flushes[i]
  {
    var p := s.flushes[i].promise;
    assert RefersTo(s.flushes[i], s.running);
    match e
    case Settled(q, o) =>
      if q in s.running {
        ResumeUntouched(s.(running := s.running - {q}, tracked := None), q, o, 0, i);
      }
    case Flushed =>
      if s.tracked.None? {
        var t := s.(flushes := s.flushes + [Finished(Fulfilled)]);
        assert Proceed(t, |s.flushes|).flushes[i] == t.flushes[i];
      }
    case _ =>
  }

  /** Resuming the flushes on `q` leaves alone every flush not suspended on `q`. */
  lemma {:induction false} ResumeUntouched<A>(s: Debouncer<A>, q: nat, o: Outcome, i: nat, k: nat)
    requires i <= |s.flushes| && k < |s.flushes|
    requires !(s.flushes[k].Awaiting? && s.flushes[k].promise == q)
    requires !(s.flushes[k].Running? && s.flushes[k].promise == q)
    ensures Resume(s, q, o, i).flushes[k] == s.flushes[k]
    decreases |s.flushes| - i
  {
    if i < |s.flushes| {
      var s' := match s.flushes[i]
        case Running(p) =>
          if p == q then s.(flushes := s.flushes[i := Finished(o)]) else s
        case Awaiting(p) =>
          if p != q then s
          else if o == Rejected then s.(flushes := s.flushes[i := Finished(Rejected)])
          else Proceed(s, i)
        case Finished(_) => s;
      assert s'.flushes[k] == s.flushes[k];
      ResumeUntouched(s', q, o, i + 1, k);
    }
  }

  /** Once flush `k` has been settled by the resumption, later resumption steps leave it. */
  lemma {:induction false} ResumeKeepsFinished<A>(s: Debouncer<A>, q: nat, o: Outcome, i: nat, k: nat)
    requires i <= |s.flushes| && k < |s.flushes| && s.flushes[k].Finished?
    ensures Resume(s, q, o, i).flushes[k] == s.flushes[k]
    decreases |s.flushes| - i
  {
    ResumeUntouched(s, q, o, i, k);
  }

  /** When the invocation a flush started settles, that flush settles the same way: a rejection
      of the flushed call propagates out of flush(). */
  lemma SettleEndsRunningFlush<A>(s: Debouncer<A>, q: nat, o: Outcome, k: nat)
    requires q in s.running && k < |s.flushes| && s.flushes[k] == Running(q)
    ensures k < |Settle(s, q, o).flushes| && Settle(s, q, o).flushes[k] == Finished(o)
  {
    var t := s.(running := s.running - {q}, tracked := None);
    ResumeFinishes(t, q, o, 0, k);
  }

  /** A flush suspended on a tracked invocation that rejects settles rejected itself, without
      going on to inspect the pending arguments. */
  lemma SettleRejectsAwaitingFlush<A>(s: Debouncer<A>, q: nat, k: nat)
    requires q in s.running && k < |s.flushes| && s.flushes[k] == Awaiting(q)
    ensures k < |Settle(s, q, Rejected).flushes| && Settle(s, q, Rejected).flushes[k] == Finished(Rejected)
  {
    var t := s.(running := s.running - {q}, tracked := None);
    ResumeFinishes(t, q, Rejected, 0, k);
  }

  lemma {:induction false} ResumeFinishes<A>(s: Debouncer<A>, q: nat, o: Outcome, i: nat, k: nat)
    requires i <= k < |s.flushes|
    requires s.flushes[k] == Running(q) || (o == Rejected && s.flushes[k] == Awaiting(q))
    ensures Resume(s, q, o, i).flushes[k] == Finished(o)
    decreases |s.flushes| - i
  {
    var s' := match s.flushes[i]
      case Running(p) =>
        if p == q then s.(flushes := s.flushes[i := Finished(o)]) else s
      case Awaiting(p) =>
        if p != q then s
        else if o == Rejected then s.(flushes := s.flushes[i := Finished(Rejected)])
        else Proceed(s, i)
      case Finished(_) => s;
    assert Resume(s, q, o, i) == Resume(s', q, o, i + 1);
    if i == k {
      assert s'.flushes[k] == Finished(o);
      ResumeKeepsFinished(s', q, o, i + 1, k);
    } else {
      assert s'.flushes[k] == s.flushes[k];
      ResumeFinishes(s', q, o, i + 1, k);
    }
  }

  /** Settling a running invocation removes it from the running set and nulls the in-flight
      ref; the ref is set again afterwards only by a fresh invocation of a resumed flush. */
  lemma SettleClearsTracked<A>(s: Debouncer<A>, q: nat, o: Outcome)
    requires Inv(s) && q in s.running
    ensures var r := Settle(s, q, o);
      && q !in r.running
      && (r.tracked.None? || r.tracked.value >= |s.calls|)
      && s.running - {q} <= r.running
  {
    var t := s.(running := s.running - {q}, tracked := None);
    ResumeTracksFresh(t, q, o, 0, |s.calls|);
  }

  lemma {:induction false} ResumeTracksFresh<A>(s: Debouncer<A>, q: nat, o: Outcome, i: nat, n: nat)
    requires i <= |s.flushes| && q !in s.running && q < n <= |s.calls|
    requires s.tracked.None? || s.tracked.value >= n
    ensures var r := Resume(s, q, o, i);
      && q !in r.running && (r.tracked.None? || r.tracked.value >= n) && s.running <= r.running
      && |r.calls| >= |s.calls|
    decreases |s.flushes| - i
  {
    if i < |s.flushes| {
      var s' := match s.flushes[i]
        case Running(p) =>
          if p == q then s.(flushes := s.flushes[i := Finished(o)]) else s
        case Awaiting(p) =>
          if p != q then s
          else if o == Rejected then s.(flushes := s.flushes[i := Finished(Rejected)])
          else Proceed(s, i)
        case Finished(_) => s;
      assert Resume(s, q, o, i) == Resume(s', q, o, i + 1);
      ResumeTracksFresh(s', q, o, i + 1, n);
    }
  }

  /** The main path of flush(): when the tracked invocation `q` fulfils while a timer is set with
      arguments `a` pending, the first flush suspended on `q` nulls both refs, invokes once with
      `a` and suspends on that new invocation; every later flush suspended on `q` finds nothing
      pending any more and resolves without invoking. */
  lemma SettleRunsPendingOnce<A>(s: Debouncer<A>, q: nat, k: nat, a: A)
    requires q in s.running && k < |s.flushes| && s.flushes[k] == Awaiting(q)
    requires forall j :: 0 <= j < k ==> s.flushes[j] != Awaiting(q)
    requires !s.timer.Idle? && s.pending == Some(a)
    ensures var r := Settle(s, q, Fulfilled);
      && |r.flushes| == |s.flushes|
      && r.flushes[k] == Running(|s.calls|)
      && r.calls == s.calls + [a] && r.tracked == Some(|s.calls|)
      && r.timer.Idle? && r.pending.None?
      && forall j :: k < j < |s.flushes| && s.flushes[j] == Awaiting(q) ==> r.flushes[j] == Finished(Fulfilled)
  {
    var t := s.(running := s.running - {q}, tracked := None);
    ResumeStartsFirst(t, q, 0, k, a);
  }

  /** With no timer set or nothing pending, settling `q` invokes nothing, and every flush
      suspended on `q` settles the way `q` did. */
  lemma SettleWithoutPending<A>(s: Debouncer<A>, q: nat, o: Outcome)
    requires q in s.running && (s.timer.Idle? || s.pending.None?)
    ensures var r := Settle(s, q, o);
      && |r.flushes| == |s.flushes|
      && r.calls == s.calls && r.tracked.None? && r.pending == s.pending && r.timer == s.timer
      && forall j :: 0 <= j < |s.flushes| && s.flushes[j] == Awaiting(q) ==> r.flushes[j] == Finished(o)
  {
    var t := s.(running := s.running - {q}, tracked := None);
    ResumeWithoutPending(t, q, o, 0);
  }

  lemma {:induction false} ResumeStartsFirst<A>(s: Debouncer<A>, q: nat, i: nat, k: nat, a: A)
    requires i <= k < |s.flushes| && s.flushes[k] == Awaiting(q)
    requires forall j :: i <= j < k ==> s.flushes[j] != Awaiting(q)
    requires !s.timer.Idle? && s.pending == Some(a)
    ensures var r := Resume(s, q, Fulfilled, i);
      && r.flushes[k] == Running(|s.calls|)
      && r.calls == s.calls + [a] && r.tracked == Some(|s.calls|)
      && r.timer.Idle? && r.pending.None?
      && forall j :: k < j < |s.flushes| && s.flushes[j] == Awaiting(q) ==> r.flushes[j] == Finished(Fulfilled)
    decreases |s.flushes| - i
  {
    var s' := match s.flushes[i]
      case Running(p) =>
        if p == q then s.(flushes := s.flushes[i := Finished(Fulfilled)]) else s
      case Awaiting(p) =>
        if p != q then s
        else Proceed(s, i)
      case Finished(_) => s;
    assert Resume(s, q, Fulfilled, i) == Resume(s', q, Fulfilled, i + 1);
    if i < k {
      assert s'.calls == s.calls && s'.timer == s.timer && s'.pending == s.pending;
      assert forall j :: 0 <= j < |s.flushes| && j != i ==> s'.flushes[j] == s.flushes[j];
      ResumeStartsFirst(s', q, i + 1, k, a);
    } else {
      assert s'.flushes[k] == Running(|s.calls|) && s'.calls == s.calls + [a];
      ResumeKeepsEarlier(s', q, Fulfilled, i + 1, k);
      ResumeWithoutPending(s', q, Fulfilled, i + 1);
    }
  }

  /** Resumption from flush `i` on leaves the flushes before `i` as they are. */
  lemma {:induction false} ResumeKeepsEarlier<A>(s: Debouncer<A>, q: nat, o: Outcome, i: nat, k: nat)
    requires k < i <= |s.flushes|
    ensures Resume(s, q, o, i).flushes[k] == s.flushes[k]
    decreases |s.flushes| - i
  {
    if i < |s.flushes| {
      var s' := match s.flushes[i]
        case Running(p) =>
          if p == q then s.(flushes := s.flushes[i := Finished(o)]) else s
        case Awaiting(p) =>
          if p != q then s
          else if o == Rejected then s.(flushes := s.flushes[i := Finished(Rejected)])
          else Proceed(s, i)
        case Finished(_) => s;
      assert Resume(s, q, o, i) == Resume(s', q, o, i + 1);
      assert s'.flushes[k] == s.flushes[k];
      ResumeKeepsEarlier(s', q, o, i + 1, k);
    }
  }

  lemma {:induction false} ResumeWithoutPending<A>(s: Debouncer<A>, q: nat, o: Outcome, i: nat)
    requires i <= |s.flushes| && (s.timer.Idle? || s.pending.None?)
    ensures var r := Resume(s, q, o, i);
      && r.calls == s.calls && r.tracked == s.tracked && r.pending == s.pending && r.timer == s.timer
      && forall j :: i <= j < |s.flushes| && s.flushes[j] == Awaiting(q) ==> r.flushes[j] == Finished(o)
    decreases |s.flushes| - i
  {
    if i < |s.flushes| {
      var s' := match s.flushes[i]
        case Running(p) =>
          if p == q then s.(flushes := s.flushes[i := Finished(o)]) else s
        case Awaiting(p) =>
          if p != q then s
          else if o == Rejected then s.(flushes := s.flushes[i := Finished(Rejected)])
          else Proceed(s, i)
        case Finished(_) => s;
      assert Resume(s, q, o, i) == Resume(s', q, o, i + 1);
      assert s' == s.(flushes := s'.flushes);
      assert forall j :: 0 <= j < |s.flushes| && j != i ==> s'.flushes[j] == s.flushes[j];
      ResumeWithoutPending(s', q, o, i + 1);
      if s.flushes[i] == Awaiting(q) {
        assert s'.flushes[i] == Finished(o);
        ResumeKeepsEarlier(s', q, o, i + 1, i);
      }
    }
  }

  /** cancel() never invokes the callback and leaves nothing pending; with no timer set it
      changes nothing at all. */
  lemma CancelDiscards<A>(s: Debouncer<A>)
    requires Inv(s)
    ensures var r := Cancel(s);
      && r.calls == s.calls && r.pending.None? && r.timer.Idle? && !r.timer.Armed?
      && r.running == s.running && r.tracked == s.tracked
      && (s.timer.Idle? ==> r == s)
  {}

  /** hasPending() reports a set timer or a tracked in-flight invocation. */
  lemma HasPendingMeansTimerOrInflight<A>(s: Debouncer<A>)
    requires Inv(s)
    ensures HasPending(s) <==> !s.timer.Idle? || (s.tracked.Some? && s.tracked.value in s.running)
  {}

  /** On unmount with a live timer the callback is invoked exactly once, with the pending
      arguments, instead of being dropped; with no timer nothing is invoked. */
  lemma UnmountFlushesPending<A>(s: Debouncer<A>)
    requires Inv(s)
    ensures var r := Unmount(s);
      && (s.timer.Armed? ==> r.calls == s.calls + [s.timer.args] && !r.timer.Armed?)
      && (s.timer.Idle? ==> r == s)
  {}

  // ---------------------------------------------------------------------------------------
  // Two consequences of the code as written

  /** The in-flight ref is a single slot that any settlement nulls, so flush() does not wait
      for every invocation still running: here invocation 1 (timer-fired) is still running when
      the flush starts invocation 2. */
  lemma FlushMayOverlapTimerCall()
    ensures var s := Flush(Call(Settle(Fire(Call(Fire(Call(Init<int>(), 10)), 20)), 0, Fulfilled), 30));
      && s.calls == [10, 20, 30] && 1 in s.running && s.flushes == [Running(2)]
  {
    var s1 := Fire(Call(Init<int>(), 10));
    var s2 := Fire(Call(s1, 20));
    assert s2.running == {0, 1} && s2.tracked == Some(1);
    var s3 := Settle(s2, 0, Fulfilled);
    assert s3.running == {1} && s3.tracked.None? && s3.calls == [10, 20];
  }

  /** The unmount cleanup leaves both refs set, so a flush suspended across the unmount invokes
      the callback a second time with the arguments the cleanup already passed. */
  lemma SuspendedFlushRepeatsUnmountCall()
    ensures var s := Settle(Unmount(Flush(Call(Fire(Call(Init<int>(), 10)), 20))), 0, Fulfilled);
      && s.calls == [10, 20, 20] && s.flushes == [Running(2)]
  {
    var s1 := Flush(Call(Fire(Call(Init<int>(), 10)), 20));
    assert s1.flushes == [Awaiting(0)] && s1.calls == [10];
    var s2 := Unmount(s1);
    assert s2.calls == [10, 20] && s2.timer == Stale && s2.pending == Some(20);
  }
}

=== FILE: editor.dfy ===
/**
 * `NoteEditor`: the rich-text editor instance. Its initial document is chosen once, at mount,
 * from the `content` prop; its first change event (the one initialisation triggers) is
 * swallowed, and every later one is forwarded together with the instance's `noteId` prop.
 */
module Editor {
  import opened Wrappers

  /** A BlockNote block, opaque to this model beyond its type and inline content. */
  datatype Block = Block(kind: string, inline: seq<string>)

  /** The untyped `content` prop: a falsy value, an array of blocks, or some other value. */
  datatype RawContent = Absent | Blocks(blocks: seq<Block>) | Opaque

  /** `getDefaultContent()` */
  function DefaultContent(): seq<Block> {
    [Block("paragraph", [])]
  }

  /** The `initialContent` memo: a non-empty array is used as it is; anything else becomes one
      empty paragraph. Either way the editor starts with at least one block. */
  function InitialContent(c: RawContent): (r: seq<Block>)
    ensures |r| > 0
    ensures c.Blocks? && |c.blocks| > 0 ==> r == c.blocks
    ensures !(c.Blocks? && |c.blocks| > 0) ==> r == [Block("paragraph", [])]
  {
    if c.Blocks? && |c.blocks| > 0 then c.blocks else DefaultContent()
  }

  datatype Instance = Instance(
    noteId: Option<string>,   // the current `noteId` prop
    initial: seq<Block>,      // computed once, at mount
    isInitialLoad: bool)      // the `isInitialLoad` ref

  /** What `onChange(document, noteId)` receives. */
  datatype Forwarded = Forwarded(document: seq<Block>, noteId: Option<string>)

  function Mount(noteId: Option<string>, content: RawContent): Instance {
    Instance(noteId, InitialContent(content), true)
  }

  /** A re-render with new props: the `noteId` the change handler closes over follows the prop,
      the initial content does not follow `content`. */
  function Rerender(e: Instance, noteId: Option<string>, content: RawContent): (r: Instance)
    ensures r.initial == e.initial && r.isInitialLoad == e.isInitialLoad && r.noteId == noteId
  {
    e.(noteId := noteId)
  }

  /** `handleChange` with the editor's document after the change. */
  function OnChange(e: Instance, document: seq<Block>): (Instance, Option<Forwarded>) {
    if e.isInitialLoad then (e.(isInitialLoad := false), None)
    else (e, Some(Forwarded(document, e.noteId)))
  }

  /** Feeds a series of change events and collects what reaches `onChange`. */
  function Feed(e: Instance, documents: seq<seq<Block>>): (Instance, seq<Forwarded>)
    decreases |documents|
  {
    if documents == [] then (e, [])
    else
      var (e1, out) := OnChange(e, documents[0]);
      var (e2, rest) := Feed(e1, documents[1..]);
      (e2, (if out.Some? then [out.value] else []) + rest)
  }

  function Tagged(documents: seq<seq<Block>>, noteId: Option<string>): (r: seq<Forwarded>)
    ensures |r| == |documents|
  {
    seq(|documents|, i requires 0 <= i < |documents| => Forwarded(documents[i], noteId))
  }

  lemma {:induction false} FeedAfterFirst(e: Instance, documents: seq<seq<Block>>)
    requires !e.isInitialLoad
    ensures Feed(e, documents).1 == Tagged(documents, e.noteId)
    ensures Feed(e, documents).0 == e
    decreases |documents|
  {
    if documents != [] {
      FeedAfterFirst(e, documents[1..]);
      assert Tagged(documents, e.noteId) == [Forwarded(documents[0], e.noteId)] + Tagged(documents[1..], e.noteId);
    }
  }

  /** On a freshly mounted editor the first change event is dropped and every later one is
      forwarded, in order, tagged with the instance's own note id. */
  lemma FirstChangeSuppressed(noteId: Option<string>, content: RawContent, documents: seq<seq<Block>>)
    requires |documents| > 0
    ensures Feed(Mount(noteId, content), documents).1 == Tagged(documents[1..], noteId)
  {
    var e := Mount(noteId, content);
    FeedAfterFirst(e.(isInitialLoad := false), documents[1..]);
  }

  /** Props received after mount never change the initial content. */
  lemma {:induction false} InitialFixedAtMount(e: Instance, props: seq<(Option<string>, RawContent)>)
    ensures RerenderAll(e, props).initial == e.initial
    decreases |props|
  {
    if props != [] {
      InitialFixedAtMount(Rerender(e, props[0].0, props[0].1), props[1..]);
    }
  }

  function RerenderAll(e: Instance, props: seq<(Option<string>, RawContent)>): Instance
    decreases |props|
  {
    if props == [] then e else RerenderAll(Rerender(e, props[0].0, props[0].1), props[1..])
  }
}

=== FILE: firestore.dfy ===
/** The part of Firestore's write model the hooks rely on: a write is an object of fields, a
    field holding `serverTimestamp()` is stamped by the server when the write is applied, and
    `updateDoc` overwrites only the fields it names. */
module Firestore {
  import opened Wrappers
  import opened Editor

  /** A field value in a write: a string, a content value, `serverTimestamp()` or `null`. */
  datatype Value = Text(text: string) | Body(body: RawContent) | ServerTimestamp | Null

  /** The object passed to `addDoc` / `updateDoc`: only the keys present are written. */
  type Patch = map<string, Value>

  /** The new value of a timestamp field `key` when `p` is applied at server time `t`. */
  function Stamp(p: Patch, key: string, prev: Option<int>, t: int): (r: Option<int>)
    ensures key !in p ==> r == prev
    ensures key in p && p[key] == ServerTimestamp ==> r == Some(t)
    ensures key in p && p[key] == Null ==> r == None
  {
    if key !in p then prev
    else match p[key]
      case ServerTimestamp => Some(t)
      case Null => None
      case _ => prev
  }

  /** `title || 'Untitled'`: the title both create mutations write when none is given. */
  function TitleOrDefault(t: Option<string>): (r: string)
    ensures r != ""
    ensures t.Some? && t.value != "" ==> r == t.value
    ensures t.None? || t.value == "" ==> r == "Untitled"
  {
    if t.None? || t.value == "" then "Untitled" else t.value
  }
}

=== FILE: jsstring.dfy ===
/** The JavaScript string operations the model relies on: `String.prototype.trim` and `length`
    (which counts UTF-16 code units). A `string` here is a sequence of Unicode scalar values. */
module JsString {

  /** The characters `trim()` strips: ECMAScript's WhiteSpace and LineTerminator. */
  predicate IsSpace(c: char) {
    || c == '\t' || c == '\U{B}' || c == '\U{C}' || c == ' ' || c == '\U{A0}' || c == '\U{FEFF}'
    || c == '\n' || c == '\r' || c == '\U{2028}' || c == '\U{2029}'
    || c == '\U{1680}' || ('\U{2000}' <= c <= '\U{200A}') || c == '\U{202F}' || c == '\U{205F}'
    || c == '\U{3000}'
  }

  predicate AllSpace(s: string) {
    forall k :: 0 <= k < |s| ==> IsSpace(s[k])
  }

  /** Drops leading white space: the result is a suffix of `s`, everything dropped is white
      space, and the result does not start with white space. */
  function TrimStart(s: string): (r: string)
    ensures |r| <= |s| && r == s[|s| - |r|..]
    ensures AllSpace(s[..|s| - |r|])
    ensures r == [] || !IsSpace(r[0])
    decreases |s|
  {
    if s == [] || !IsSpace(s[0]) then s
    else
      var r := TrimStart(s[1..]);
      assert s[1..][|s| - 1 - |r|..] == s[|s| - |r|..];
      assert forall k :: 0 < k < |s| - |r| ==> s[k] == s[1..][..|s| - 1 - |r|][k - 1];
      r
  }

  /** Drops trailing white space: the result is a prefix of `s`, everything dropped is white
      space, and the result does not end with white space. */
  function TrimEnd(s: string): (r: string)
    ensures |r| <= |s| && r == s[..|r|]
    ensures AllSpace(s[|r|..])
    ensures r == [] || !IsSpace(r[|r| - 1])
    decreases |s|
  {
    if s == [] || !IsSpace(s[|s| - 1]) then s
    else
      var r := TrimEnd(s[..|s| - 1]);
      assert s[..|s| - 1][..|r|] == s[..|r|];
      assert forall k :: |r| <= k < |s| - 1 ==> s[k] == s[..|s| - 1][|r|..][k - |r|];
      r
  }

  /** `s.trim()` */
  function Trim(s: string): string {
    TrimEnd(TrimStart(s))
  }

  /** `trim()` keeps a contiguous slice of `s`, removes only white space around it, and leaves
      no white space at either end. */
  lemma TrimSlice(s: string)
    ensures exists i, j ::
      (0 <= i <= j <= |s| && Trim(s) == s[i..j] && AllSpace(s[..i]) && AllSpace(s[j..]))
    ensures Trim(s) == [] || (!IsSpace(Trim(s)[0]) && !IsSpace(Trim(s)[|Trim(s)| - 1]))
  {
    var t := TrimStart(s);
    var i := |s| - |t|;
    var r := TrimEnd(t);
    var j := i + |r|;
    assert r == s[i..j] by {
      assert t == s[i..] && r == t[..|r|];
    }
    assert AllSpace(s[j..]) by {
      assert s[j..] == t[|r|..];
    }
    assert 0 <= i <= j <= |s| && Trim(s) == s[i..j] && AllSpace(s[..i]) && AllSpace(s[j..]);
    if r != [] {
      assert r[0] == t[0];
    }
  }

  /** A trimmed string is empty exactly when the input is all white space. */
  lemma TrimEmptyIff(s: string)
    ensures Trim(s) == [] <==> AllSpace(s)
  {
    var t := TrimStart(s);
    if t != [] {
      assert !IsSpace(s[|s| - |t|]);
    }
    if Trim(s) == [] {
      assert t[|TrimEnd(t)|..] == t;
      assert t == [];
      assert s[..|s|] == s;
    }
  }

  /** Trimming twice is trimming once. */
  lemma TrimIdempotent(s: string)
    ensures Trim(Trim(s)) == Trim(s)
  {
    var r := Trim(s);
    TrimSlice(s);
    if r != [] {
      assert TrimStart(r) == r;
      assert TrimEnd(r) == r;
    }
  }

  /** `s.length`: the number of UTF-16 code units, two for a character outside the BMP. */
  function Utf16Length(s: string): (n: nat)
    ensures |s| <= n <= 2 * |s|
  {
    if s == [] then 0 else (if s[0] as int > 0xFFFF then 2 else 1) + Utf16Length(s[1..])
  }
}

=== FILE: notebooks.dfy ===
/**
 * `useNotebooks.ts`: reading notebook documents, the active and trashed lists, the descendant
 * walk over parent links, the writes of create / update / move, and the order of the writes the
 * cascading soft delete, restore and permanent delete send.
 */
module Notebooks {
  import opened Wrappers
  import opened Sorting
  import opened Firestore

  /** A stored notebook document. `parent` is the raw `parentNotebookId`, `None` when missing
      or null. */
  datatype NotebookDoc = NotebookDoc(
    title: string,
    parent: Option<string>,
    createdAt: Option<int>,
    updatedAt: Option<int>,
    deletedAt: Option<int>)

  datatype Notebook = Notebook(
    id: string,
    userId: string,
    title: string,
    parent: Option<string>,
    createdAt: int,
    updatedAt: int,
    deletedAt: Option<int>)

  /** `x || null` on an optional string: the empty string is falsy too. */
  function OrNull(x: Option<string>): (r: Option<string>)
    ensures r.None? <==> x.None? || x.value == ""
    ensures r.Some? ==> r == x
  {
    if x.None? || x.value == "" then None else x
  }

  /** `parseNotebook`: a missing or empty parent becomes null, `deleted_at` is the stored
      `deletedAt`, and a stored creation or update time is kept while a missing one falls back
      to the client clock. */
  function Parse(id: string, userId: string, d: NotebookDoc, now: int): (nb: Notebook)
    ensures nb.id == id && nb.userId == userId && nb.title == d.title
    ensures nb.parent.None? <==> d.parent.None? || d.parent.value == ""
    ensures nb.parent.Some? ==> nb.parent == d.parent
    ensures nb.deletedAt.None? <==> d.deletedAt.None?
    ensures nb.deletedAt == d.deletedAt
    ensures d.createdAt.None? ==> nb.createdAt == now
    ensures d.createdAt.Some? ==> nb.createdAt == d.createdAt.value
    ensures d.updatedAt.None? ==> nb.updatedAt == now
    ensures d.updatedAt.Some? ==> nb.updatedAt == d.updatedAt.value
  {
    Notebook(id, userId, d.title, OrNull(d.parent), d.createdAt.GetOr(now), d.updatedAt.GetOr(now), d.deletedAt)
  }

  function ParseAll(userId: string, docs: seq<(string, NotebookDoc)>, now: int): (r: seq<Notebook>)
    ensures |r| == |docs|
    ensures forall i :: 0 <= i < |docs| ==> r[i] == Parse(docs[i].0, userId, docs[i].1, now)
  {
    Map(docs, (d: (string, NotebookDoc)) => Parse(d.0, userId, d.1, now))
  }

  function Active(nb: Notebook): bool { nb.deletedAt.None? }
  function Trashed(nb: Notebook): bool { nb.deletedAt.Some? }
  function DeletedKey(nb: Notebook): int { nb.deletedAt.GetOr(0) }

  /** `useNotebooks`, fetch and snapshot alike: the notebooks without `deleted_at`. */
  function ActiveNotebooks(userId: string, docs: seq<(string, NotebookDoc)>, now: int): (r: seq<Notebook>)
    ensures forall i :: 0 <= i < |r| ==> r[i].deletedAt.None? && r[i] in ParseAll(userId, docs, now)
    ensures forall j :: 0 <= j < |docs| && docs[j].1.deletedAt.None? ==> Parse(docs[j].0, userId, docs[j].1, now) in r
    ensures forall nb :: multiset(r)[nb] == if nb.deletedAt.None? then multiset(ParseAll(userId, docs, now))[nb] else 0
  {
    var all := ParseAll(userId, docs, now);
    var r := Filter(all, Active);
    assert forall j :: 0 <= j < |docs| && docs[j].1.deletedAt.None? ==> Active(all[j]);
    forall nb ensures multiset(r)[nb] == if nb.deletedAt.None? then multiset(all)[nb] else 0 {
      FilterCount(all, Active, nb);
    }
    r
  }

  /** `useTrashedNotebooks`: the notebooks with `deleted_at`, newest deletion first. */
  function TrashedNotebooks(userId: string, docs: seq<(string, NotebookDoc)>, now: int): (r: seq<Notebook>)
    ensures SortedDesc(r, DeletedKey)
    ensures forall i :: 0 <= i < |r| ==> r[i].deletedAt.Some? && r[i] in ParseAll(userId, docs, now)
    ensures forall j :: 0 <= j < |docs| && docs[j].1.deletedAt.Some? ==> Parse(docs[j].0, userId, docs[j].1, now) in r
    ensures forall nb :: multiset(r)[nb] == if nb.deletedAt.Some? then multiset(ParseAll(userId, docs, now))[nb] else 0
  {
    var all := ParseAll(userId, docs, now);
    var f := Filter(all, Trashed);
    var r := SortDesc(f, DeletedKey);
    forall nb ensures multiset(r)[nb] == if nb.deletedAt.Some? then multiset(all)[nb] else 0 {
      FilterCount(all, Trashed, nb);
    }
    forall i | 0 <= i < |r| ensures r[i].deletedAt.Some? && r[i] in all {
      assert r[i] in multiset(f);
      assert r[i] in f;
    }
    forall j | 0 <= j < |docs| && docs[j].1.deletedAt.Some? ensures all[j] in r {
      assert Trashed(all[j]);
      assert all[j] in multiset(r);
    }
    r
  }

  // ---------------------------------------------------------------------------------------
  // The descendant walk

  /** A rank on a set of notebook ids that is closed downwards and strictly decreases from a
      parent to each child: every record whose parent is ranked is ranked too, lower. Only
      what lies below a ranked id is constrained, so the rank can be confined to the notebooks
      below the one a cascade starts from; it exists, with that notebook ranked, exactly when
      no cycle of parent links lies below it (`RankExcludesCycles` states one direction). */
  ghost predicate Ranked(all: seq<Notebook>, rank: map<string, nat>) {
    forall i :: 0 <= i < |all| && all[i].parent.Some? && all[i].parent.value in rank ==>
      all[i].id in rank && rank[all[i].id] < rank[all[i].parent.value]
  }

  ghost function Height(id: string, rank: map<string, nat>): nat {
    if id in rank then rank[id] + 1 else 0
  }

  /** The notebooks whose parent is `id`, in input order. */
  function Children(id: string, all: seq<Notebook>): (r: seq<Notebook>)
    ensures forall i :: 0 <= i < |r| ==> r[i] in all && r[i].parent == Some(id)
    ensures forall i :: 0 <= i < |all| && all[i].parent == Some(id) ==> all[i] in r
  {
    Filter(all, ChildOf(id))
  }

  function ChildOf(id: string): Notebook -> bool {
    (nb: Notebook) => nb.parent == Some(id)
  }

  /** `getDescendantNotebookIds`. There is no visited set, and each recursive call runs up to
      its first `await` before the caller suspends, so on a cycle below `id` the calls nest
      until the stack overflows and the walk rejects with a `RangeError`. The rank rules such
      a cycle out; the model covers the walks that end. */
  function Descendants(id: string, all: seq<Notebook>, ghost rank: map<string, nat>): seq<string>
    requires Ranked(all, rank) && id in rank
    decreases Height(id, rank), 1, 0
  {
    Walk(Children(id, all), id, all, rank)
  }

  /** The loop over the children of `parent`: each child, then everything below it. */
  function Walk(cs: seq<Notebook>, ghost parent: string, all: seq<Notebook>, ghost rank: map<string, nat>): seq<string>
    requires Ranked(all, rank) && parent in rank
    requires forall i :: 0 <= i < |cs| ==> cs[i] in all && cs[i].parent == Some(parent)
    decreases Height(parent, rank), 0, |cs|
  {
    if cs == [] then []
    else
      assert Height(cs[0].id, rank) < Height(parent, rank);
      [cs[0].id] + Descendants(cs[0].id, all, rank) + Walk(cs[1..], parent, all, rank)
  }

  /** The cascade of an operation on `id`: the notebook, then its descendants in walk order. */
  function Cascade(id: string, all: seq<Notebook>, ghost rank: map<string, nat>): seq<string>
    requires Ranked(all, rank) && id in rank
  {
    [id] + Descendants(id, all, rank)
  }

  /** Some notebook record `c` has parent `p`. */
  ghost predicate Edge(all: seq<Notebook>, p: string, c: string) {
    exists i :: 0 <= i < |all| && all[i].id == c && all[i].parent == Some(p)
  }

  /** A chain of parent links downwards, at least one step long. */
  ghost predicate Path(all: seq<Notebook>, path: seq<string>) {
    |path| >= 2 && forall k :: 0 <= k < |path| - 1 ==> Edge(all, path[k], path[k + 1])
  }

  ghost predicate Reachable(all: seq<Notebook>, from: string, to: string) {
    exists path :: Path(all, path) && path[0] == from && path[|path| - 1] == to
  }

  lemma PathCons(all: seq<Notebook>, p: string, path: seq<string>)
    requires Path(all, path) && Edge(all, p, path[0])
    ensures Path(all, [p] + path)
  {
    var q := [p] + path;
    forall k | 0 <= k < |q| - 1 ensures Edge(all, q[k], q[k + 1]) {
      if k > 0 { assert q[k] == path[k - 1] && q[k + 1] == path[k]; }
    }
  }

  lemma PathTail(all: seq<Notebook>, path: seq<string>)
    requires Path(all, path) && |path| > 2
    ensures Path(all, path[1..])
  {
    var rest := path[1..];
    forall k | 0 <= k < |rest| - 1 ensures Edge(all, rest[k], rest[k + 1]) {
      assert Edge(all, path[k + 1], path[k + 2]);
    }
  }

  lemma {:induction false} DescendantsReachable(id: string, all: seq<Notebook>, rank: map<string, nat>, x: string)
    requires Ranked(all, rank) && id in rank
    requires x in Descendants(id, all, rank)
    ensures Reachable(all, id, x) && x in rank
    decreases Height(id, rank), 1, 0
  {
    WalkReachable(Children(id, all), id, all, rank, x);
  }

  lemma {:induction false} WalkReachable(cs: seq<Notebook>, parent: string, all: seq<Notebook>, rank: map<string, nat>, x: string)
    requires Ranked(all, rank) && parent in rank
    requires forall i :: 0 <= i < |cs| ==> cs[i] in all && cs[i].parent == Some(parent)
    requires x in Walk(cs, parent, all, rank)
    ensures Reachable(all, parent, x) && x in rank
    decreases Height(parent, rank), 0, |cs|
  {
    var c := cs[0];
    var j :| 0 <= j < |all| && all[j] == c;
    assert Edge(all, parent, c.id);
    assert Height(c.id, rank) < Height(parent, rank);
    var d := Descendants(c.id, all, rank);
    var w := Walk(cs[1..], parent, all, rank);
    assert Walk(cs, parent, all, rank) == [c.id] + d + w;
    if x == c.id {
      assert Path(all, [parent, x]);
    } else if x in d {
      DescendantsReachable(c.id, all, rank, x);
      var path :| Path(all, path) && path[0] == c.id && path[|path| - 1] == x;
      PathCons(all, parent, path);
      assert ([parent] + path)[|[parent] + path| - 1] == x;
    } else {
      WalkReachable(cs[1..], parent, all, rank, x);
    }
  }

  /** Everything in `Descendants(c)` for a child `c` of `cs` is in the walk over `cs`. */
  lemma {:induction false} WalkCovers(cs: seq<Notebook>, parent: string, all: seq<Notebook>, rank: map<string, nat>, i: nat)
    requires Ranked(all, rank) && parent in rank
    requires forall k :: 0 <= k < |cs| ==> cs[k] in all && cs[k].parent == Some(parent)
    requires i < |cs|
    ensures cs[i].id in Walk(cs, parent, all, rank)
    ensures forall y :: y in Descendants(cs[i].id, all, rank) ==> y in Walk(cs, parent, all, rank)
    decreases |cs|
  {
    assert Height(cs[0].id, rank) < Height(parent, rank);
    if i > 0 {
      WalkCovers(cs[1..], parent, all, rank, i - 1);
    }
  }

  /** A child and everything below it are among the descendants of its parent. */
  lemma ChildDescendants(id: string, all: seq<Notebook>, rank: map<string, nat>, c: string)
    requires Ranked(all, rank) && id in rank && Edge(all, id, c)
    ensures c in Descendants(id, all, rank)
    ensures forall y :: y in Descendants(c, all, rank) ==> y in Descendants(id, all, rank)
  {
    var j :| 0 <= j < |all| && all[j].id == c && all[j].parent == Some(id);
    var cs := Children(id, all);
    assert all[j] in cs;
    var i :| 0 <= i < |cs| && cs[i] == all[j];
    WalkCovers(cs, id, all, rank, i);
  }

  lemma {:induction false} ReachableDescendants(id: string, all: seq<Notebook>, rank: map<string, nat>, path: seq<string>)
    requires Ranked(all, rank) && id in rank
    requires Path(all, path) && path[0] == id
    ensures path[|path| - 1] in Descendants(id, all, rank)
    decreases |path|
  {
    ChildDescendants(id, all, rank, path[1]);
    if |path| > 2 {
      PathTail(all, path);
      ReachableDescendants(path[1], all, rank, path[1..]);
    }
  }

  /** The descendant walk returns exactly the notebooks reachable from `id` along parent links
      (the id itself only if it lies on a cycle, which the rank excludes). */
  lemma DescendantsAreReachable(id: string, all: seq<Notebook>, rank: map<string, nat>, x: string)
    requires Ranked(all, rank) && id in rank
    ensures x in Descendants(id, all, rank) <==> Reachable(all, id, x)
  {
    if x in Descendants(id, all, rank) {
      DescendantsReachable(id, all, rank, x);
    }
    if Reachable(all, id, x) {
      var path :| Path(all, path) && path[0] == id && path[|path| - 1] == x;
      ReachableDescendants(id, all, rank, path);
    }
  }

  /** Rank falls along every chain of parent links that starts at a ranked notebook. */
  lemma {:induction false} PathDescends(all: seq<Notebook>, rank: map<string, nat>, path: seq<string>)
    requires Ranked(all, rank) && Path(all, path) && path[0] in rank
    ensures path[|path| - 1] in rank && rank[path[|path| - 1]] < rank[path[0]]
    decreases |path|
  {
    assert Edge(all, path[0], path[1]);
    var i :| 0 <= i < |all| && all[i].id == path[1] && all[i].parent == Some(path[0]);
    if |path| > 2 {
      PathTail(all, path);
      PathDescends(all, rank, path[1..]);
    }
  }

  /** A ranked notebook lies on no cycle, and neither does anything below it: the walk from it
      ends. */
  lemma RankExcludesCycles(all: seq<Notebook>, rank: map<string, nat>, id: string, x: string)
    requires Ranked(all, rank) && id in rank
    requires x == id || Reachable(all, id, x)
    ensures x in rank && !Reachable(all, x, x)
  {
    if x != id {
      var path :| Path(all, path) && path[0] == id && path[|path| - 1] == x;
      PathDescends(all, rank, path);
    }
    if Reachable(all, x, x) {
      var path :| Path(all, path) && path[0] == x && path[|path| - 1] == x;
      PathDescends(all, rank, path);
    }
  }

  /** A cycle elsewhere does not stop a cascade: with `A` and `B` each other's parent, soft
      deleting the root `C` ranks only `C` and writes `C` and its notes. */
  lemma CycleElsewhereHarmless(notes: map<string, seq<string>>, now: int)
    ensures Ranked(CycleAndRoot(now), map["C" := 0])
    ensures Cascade("C", CycleAndRoot(now), map["C" := 0]) == ["C"]
    ensures SoftDeleteWrites("C", CycleAndRoot(now), map["C" := 0], notes)
      == [UpdateNotebook("C", SoftDeletePatch())] + NoteUpdates(notes, "C", SoftDeletePatch())
  {
    CycleAndRootCascade(now);
    assert ["C"][1..] == [];
  }

  lemma CycleAndRootCascade(now: int)
    ensures Ranked(CycleAndRoot(now), map["C" := 0])
    ensures Cascade("C", CycleAndRoot(now), map["C" := 0]) == ["C"]
  {
    var all := CycleAndRoot(now);
    var rank := map["C" := 0];
    CycleAndRootRanked(now);
    assert Children("C", all) == [] by {
      FilterNone(all, ChildOf("C"));
    }
    assert Descendants("C", all, rank) == Walk([], "C", all, rank) == [];
  }

  /** `A` and `B` each other's parent, and a root `C`. */
  function CycleAndRoot(now: int): seq<Notebook> {
    [Notebook("A", "u", "a", Some("B"), now, now, None),
     Notebook("B", "u", "b", Some("A"), now, now, None),
     Notebook("C", "u", "c", None, now, now, None)]
  }

  lemma CycleAndRootRanked(now: int)
    ensures Ranked(CycleAndRoot(now), map["C" := 0])
  {
    var all := CycleAndRoot(now);
    assert all[0].parent.value != "C" && all[1].parent.value != "C" && all[2].parent.None?;
  }

  // ---------------------------------------------------------------------------------------
  // Preorder: each notebook of the cascade is followed at once by its descendants

  /** The descendant walk as a total function, for stating order properties. */
  ghost function Below(all: seq<Notebook>, rank: map<string, nat>): string -> seq<string> {
    x => if Ranked(all, rank) && x in rank then Descendants(x, all, rank) else []
  }

  /** Every entry of `l` is followed at once by everything `below` it. */
  ghost predicate Contiguous(l: seq<string>, below: string -> seq<string>) {
    forall i :: 0 <= i < |l| ==>
      i + 1 + |below(l[i])| <= |l| && l[i + 1..i + 1 + |below(l[i])|] == below(l[i])
  }

  lemma ContiguousConcat(a: seq<string>, b: seq<string>, below: string -> seq<string>)
    requires Contiguous(a, below) && Contiguous(b, below)
    ensures Contiguous(a + b, below)
  {
    var l := a + b;
    forall i | 0 <= i < |l|
      ensures i + 1 + |below(l[i])| <= |l| && l[i + 1..i + 1 + |below(l[i])|] == below(l[i])
    {
      var m := |below(l[i])|;
      if i < |a| {
        assert l[i] == a[i];
        assert l[i + 1..i + 1 + m] == a[i + 1..i + 1 + m];
      } else {
        var k := i - |a|;
        assert l[i] == b[k];
        assert l[i + 1..i + 1 + m] == b[k + 1..k + 1 + m];
      }
    }
  }

  lemma ContiguousCons(x: string, d: seq<string>, below: string -> seq<string>)
    requires Contiguous(d, below) && d == below(x)
    ensures Contiguous([x] + d, below)
  {
    var l := [x] + d;
    forall i | 0 <= i < |l|
      ensures i + 1 + |below(l[i])| <= |l| && l[i + 1..i + 1 + |below(l[i])|] == below(l[i])
    {
      var m := |below(l[i])|;
      if i == 0 {
        assert l[0] == x && m == |d|;
        assert l[1..1 + m] == d;
      } else {
        assert l[i] == d[i - 1];
        assert l[i + 1..i + 1 + m] == d[i..i + m];
      }
    }
  }

  /** The cascade lists each notebook immediately followed by all of its descendants. */
  lemma {:induction false} CascadeContiguous(id: string, all: seq<Notebook>, rank: map<string, nat>)
    requires Ranked(all, rank) && id in rank
    ensures Contiguous(Cascade(id, all, rank), Below(all, rank))
    decreases Height(id, rank), 1, 0
  {
    WalkContiguous(Children(id, all), id, all, rank);
    ContiguousCons(id, Descendants(id, all, rank), Below(all, rank));
  }

  lemma {:induction false} WalkContiguous(cs: seq<Notebook>, parent: string, all: seq<Notebook>, rank: map<string, nat>)
    requires Ranked(all, rank) && parent in rank
    requires forall i :: 0 <= i < |cs| ==> cs[i] in all && cs[i].parent == Some(parent)
    ensures Contiguous(Walk(cs, parent, all, rank), Below(all, rank))
    decreases Height(parent, rank), 0, |cs|
  {
    if cs != [] {
      assert Height(cs[0].id, rank) < Height(parent, rank);
      CascadeContiguous(cs[0].id, all, rank);
      WalkContiguous(cs[1..], parent, all, rank);
      ContiguousConcat(Cascade(cs[0].id, all, rank), Walk(cs[1..], parent, all, rank), Below(all, rank));
      assert Walk(cs, parent, all, rank) == Cascade(cs[0].id, all, rank) + Walk(cs[1..], parent, all, rank);
    }
  }

  function Reverse<T>(s: seq<T>): (r: seq<T>)
    ensures |r| == |s|
    ensures forall i :: 0 <= i < |s| ==> r[i] == s[|s| - 1 - i]
  {
    seq(|s|, i requires 0 <= i < |s| => s[|s| - 1 - i])
  }

  /** Every entry of `order` comes after everything `below` it. */
  ghost predicate ChildrenFirst(order: seq<string>, below: string -> seq<string>) {
    forall j, x :: 0 <= j < |order| && x in below(order[j]) ==>
      exists k :: 0 <= k < j && order[k] == x
  }

  lemma ReverseChildrenFirst(l: seq<string>, below: string -> seq<string>)
    requires Contiguous(l, below)
    ensures ChildrenFirst(Reverse(l), below)
  {
    var r := Reverse(l);
    forall j, x | 0 <= j < |r| && x in below(r[j])
      ensures exists k :: 0 <= k < j && r[k] == x
    {
      var i := |l| - 1 - j;
      var d := below(l[i]);
      assert r[j] == l[i];
      assert l[i + 1..i + 1 + |d|] == d;
      var t :| 0 <= t < |d| && d[t] == x;
      assert l[i + 1 + t] == x;
      var k := |l| - 1 - (i + 1 + t);
      assert r[k] == x;
    }
  }

  /** The permanent-delete order, the reversed cascade, reaches every notebook only after all
      of its descendants. */
  lemma ReversedCascadeChildrenFirst(id: string, all: seq<Notebook>, rank: map<string, nat>)
    requires Ranked(all, rank) && id in rank
    ensures ChildrenFirst(Reverse(Cascade(id, all, rank)), Below(all, rank))
  {
    CascadeContiguous(id, all, rank);
    ReverseChildrenFirst(Cascade(id, all, rank), Below(all, rank));
  }

  // ---------------------------------------------------------------------------------------
  // Stopping at a rejection

  /** The writes the soft-delete (or restore) loop sends over `order` when each of its awaited
      steps settles as `outcomes` says, three per notebook: the notebook's update, the read of
      its notes, and the `Promise.all` of the note updates, which sends all of them before any
      settles. Nothing catches a rejection, so the loop ends at the first one. */
  function CascadeSent(order: seq<string>, notes: map<string, seq<string>>, patch: Patch, outcomes: seq<Outcome>): (r: seq<Write>)
    requires |outcomes| == 3 * |order|
    ensures |r| <= |CascadeWrites(order, notes, patch)| && CascadeWrites(order, notes, patch)[..|r|] == r
    ensures (forall i :: 0 <= i < |outcomes| ==> outcomes[i].Fulfilled?) ==> r == CascadeWrites(order, notes, patch)
    decreases |order|
  {
    if order == [] then []
    else
      var nb := order[0];
      var head := [UpdateNotebook(nb, patch)] + NoteUpdates(notes, nb, patch);
      assert CascadeWrites(order, notes, patch) == head + CascadeWrites(order[1..], notes, patch);
      if outcomes[0].Rejected? || outcomes[1].Rejected? then [UpdateNotebook(nb, patch)]
      else if outcomes[2].Rejected? then head
      else
        assert forall i :: 0 <= i < |outcomes[3..]| ==> outcomes[3..][i] == outcomes[i + 3];
        head + CascadeSent(order[1..], notes, patch, outcomes[3..])
  }

  /** The first rejected step, step `m` of the `j`-th notebook, fixes what was sent:
      everything for the notebooks before it, that notebook's own update, and its note updates
      only when the rejection came from them. No notebook later in the order is written. */
  lemma {:induction false} CascadeStopsAt(order: seq<string>, notes: map<string, seq<string>>, patch: Patch, outcomes: seq<Outcome>, j: nat, m: nat)
    requires |outcomes| == 3 * |order| && j < |order| && m < 3
    requires outcomes[3 * j + m].Rejected? && forall i :: 0 <= i < 3 * j + m ==> outcomes[i].Fulfilled?
    ensures CascadeSent(order, notes, patch, outcomes)
      == CascadeWrites(order[..j], notes, patch) + [UpdateNotebook(order[j], patch)]
         + (if m == 2 then NoteUpdates(notes, order[j], patch) else [])
    decreases |order|
  {
    if j == 0 {
      CascadeStopsFirst(order, notes, patch, outcomes, m);
    } else {
      var head := [UpdateNotebook(order[0], patch)] + NoteUpdates(notes, order[0], patch);
      var rest := outcomes[3..];
      var tail := if m == 2 then NoteUpdates(notes, order[j], patch) else [];
      assert outcomes[0].Fulfilled? && outcomes[1].Fulfilled? && outcomes[2].Fulfilled?;
      CascadeSentStep(order, notes, patch, outcomes);
      ShiftOutcomes(outcomes, j, m);
      CascadeStopsAt(order[1..], notes, patch, rest, j - 1, m);
      CascadeWritesCons(order, notes, patch, j);
      RegroupStop(CascadeSent(order, notes, patch, outcomes), CascadeSent(order[1..], notes, patch, rest),
                  CascadeWrites(order[..j], notes, patch), head, CascadeWrites(order[1..][..j - 1], notes, patch),
                  [UpdateNotebook(order[j], patch)], tail);
    }
  }

  /** Dropping the first notebook's three steps moves the first rejection one notebook back. */
  lemma ShiftOutcomes(outcomes: seq<Outcome>, j: nat, m: nat)
    requires 0 < j && 3 * j + m < |outcomes|
    requires outcomes[3 * j + m].Rejected? && forall i :: 0 <= i < 3 * j + m ==> outcomes[i].Fulfilled?
    ensures outcomes[3..][3 * (j - 1) + m].Rejected?
    ensures forall i :: 0 <= i < 3 * (j - 1) + m ==> outcomes[3..][i].Fulfilled?
  {
    forall i | 0 <= i < 3 * (j - 1) + m ensures outcomes[3..][i].Fulfilled? {
      assert outcomes[3..][i] == outcomes[i + 3];
    }
  }

  lemma RegroupStop<T>(w: seq<T>, r: seq<T>, c: seq<T>, h: seq<T>, f: seq<T>, u: seq<T>, t: seq<T>)
    requires w == h + r && r == f + u + t && c == h + f
    ensures w == c + u + t
  {
  }

  lemma CascadeStopsFirst(order: seq<string>, notes: map<string, seq<string>>, patch: Patch, outcomes: seq<Outcome>, m: nat)
    requires |outcomes| == 3 * |order| && 0 < |order| && m < 3
    requires outcomes[m].Rejected? && forall i :: 0 <= i < m ==> outcomes[i].Fulfilled?
    ensures CascadeSent(order, notes, patch, outcomes)
      == CascadeWrites(order[..0], notes, patch) + [UpdateNotebook(order[0], patch)]
         + (if m == 2 then NoteUpdates(notes, order[0], patch) else [])
  {
    assert order[..0] == [];
    if m == 2 {
      assert outcomes[0].Fulfilled? && outcomes[1].Fulfilled?;
    } else {
      assert outcomes[0].Rejected? || outcomes[1].Rejected?;
    }
  }

  lemma CascadeSentStep(order: seq<string>, notes: map<string, seq<string>>, patch: Patch, outcomes: seq<Outcome>)
    requires |outcomes| == 3 * |order| && 0 < |order|
    requires outcomes[0].Fulfilled? && outcomes[1].Fulfilled? && outcomes[2].Fulfilled?
    ensures CascadeSent(order, notes, patch, outcomes)
      == [UpdateNotebook(order[0], patch)] + NoteUpdates(notes, order[0], patch) + CascadeSent(order[1..], notes, patch, outcomes[3..])
  {
  }

  lemma CascadeWritesCons(order: seq<string>, notes: map<string, seq<string>>, patch: Patch, j: nat)
    requires 0 < j < |order|
    ensures order[1..][j - 1] == order[j]
    ensures CascadeWrites(order[..j], notes, patch)
      == [UpdateNotebook(order[0], patch)] + NoteUpdates(notes, order[0], patch) + CascadeWrites(order[1..][..j - 1], notes, patch)
  {
    assert order[..j][1..] == order[1..][..j - 1];
    assert order[..j][0] == order[0];
  }

  /** A soft delete cut short by a rejection: the parent `p` and its notes are stamped, the
      update of its child `c` rejects, and no note in `c` is written, so the child and its
      notes stay active below a trashed parent. */
  lemma PartialSoftDeleteLeavesChildActive(p: string, c: string, notes: map<string, seq<string>>, now: int)
    requires p != c
    ensures var all := ParentAndChild(p, c, now);
      var rank := map[p := 1, c := 0];
      var outcomes := [Fulfilled, Fulfilled, Fulfilled, Rejected, Fulfilled, Fulfilled];
      && Ranked(all, rank)
      && Cascade(p, all, rank) == [p, c]
      && CascadeSent(Cascade(p, all, rank), notes, SoftDeletePatch(), outcomes)
         == CascadeWrites([p], notes, SoftDeletePatch()) + [UpdateNotebook(c, SoftDeletePatch())]
      && forall n :: UpdateNote(c, n, SoftDeletePatch()) !in CascadeSent(Cascade(p, all, rank), notes, SoftDeletePatch(), outcomes)
  {
    ParentAndChildCascade(p, c, now);
    SecondUpdateRejected(p, c, notes);
    CascadeWritesSingle(p, notes, SoftDeletePatch());
    NoteUpdatesIn(notes, p, SoftDeletePatch());
  }

  lemma SecondUpdateRejected(p: string, c: string, notes: map<string, seq<string>>)
    ensures CascadeSent([p, c], notes, SoftDeletePatch(), [Fulfilled, Fulfilled, Fulfilled, Rejected, Fulfilled, Fulfilled])
      == CascadeWrites([p], notes, SoftDeletePatch()) + [UpdateNotebook(c, SoftDeletePatch())]
  {
    CascadeStopsAt([p, c], notes, SoftDeletePatch(), [Fulfilled, Fulfilled, Fulfilled, Rejected, Fulfilled, Fulfilled], 1, 0);
    assert [p, c][..1] == [p] && [p, c][1] == c;
  }

  lemma CascadeWritesSingle(nb: string, notes: map<string, seq<string>>, patch: Patch)
    ensures CascadeWrites([nb], notes, patch) == [UpdateNotebook(nb, patch)] + NoteUpdates(notes, nb, patch)
  {
    assert [nb][1..] == [];
  }

  /** The note updates for `nb` write only notes inside `nb`. */
  lemma NoteUpdatesIn(notes: map<string, seq<string>>, nb: string, patch: Patch)
    ensures forall w :: w in NoteUpdates(notes, nb, patch) ==> w.UpdateNote? && w.notebookId == nb
  {
  }

  /** A root `p` with one child `c`. */
  function ParentAndChild(p: string, c: string, now: int): seq<Notebook> {
    [Notebook(p, "u", "p", None, now, now, None), Notebook(c, "u", "c", Some(p), now, now, None)]
  }

  lemma ParentAndChildCascade(p: string, c: string, now: int)
    requires p != c
    ensures Ranked(ParentAndChild(p, c, now), map[p := 1, c := 0])
    ensures Cascade(p, ParentAndChild(p, c, now), map[p := 1, c := 0]) == [p, c]
  {
    var all := ParentAndChild(p, c, now);
    var rank := map[p := 1, c := 0];
    ParentAndChildLeaf(p, c, now);
    ParentAndChildChildren(p, c, now);
    WalkSingle(all[1], p, all, rank);
  }

  lemma WalkSingle(nb: Notebook, parent: string, all: seq<Notebook>, rank: map<string, nat>)
    requires Ranked(all, rank) && parent in rank && nb in all && nb.parent == Some(parent)
    ensures Walk([nb], parent, all, rank) == [nb.id] + Descendants(nb.id, all, rank)
  {
    assert [nb][1..] == [];
  }

  lemma ParentAndChildLeaf(p: string, c: string, now: int)
    requires p != c
    ensures Ranked(ParentAndChild(p, c, now), map[p := 1, c := 0])
    ensures Descendants(c, ParentAndChild(p, c, now), map[p := 1, c := 0]) == []
  {
    ParentAndChildRanked(p, c, now);
    ParentAndChildChildren(p, c, now);
  }

  lemma ParentAndChildRanked(p: string, c: string, now: int)
    requires p != c
    ensures Ranked(ParentAndChild(p, c, now), map[p := 1, c := 0])
  {
    var all := ParentAndChild(p, c, now);
    assert all[0].parent.None? && all[1].parent.value == p;
  }

  lemma ParentAndChildChildren(p: string, c: string, now: int)
    requires p != c
    ensures Children(p, ParentAndChild(p, c, now)) == [ParentAndChild(p, c, now)[1]]
    ensures Children(c, ParentAndChild(p, c, now)) == []
  {
    var all := ParentAndChild(p, c, now);
    assert all == [] + [all[0]] + [all[1]];
    FilterSnoc([], all[0], ChildOf(p));
    FilterSnoc([all[0]], all[1], ChildOf(p));
    FilterNone(all, ChildOf(c));
  }

  /** The permanent delete's writes in a notebook-at-a-time order: the notebook's note deletes,
      then the notebook. */
  lemma {:induction false} DeleteWritesFront(order: seq<string>, notes: map<string, seq<string>>)
    requires |order| > 0
    ensures DeleteWrites(order, notes) == NoteDeletes(notes, order[0]) + [DeleteNotebook(order[0])] + DeleteWrites(order[1..], notes)
    decreases |order|
  {
    var last := |order| - 1;
    DeleteWritesLast(order, notes);
    if last == 0 {
      assert order[..last] == [] && order[1..] == [];
    } else {
      var a := order[..last];
      DeleteWritesFront(a, notes);
      DeleteWritesTail(order, notes);
      Regroup(DeleteWrites(order, notes), DeleteWrites(a, notes), DeleteWrites(order[1..], notes),
              NoteDeletes(notes, order[0]) + [DeleteNotebook(order[0])], DeleteWrites(a[1..], notes), DeleteBlock(notes, order[last]));
    }
  }

  lemma Regroup<T>(w: seq<T>, wa: seq<T>, wb: seq<T>, x: seq<T>, m: seq<T>, k: seq<T>)
    requires w == wa + k && wa == x + m && wb == m + k
    ensures w == x + wb
  {
  }

  /** Dropping the first notebook and dropping the last commute. */
  lemma DeleteWritesTail(order: seq<string>, notes: map<string, seq<string>>)
    requires |order| > 1
    ensures order[..|order| - 1][0] == order[0]
    ensures DeleteWrites(order[1..], notes) == DeleteWrites(order[..|order| - 1][1..], notes) + DeleteBlock(notes, order[|order| - 1])
  {
    var b := order[1..];
    assert order[..|order| - 1][1..] == b[..|b| - 1];
    assert b[|b| - 1] == order[|order| - 1];
    DeleteWritesLast(b, notes);
  }

  lemma DeleteWritesLast(order: seq<string>, notes: map<string, seq<string>>)
    requires |order| > 0
    ensures DeleteWrites(order, notes) == DeleteWrites(order[..|order| - 1], notes) + DeleteBlock(notes, order[|order| - 1])
  {
  }

  /** The writes the permanent-delete loop sends over `order` when its awaited steps settle as
      `outcomes` says, three per notebook: the read of its notes, the `Promise.all` of their
      deletes, and the notebook's delete. The loop ends at the first rejection. */
  function DeleteSent(order: seq<string>, notes: map<string, seq<string>>, outcomes: seq<Outcome>): (r: seq<Write>)
    requires |outcomes| == 3 * |order|
    ensures |r| <= |DeleteWrites(order, notes)| && DeleteWrites(order, notes)[..|r|] == r
    ensures (forall i :: 0 <= i < |outcomes| ==> outcomes[i].Fulfilled?) ==> r == DeleteWrites(order, notes)
    decreases |order|
  {
    if order == [] then []
    else
      var nb := order[0];
      var ds := NoteDeletes(notes, nb);
      var rest := DeleteWrites(order[1..], notes);
      DeleteWritesFront(order, notes);
      if outcomes[0].Rejected? then []
      else if outcomes[1].Rejected? then
        PrefixExtend(ds, [DeleteNotebook(nb)] + rest, []);
        ds
      else if outcomes[2].Rejected? then
        PrefixExtend(ds + [DeleteNotebook(nb)], rest, []);
        ds + [DeleteNotebook(nb)]
      else
        assert forall i :: 0 <= i < |outcomes[3..]| ==> outcomes[3..][i] == outcomes[i + 3];
        var r := DeleteSent(order[1..], notes, outcomes[3..]);
        PrefixExtend(ds + [DeleteNotebook(nb)], rest, r);
        ds + [DeleteNotebook(nb)] + r
  }

  /** Putting the same front on a sequence and on one of its prefixes keeps it a prefix. */
  lemma PrefixExtend<T>(h: seq<T>, w: seq<T>, r: seq<T>)
    requires |r| <= |w| && w[..|r|] == r
    ensures |h + r| <= |h + w| && (h + w)[..|h + r|] == h + r
  {
    assert (h + w)[..|h + r|] == h + w[..|r|];
  }

  /** However the permanent delete is cut short, every notebook delete it sent came after the
      deletes of the notes read from that notebook and of every notebook below it: a rejection
      never leaves a notebook removed while something below it remains. */
  lemma PermanentDeleteStopsSafely(id: string, all: seq<Notebook>, rank: map<string, nat>, notes: map<string, seq<string>>,
                                   outcomes: seq<Outcome>, p: nat)
    requires Ranked(all, rank) && id in rank
    requires |outcomes| == 3 * |Cascade(id, all, rank)|
    requires p < |DeleteSent(Reverse(Cascade(id, all, rank)), notes, outcomes)|
    requires DeleteSent(Reverse(Cascade(id, all, rank)), notes, outcomes)[p].DeleteNotebook?
    ensures var r := DeleteSent(Reverse(Cascade(id, all, rank)), notes, outcomes); var nb := r[p].id;
      && (forall n :: n in NotesIn(notes, nb) ==> DeleteNote(nb, n) in r[..p])
      && (forall x :: Reachable(all, nb, x) ==> DeleteNotebook(x) in r[..p])
  {
    var r := DeleteSent(Reverse(Cascade(id, all, rank)), notes, outcomes);
    var ws := PermanentDeleteWrites(id, all, rank, notes);
    assert ws[..|r|] == r;
    assert ws[p] == r[p];
    assert ws[..p] == r[..p];
    PermanentDeleteOrder(id, all, rank, notes, p);
  }

  // ---------------------------------------------------------------------------------------
  // Writes

  /** One write the notebook mutations send. */
  datatype Write =
    | UpdateNotebook(id: string, patch: Patch)
    | UpdateNote(notebookId: string, noteId: string, patch: Patch)
    | DeleteNote(notebookId: string, noteId: string)
    | DeleteNotebook(id: string)

  /** The ids of the notes in a notebook's collection when the cascade reads it. */
  function NotesIn(notes: map<string, seq<string>>, nb: string): seq<string> {
    if nb in notes then notes[nb] else []
  }

  function SoftDeletePatch(): Patch { map["deletedAt" := ServerTimestamp] }
  function RestorePatch(): Patch { map["deletedAt" := Null] }

  /** One update per note read from `nb`'s collection, in read order. */
  function NoteUpdates(notes: map<string, seq<string>>, nb: string, patch: Patch): seq<Write> {
    Map(NotesIn(notes, nb), (n: string) => UpdateNote(nb, n, patch))
  }

  /** One delete per note read from `nb`'s collection, in read order. */
  function NoteDeletes(notes: map<string, seq<string>>, nb: string): seq<Write> {
    Map(NotesIn(notes, nb), (n: string) => DeleteNote(nb, n))
  }

  /** The writes of soft delete (or restore) for the notebooks of `order`: each notebook's own
      update, then one update for every note in it. */
  function CascadeWrites(order: seq<string>, notes: map<string, seq<string>>, patch: Patch): seq<Write>
    decreases |order|
  {
    if order == [] then []
    else
      var nb := order[0];
      [UpdateNotebook(nb, patch)] + NoteUpdates(notes, nb, patch)
        + CascadeWrites(order[1..], notes, patch)
  }

  ghost predicate CascadeWrite(order: seq<string>, notes: map<string, seq<string>>, patch: Patch, w: Write) {
    exists k :: 0 <= k < |order| &&
      (w == UpdateNotebook(order[k], patch) || (w.UpdateNote? && w == UpdateNote(order[k], w.noteId, patch) && w.noteId in NotesIn(notes, order[k])))
  }

  lemma {:induction false} CascadeWritesMembers(order: seq<string>, notes: map<string, seq<string>>, patch: Patch, w: Write)
    ensures w in CascadeWrites(order, notes, patch) <==> CascadeWrite(order, notes, patch, w)
    decreases |order|
  {
    if order != [] {
      var nb := order[0];
      var ns := NoteUpdates(notes, nb, patch);
      CascadeWritesMembers(order[1..], notes, patch, w);
      if w in ns {
        var i :| 0 <= i < |ns| && ns[i] == w;
        assert CascadeWrite(order, notes, patch, w) by { assert order[0] == nb; }
      }
      if CascadeWrite(order[1..], notes, patch, w) {
        var k :| 0 <= k < |order[1..]| &&
          (w == UpdateNotebook(order[1..][k], patch) || (w.UpdateNote? && w == UpdateNote(order[1..][k], w.noteId, patch) && w.noteId in NotesIn(notes, order[1..][k])));
        assert order[k + 1] == order[1..][k];
      }
      if CascadeWrite(order, notes, patch, w) {
        var k :| 0 <= k < |order| &&
          (w == UpdateNotebook(order[k], patch) || (w.UpdateNote? && w == UpdateNote(order[k], w.noteId, patch) && w.noteId in NotesIn(notes, order[k])));
        if k == 0 {
          if w.UpdateNote? {
            var i :| 0 <= i < |NotesIn(notes, nb)| && NotesIn(notes, nb)[i] == w.noteId;
            assert ns[i] == w;
          }
        } else {
          assert order[1..][k - 1] == order[k];
        }
      }
    }
  }

  /** `useSoftDeleteNotebook` over the notebooks read at the start of the mutation. */
  function SoftDeleteWrites(id: string, all: seq<Notebook>, ghost rank: map<string, nat>, notes: map<string, seq<string>>): seq<Write>
    requires Ranked(all, rank) && id in rank
  {
    CascadeWrites(Cascade(id, all, rank), notes, SoftDeletePatch())
  }

  /** `useRestoreNotebook` */
  function RestoreWrites(id: string, all: seq<Notebook>, ghost rank: map<string, nat>, notes: map<string, seq<string>>): seq<Write>
    requires Ranked(all, rank) && id in rank
  {
    CascadeWrites(Cascade(id, all, rank), notes, RestorePatch())
  }

  /** Soft delete stamps `deletedAt` on the notebook, on every notebook below it and on every
      note in any of them, and writes nothing else; the notebook itself is written first. */
  lemma SoftDeleteCovers(id: string, all: seq<Notebook>, rank: map<string, nat>, notes: map<string, seq<string>>)
    requires Ranked(all, rank) && id in rank
    ensures var ws := SoftDeleteWrites(id, all, rank, notes);
      && ws[0] == UpdateNotebook(id, SoftDeletePatch())
      && (forall x :: x == id || Reachable(all, id, x) ==> UpdateNotebook(x, SoftDeletePatch()) in ws)
      && (forall x, n :: (x == id || Reachable(all, id, x)) && n in NotesIn(notes, x) ==> UpdateNote(x, n, SoftDeletePatch()) in ws)
      && (forall w :: w in ws ==> CascadeWrite(Cascade(id, all, rank), notes, SoftDeletePatch(), w))
  {
    var l := Cascade(id, all, rank);
    var ws := SoftDeleteWrites(id, all, rank, notes);
    forall x | x == id || Reachable(all, id, x) ensures UpdateNotebook(x, SoftDeletePatch()) in ws {
      DescendantsAreReachable(id, all, rank, x);
      var k :| 0 <= k < |l| && l[k] == x;
      CascadeWritesMembers(l, notes, SoftDeletePatch(), UpdateNotebook(x, SoftDeletePatch()));
    }
    forall x, n | (x == id || Reachable(all, id, x)) && n in NotesIn(notes, x)
      ensures UpdateNote(x, n, SoftDeletePatch()) in ws
    {
      DescendantsAreReachable(id, all, rank, x);
      var k :| 0 <= k < |l| && l[k] == x;
      CascadeWritesMembers(l, notes, SoftDeletePatch(), UpdateNote(x, n, SoftDeletePatch()));
    }
    forall w | w in ws ensures CascadeWrite(l, notes, SoftDeletePatch(), w) {
      CascadeWritesMembers(l, notes, SoftDeletePatch(), w);
    }
  }

  /** Restore clears `deletedAt` on exactly the same notebooks and notes soft delete stamps. */
  lemma RestoreMirrorsSoftDelete(id: string, all: seq<Notebook>, rank: map<string, nat>, notes: map<string, seq<string>>, x: string, n: string)
    requires Ranked(all, rank) && id in rank
    ensures UpdateNotebook(x, SoftDeletePatch()) in SoftDeleteWrites(id, all, rank, notes)
        <==> UpdateNotebook(x, RestorePatch()) in RestoreWrites(id, all, rank, notes)
    ensures UpdateNote(x, n, SoftDeletePatch()) in SoftDeleteWrites(id, all, rank, notes)
        <==> UpdateNote(x, n, RestorePatch()) in RestoreWrites(id, all, rank, notes)
  {
    var l := Cascade(id, all, rank);
    CascadeWritesMembers(l, notes, SoftDeletePatch(), UpdateNotebook(x, SoftDeletePatch()));
    CascadeWritesMembers(l, notes, RestorePatch(), UpdateNotebook(x, RestorePatch()));
    CascadeWritesMembers(l, notes, SoftDeletePatch(), UpdateNote(x, n, SoftDeletePatch()));
    CascadeWritesMembers(l, notes, RestorePatch(), UpdateNote(x, n, RestorePatch()));
  }

  /** The writes of one notebook in the permanent delete: its notes, then the notebook. */
  function DeleteBlock(notes: map<string, seq<string>>, nb: string): (r: seq<Write>)
    ensures |r| > 0 && r[|r| - 1] == DeleteNotebook(nb)
  {
    NoteDeletes(notes, nb) + [DeleteNotebook(nb)]
  }

  /** The permanent-delete writes for the notebooks of `order`, in that order. */
  function DeleteWrites(order: seq<string>, notes: map<string, seq<string>>): seq<Write>
    decreases |order|
  {
    if order == [] then [] else DeleteWrites(order[..|order| - 1], notes) + DeleteBlock(notes, order[|order| - 1])
  }

  /** `usePermanentlyDeleteNotebook`: the reversed cascade. */
  function PermanentDeleteWrites(id: string, all: seq<Notebook>, ghost rank: map<string, nat>, notes: map<string, seq<string>>): seq<Write>
    requires Ranked(all, rank) && id in rank
  {
    DeleteWrites(Reverse(Cascade(id, all, rank)), notes)
  }

  lemma {:induction false} DeleteWritesPrefix(order: seq<string>, notes: map<string, seq<string>>, j: nat)
    requires j <= |order|
    ensures var p := DeleteWrites(order[..j], notes);
      |p| <= |DeleteWrites(order, notes)| && DeleteWrites(order, notes)[..|p|] == p
    decreases |order| - j
  {
    if j < |order| {
      DeleteWritesPrefix(order[..|order| - 1], notes, j);
      assert order[..|order| - 1][..j] == order[..j];
    } else {
      assert order[..j] == order;
    }
  }

  lemma DeleteWritesHas(order: seq<string>, notes: map<string, seq<string>>, k: nat)
    requires k < |order|
    ensures DeleteNotebook(order[k]) in DeleteWrites(order[..k + 1], notes)
  {
    assert order[..k + 1][..k] == order[..k];
  }

  /** A notebook in the first `m` entries of the order is deleted within their writes. */
  lemma DeletedInPrefix(order: seq<string>, notes: map<string, seq<string>>, k: nat, m: nat)
    requires k < m <= |order|
    ensures DeleteNotebook(order[k]) in DeleteWrites(order[..m], notes)
  {
    var front := order[..m];
    DeleteWritesHas(order, notes, k);
    DeleteWritesPrefix(front, notes, k + 1);
    assert front[..k + 1] == order[..k + 1];
    InPrefix(DeleteNotebook(order[k]), DeleteWrites(order[..k + 1], notes), DeleteWrites(front, notes));
  }

  lemma InPrefix<T>(x: T, q: seq<T>, w: seq<T>)
    requires x in q && |q| <= |w| && w[..|q|] == q
    ensures x in w
  {
    var i :| 0 <= i < |q| && q[i] == x;
    assert w[i] == x;
  }

  lemma ChildrenFirstPrefix(order: seq<string>, below: string -> seq<string>, m: nat)
    requires ChildrenFirst(order, below) && m <= |order|
    ensures ChildrenFirst(order[..m], below)
  {
    var front := order[..m];
    forall j, x | 0 <= j < |front| && x in below(front[j])
      ensures exists k :: 0 <= k < j && front[k] == x
    {
      assert front[j] == order[j];
      var k :| 0 <= k < j && order[k] == x;
      assert front[k] == x;
    }
  }

  /** The last block: the notes of the last notebook, then the notebook, after everything
      below it. */
  lemma LastDeleteOrdered(order: seq<string>, notes: map<string, seq<string>>, below: string -> seq<string>)
    requires ChildrenFirst(order, below) && |order| > 0
    ensures var ws := DeleteWrites(order, notes); var nb := order[|order| - 1];
      && ws[|ws| - 1] == DeleteNotebook(nb)
      && (forall n :: n in NotesIn(notes, nb) ==> DeleteNote(nb, n) in ws[..|ws| - 1])
      && (forall x :: x in below(nb) ==> DeleteNotebook(x) in ws[..|ws| - 1])
  {
    var last := |order| - 1;
    var nb := order[last];
    var front := order[..last];
    var ws := DeleteWrites(order, notes);
    var pw := DeleteWrites(front, notes);
    var ns := NoteDeletes(notes, nb);
    assert ws == pw + ns + [DeleteNotebook(nb)];
    assert ws[..|ws| - 1] == pw + ns;
    forall n | n in NotesIn(notes, nb) ensures DeleteNote(nb, n) in ws[..|ws| - 1] {
      var i :| 0 <= i < |NotesIn(notes, nb)| && NotesIn(notes, nb)[i] == n;
      assert ns[i] == DeleteNote(nb, n);
    }
    forall x | x in below(nb) ensures DeleteNotebook(x) in ws[..|ws| - 1] {
      var k :| 0 <= k < last && order[k] == x;
      DeletedInPrefix(order, notes, k, last);
    }
  }

  /** In the write sequence, a notebook is deleted only after all the notes read from it and
      everything `below` it, provided the order visits what is below first. */
  lemma {:induction false} DeleteWritesOrdered(order: seq<string>, notes: map<string, seq<string>>, below: string -> seq<string>, p: nat)
    requires ChildrenFirst(order, below)
    requires p < |DeleteWrites(order, notes)| && DeleteWrites(order, notes)[p].DeleteNotebook?
    ensures var ws := DeleteWrites(order, notes); var nb := ws[p].id;
      && nb in order
      && (forall n :: n in NotesIn(notes, nb) ==> DeleteNote(nb, n) in ws[..p])
      && (forall x :: x in below(nb) ==> DeleteNotebook(x) in ws[..p])
    decreases |order|
  {
    var ws := DeleteWrites(order, notes);
    var last := |order| - 1;
    var front := order[..last];
    var pw := DeleteWrites(front, notes);
    var ns := NoteDeletes(notes, order[last]);
    assert ws == pw + ns + [DeleteNotebook(order[last])];
    if p < |pw| {
      ChildrenFirstPrefix(order, below, last);
      DeleteWritesOrdered(front, notes, below, p);
      assert pw[..p] == ws[..p];
    } else {
      assert p == |ws| - 1;
      LastDeleteOrdered(order, notes, below);
    }
  }

  /** Permanent delete removes every notebook only after every notebook below it, and each
      notebook's notes before the notebook itself. */
  lemma PermanentDeleteOrder(id: string, all: seq<Notebook>, rank: map<string, nat>, notes: map<string, seq<string>>, p: nat)
    requires Ranked(all, rank) && id in rank
    requires p < |PermanentDeleteWrites(id, all, rank, notes)| && PermanentDeleteWrites(id, all, rank, notes)[p].DeleteNotebook?
    ensures var ws := PermanentDeleteWrites(id, all, rank, notes); var nb := ws[p].id;
      && (forall n :: n in NotesIn(notes, nb) ==> DeleteNote(nb, n) in ws[..p])
      && (forall x :: Reachable(all, nb, x) ==> DeleteNotebook(x) in ws[..p])
  {
    ReversedCascadeChildrenFirst(id, all, rank);
    var ws := PermanentDeleteWrites(id, all, rank, notes);
    DeleteWritesOrdered(Reverse(Cascade(id, all, rank)), notes, Below(all, rank), p);
    CascadeMemberRanked(id, all, rank, ws[p].id);
    forall x | Reachable(all, ws[p].id, x) ensures DeleteNotebook(x) in ws[..p] {
      DescendantsAreReachable(ws[p].id, all, rank, x);
      assert x in Below(all, rank)(ws[p].id);
    }
  }

  lemma CascadeMemberRanked(id: string, all: seq<Notebook>, rank: map<string, nat>, x: string)
    requires Ranked(all, rank) && id in rank
    requires x in Reverse(Cascade(id, all, rank))
    ensures x in rank
  {
    var l := Cascade(id, all, rank);
    var k :| 0 <= k < |l| && Reverse(l)[k] == x;
    assert x == l[|l| - 1 - k];
    if x != id {
      assert x in Descendants(id, all, rank);
      DescendantsReachable(id, all, rank, x);
    }
  }

  /** Permanent delete removes the notebook itself and every note read from its collection. */
  lemma PermanentDeleteRemovesOwn(id: string, all: seq<Notebook>, rank: map<string, nat>, notes: map<string, seq<string>>)
    requires Ranked(all, rank) && id in rank
    ensures var ws := PermanentDeleteWrites(id, all, rank, notes);
      && DeleteNotebook(id) in ws
      && (forall n :: n in NotesIn(notes, id) ==> DeleteNote(id, n) in ws)
  {
    var order := Reverse(Cascade(id, all, rank));
    assert order[|order| - 1] == id;
    var ws := PermanentDeleteWrites(id, all, rank, notes);
    var block := DeleteBlock(notes, id);
    assert ws == DeleteWrites(order[..|order| - 1], notes) + block;
    assert block[|block| - 1] in ws;
    forall n | n in NotesIn(notes, id) ensures DeleteNote(id, n) in ws {
      var i :| 0 <= i < |NotesIn(notes, id)| && NotesIn(notes, id)[i] == n;
      assert block[i] == DeleteNote(id, n);
    }
  }

  /** The arguments of `useCreateNotebook` */
  datatype NewNotebook = NewNotebook(title: Option<string>, parent: Option<string>)

  function ParentValue(p: Option<string>): Value {
    match p
    case None => Null
    case Some(x) => Text(x)
  }

  /** The fields `addDoc` writes for a new notebook. */
  function CreateFields(req: NewNotebook): Patch {
    map["title" := Text(TitleOrDefault(req.title)),
        "parentNotebookId" := ParentValue(OrNull(req.parent)),
        "createdAt" := ServerTimestamp,
        "updatedAt" := ServerTimestamp,
        "deletedAt" := Null]
  }

  /** The notebook the mutation returns: untitled when the title is empty, at the root when no
      parent is given, not deleted. */
  function CreateResult(req: NewNotebook, id: string, userId: string, now: int): (nb: Notebook)
    ensures nb.title != "" && nb.deletedAt.None? && nb.createdAt == now && nb.updatedAt == now
    ensures (req.parent.None? || req.parent.value == "") ==> nb.parent.None?
  {
    Notebook(id, userId, TitleOrDefault(req.title), OrNull(req.parent), now, now, None)
  }

  /** `updateDoc(ref, p)` on an existing notebook document stamped at server time `t`. */
  function ApplyPatch(d: NotebookDoc, p: Patch, t: int): NotebookDoc {
    NotebookDoc(
      if "title" in p && p["title"].Text? then p["title"].text else d.title,
      if "parentNotebookId" !in p then d.parent
      else if p["parentNotebookId"].Text? then Some(p["parentNotebookId"].text)
      else if p["parentNotebookId"].Null? then None
      else d.parent,
      Stamp(p, "createdAt", d.createdAt, t),
      Stamp(p, "updatedAt", d.updatedAt, t),
      Stamp(p, "deletedAt", d.deletedAt, t))
  }

  /** What create writes reads back as what it returns, the server stamping the client's time. */
  lemma CreateRoundTrip(req: NewNotebook, id: string, userId: string, before: NotebookDoc, t: int, now: int)
    ensures Parse(id, userId, ApplyPatch(before, CreateFields(req), t), now) == CreateResult(req, id, userId, t)
  {}

  /** The arguments of `useUpdateNotebook`: `None` is an omitted field; `Some(None)` is an
      explicit null parent (move to the root). */
  datatype UpdateRequest = UpdateRequest(id: string, title: Option<string>, parent: Option<Option<string>>)

  /** The update patch: always `updatedAt`, plus `title` and `parentNotebookId` exactly when
      given. */
  function UpdatePatch(req: UpdateRequest): (p: Patch)
    ensures "updatedAt" in p && p["updatedAt"] == ServerTimestamp
    ensures "title" in p <==> req.title.Some?
    ensures "parentNotebookId" in p <==> req.parent.Some?
    ensures req.title.Some? ==> p["title"] == Text(req.title.value)
    ensures req.parent.Some? ==> p["parentNotebookId"] == ParentValue(req.parent.value)
    ensures p.Keys <= {"updatedAt", "title", "parentNotebookId"}
  {
    var p0 := map["updatedAt" := ServerTimestamp];
    var p1 := if req.title.Some? then p0["title" := Text(req.title.value)] else p0;
    if req.parent.Some? then p1["parentNotebookId" := ParentValue(req.parent.value)] else p1
  }

  /** An update changes the given fields and `updated_at`, and keeps everything else. */
  lemma UpdateApplies(req: UpdateRequest, userId: string, d: NotebookDoc, t: int, now: int)
    ensures var nb := Parse(req.id, userId, ApplyPatch(d, UpdatePatch(req), t), now);
      var old0 := Parse(req.id, userId, d, now);
      && nb.title == req.title.GetOr(old0.title)
      && nb.parent == (if req.parent.Some? then OrNull(req.parent.value) else old0.parent)
      && nb.updatedAt == t
      && nb.createdAt == old0.createdAt && nb.deletedAt == old0.deletedAt
  {
    var p := UpdatePatch(req);
    assert "createdAt" !in p && "deletedAt" !in p;
  }

  /** `useMoveNotebook`: the new parent (null for the root) and a fresh `updatedAt`, with no
      check against moving a notebook below itself. */
  function MovePatch(newParent: Option<string>): (p: Patch)
    ensures p == UpdatePatch(UpdateRequest("", None, Some(newParent)))
  {
    map["parentNotebookId" := ParentValue(newParent), "updatedAt" := ServerTimestamp]
  }

  /** Moving a notebook below its own child is accepted and leaves a cycle. No rank then
      covers either notebook, so the model has no cascade from them; in the code the descendant
      walk from either overflows the stack and the mutation rejects before any write. */
  lemma MoveCanCreateCycle(t: int, now: int)
    ensures var a := NotebookDoc("a", None, Some(0), Some(0), None);
      var b := NotebookDoc("b", Some("A"), Some(0), Some(0), None);
      var all := ParseAll("u", [("A", ApplyPatch(a, MovePatch(Some("B")), t)), ("B", b)], now);
      forall rank :: Ranked(all, rank) ==> "A" !in rank && "B" !in rank
  {
    var a := NotebookDoc("a", None, Some(0), Some(0), None);
    var b := NotebookDoc("b", Some("A"), Some(0), Some(0), None);
    var all := ParseAll("u", [("A", ApplyPatch(a, MovePatch(Some("B")), t)), ("B", b)], now);
    assert all[0].id == "A" && all[0].parent == Some("B");
    assert all[1].id == "B" && all[1].parent == Some("A");
  }
}

=== FILE: notes.dfy ===
/**
 * `useNotes.ts`: how note documents are read into `Note` values, shaped into the notebook list
 * and the wastebasket list, and which writes the mutations send. Document ids and timestamps
 * are given; a server timestamp is resolved to a given time `t` when a write is applied, and
 * the client clock (`new Date()`) is the parameter `now`.
 */
module Notes {
  import opened Wrappers
  import opened Sorting
  import opened Editor
  import opened Firestore

  /** A stored note document. `None` is a missing or null field. */
  datatype NoteDoc = NoteDoc(
    title: string,
    content: RawContent,
    createdAt: Option<int>,
    updatedAt: Option<int>,
    deletedAt: Option<int>)

  /** The `Note` value the hooks build. */
  datatype Note = Note(
    id: string,
    notebookId: string,
    title: string,
    content: RawContent,
    createdAt: int,
    updatedAt: int,
    deletedAt: Option<int>)

  /** Reading a document: a missing creation or update time falls back to the client clock,
      and `deleted_at` is set exactly when the stored `deletedAt` is. */
  function Parse(id: string, notebookId: string, d: NoteDoc, now: int): (n: Note)
    ensures n.id == id && n.notebookId == notebookId && n.title == d.title && n.content == d.content
    ensures n.deletedAt.None? <==> d.deletedAt.None?
    ensures d.createdAt.None? ==> n.createdAt == now
    ensures d.createdAt.Some? ==> n.createdAt == d.createdAt.value
    ensures d.updatedAt.None? ==> n.updatedAt == now
    ensures d.updatedAt.Some? ==> n.updatedAt == d.updatedAt.value
    ensures n.deletedAt == d.deletedAt
  {
    Note(id, notebookId, d.title, d.content, d.createdAt.GetOr(now), d.updatedAt.GetOr(now), d.deletedAt)
  }

  /** `updateDoc(ref, p)` on an existing document, the server stamping time `t`: the keys in
      `p` overwrite, the others are kept. */
  function ApplyPatch(d: NoteDoc, p: Patch, t: int): NoteDoc {
    NoteDoc(
      if "title" in p && p["title"].Text? then p["title"].text else d.title,
      if "content" in p && p["content"].Body? then p["content"].body else d.content,
      Stamp(p, "createdAt", d.createdAt, t),
      Stamp(p, "updatedAt", d.updatedAt, t),
      Stamp(p, "deletedAt", d.deletedAt, t))
  }

  // ---------------------------------------------------------------------------------------
  // Lists

  function Active(n: Note): bool { n.deletedAt.None? }
  function Trashed(n: Note): bool { n.deletedAt.Some? }
  function UpdatedKey(n: Note): int { n.updatedAt }
  function DeletedKey(n: Note): int { n.deletedAt.GetOr(0) }

  function ParseAll(notebookId: string, docs: seq<(string, NoteDoc)>, now: int): (r: seq<Note>)
    ensures |r| == |docs|
    ensures forall i :: 0 <= i < |docs| ==> r[i] == Parse(docs[i].0, notebookId, docs[i].1, now)
  {
    Map(docs, (d: (string, NoteDoc)) => Parse(d.0, notebookId, d.1, now))
  }

  /** The notes of one notebook, as both the initial fetch and every snapshot compute them:
      the documents not soft-deleted, most recently updated first. */
  function NotesList(notebookId: string, docs: seq<(string, NoteDoc)>, now: int): seq<Note> {
    SortDesc(Filter(ParseAll(notebookId, docs, now), Active), UpdatedKey)
  }

  /** The notebook list holds exactly the documents without `deletedAt`, read under this
      notebook's id, newest update first, each document once. */
  lemma NotesListSpec(notebookId: string, docs: seq<(string, NoteDoc)>, now: int)
    ensures var r := NotesList(notebookId, docs, now);
      && SortedDesc(r, UpdatedKey)
      && (forall i :: 0 <= i < |r| ==> r[i].deletedAt.None? && r[i].notebookId == notebookId)
      && (forall j :: 0 <= j < |docs| && docs[j].1.deletedAt.None? ==>
            Parse(docs[j].0, notebookId, docs[j].1, now) in r)
      && (forall i :: 0 <= i < |r| ==>
            exists j :: 0 <= j < |docs| && docs[j].1.deletedAt.None? && r[i] == Parse(docs[j].0, notebookId, docs[j].1, now))
      && |r| <= |docs|
      && multiset(r) == multiset(Filter(ParseAll(notebookId, docs, now), Active))
  {
    var all := ParseAll(notebookId, docs, now);
    var f := Filter(all, Active);
    var r := SortDesc(f, UpdatedKey);
    forall i | 0 <= i < |r|
      ensures r[i].deletedAt.None? && r[i].notebookId == notebookId
      ensures exists j :: 0 <= j < |docs| && docs[j].1.deletedAt.None? && r[i] == Parse(docs[j].0, notebookId, docs[j].1, now)
    {
      assert r[i] in multiset(f);
      assert r[i] in f;
      var j :| 0 <= j < |all| && all[j] == r[i];
    }
    forall j | 0 <= j < |docs| && docs[j].1.deletedAt.None?
      ensures Parse(docs[j].0, notebookId, docs[j].1, now) in r
    {
      assert Active(all[j]);
      assert all[j] in f;
      assert all[j] in multiset(r);
    }
  }

  /** The trashed notes of one notebook collection, tagged with that notebook. */
  function TrashedIn(notebookId: string, docs: seq<(string, NoteDoc)>, now: int): seq<Note> {
    Filter(ParseAll(notebookId, docs, now), Trashed)
  }

  /** The loop over every notebook collection, in order. */
  function CollectTrashed(collections: seq<(string, seq<(string, NoteDoc)>)>, now: int): seq<Note>
    decreases |collections|
  {
    if collections == [] then []
    else TrashedIn(collections[0].0, collections[0].1, now) + CollectTrashed(collections[1..], now)
  }

  /** `useTrashedNotes`: nothing without a user, else every trashed note, newest deletion first. */
  function TrashedNotes(signedIn: bool, collections: seq<(string, seq<(string, NoteDoc)>)>, now: int): seq<Note> {
    if !signedIn then [] else SortDesc(CollectTrashed(collections, now), DeletedKey)
  }

  ghost predicate IsTrashedDoc(collections: seq<(string, seq<(string, NoteDoc)>)>, now: int, n: Note) {
    exists i, j :: 0 <= i < |collections| && 0 <= j < |collections[i].1|
      && collections[i].1[j].1.deletedAt.Some?
      && n == Parse(collections[i].1[j].0, collections[i].0, collections[i].1[j].1, now)
  }

  lemma {:induction false} CollectTrashedMembers(collections: seq<(string, seq<(string, NoteDoc)>)>, now: int, n: Note)
    ensures n in CollectTrashed(collections, now) <==> IsTrashedDoc(collections, now, n)
    decreases |collections|
  {
    if collections != [] {
      var c := collections[0];
      var all := ParseAll(c.0, c.1, now);
      CollectTrashedMembers(collections[1..], now, n);
      if n in TrashedIn(c.0, c.1, now) {
        var j :| 0 <= j < |all| && all[j] == n;
        assert collections[0].1[j].1.deletedAt.Some?;
      }
      if IsTrashedDoc(collections, now, n) {
        var i, j :| 0 <= i < |collections| && 0 <= j < |collections[i].1|
          && collections[i].1[j].1.deletedAt.Some?
          && n == Parse(collections[i].1[j].0, collections[i].0, collections[i].1[j].1, now);
        if i == 0 {
          assert Trashed(all[j]);
          assert n in TrashedIn(c.0, c.1, now);
        } else {
          assert collections[1..][i - 1] == collections[i];
          assert IsTrashedDoc(collections[1..], now, n);
        }
      }
      if IsTrashedDoc(collections[1..], now, n) {
        var i, j :| 0 <= i < |collections[1..]| && 0 <= j < |collections[1..][i].1|
          && collections[1..][i].1[j].1.deletedAt.Some?
          && n == Parse(collections[1..][i].1[j].0, collections[1..][i].0, collections[1..][i].1[j].1, now);
        assert collections[1..][i] == collections[i + 1];
      }
    }
  }

  /** The wastebasket list holds exactly the documents with `deletedAt` set, each tagged with
      the notebook it was read from, newest deletion first; without a user it is empty. */
  lemma TrashedNotesSpec(signedIn: bool, collections: seq<(string, seq<(string, NoteDoc)>)>, now: int)
    ensures var r := TrashedNotes(signedIn, collections, now);
      && SortedDesc(r, DeletedKey)
      && (!signedIn ==> r == [])
      && (signedIn ==> forall n :: n in r <==> IsTrashedDoc(collections, now, n))
      && (signedIn ==> multiset(r) == multiset(CollectTrashed(collections, now)))
  {
    if signedIn {
      var c := CollectTrashed(collections, now);
      forall n ensures n in SortDesc(c, DeletedKey) <==> IsTrashedDoc(collections, now, n) {
        CollectTrashedMembers(collections, now, n);
        assert n in SortDesc(c, DeletedKey) <==> n in multiset(c);
      }
    }
  }

  // ---------------------------------------------------------------------------------------
  // useNote

  predicate Truthy(s: Option<string>) { s.Some? && s.value != "" }

  /** The single-note query: disabled while nobody is signed in, `null` without a note id or a
      notebook id, or when the document does not exist. */
  function FetchNote(signedIn: bool, noteId: Option<string>, notebookId: Option<string>, d: Option<NoteDoc>, now: int): (r: Option<Note>)
    ensures r.Some? <==> signedIn && Truthy(noteId) && Truthy(notebookId) && d.Some?
    ensures r.Some? ==> r.value == Parse(noteId.value, notebookId.value, d.value, now)
  {
    if !signedIn || !Truthy(noteId) || !Truthy(notebookId) then None
    else if d.None? then None
    else Some(Parse(noteId.value, notebookId.value, d.value, now))
  }

  /** The single-note snapshot listener: it writes the cache only when the document exists,
      so a deletion leaves the last cached value in place. */
  function NoteSnapshot(cache: Option<Note>, noteId: string, notebookId: string, d: Option<NoteDoc>, now: int): (r: Option<Note>)
    ensures d.None? ==> r == cache
    ensures d.Some? ==> r == Some(Parse(noteId, notebookId, d.value, now))
  {
    if d.Some? then Some(Parse(noteId, notebookId, d.value, now)) else cache
  }

  // ---------------------------------------------------------------------------------------
  // Mutations

  /** The arguments of `useCreateNote` */
  datatype NewNote = NewNote(notebookId: string, title: Option<string>, content: Option<RawContent>)

  /** `content || []` */
  function ContentOrDefault(c: Option<RawContent>): (r: RawContent)
    ensures !r.Absent?
    ensures c.Some? && !c.value.Absent? ==> r == c.value
  {
    if c.None? || c.value.Absent? then Blocks([]) else c.value
  }

  /** The fields `addDoc` writes for a new note. */
  function CreateFields(req: NewNote): Patch {
    map["title" := Text(TitleOrDefault(req.title)),
        "content" := Body(ContentOrDefault(req.content)),
        "createdAt" := ServerTimestamp,
        "updatedAt" := ServerTimestamp,
        "deletedAt" := Null]
  }

  /** The `Note` the mutation returns for the new document `id`. */
  function CreateResult(req: NewNote, id: string, now: int): (n: Note)
    ensures n.deletedAt.None? && n.createdAt == now && n.updatedAt == now
  {
    Note(id, req.notebookId, TitleOrDefault(req.title), ContentOrDefault(req.content), now, now, None)
  }

  /** What create writes reads back as what create returns, when the server stamps the same time
      as the client clock: whatever document existed before, every field is overwritten. */
  lemma CreateRoundTrip(req: NewNote, id: string, before: NoteDoc, t: int, now: int)
    ensures Parse(id, req.notebookId, ApplyPatch(before, CreateFields(req), t), now) == CreateResult(req, id, t)
  {}

  /** The arguments of `useUpdateNote`; `None` is an omitted (undefined) field. */
  datatype UpdateRequest = UpdateRequest(id: string, notebookId: Option<string>, title: Option<string>, content: Option<RawContent>)

  /** The update patch: always `updatedAt`, plus `title` and `content` exactly when given. */
  function UpdatePatch(req: UpdateRequest): (p: Patch)
    ensures "updatedAt" in p && p["updatedAt"] == ServerTimestamp
    ensures "title" in p <==> req.title.Some?
    ensures "content" in p <==> req.content.Some?
    ensures req.title.Some? ==> p["title"] == Text(req.title.value)
    ensures req.content.Some? ==> p["content"] == Body(req.content.value)
    ensures p.Keys <= {"updatedAt", "title", "content"}
  {
    var p0 := map["updatedAt" := ServerTimestamp];
    var p1 := if req.title.Some? then p0["title" := Text(req.title.value)] else p0;
    if req.content.Some? then p1["content" := Body(req.content.value)] else p1
  }

  /** The optimistic cache write in `onMutate`: only when a note is cached; the given fields
      overwrite, `updated_at` becomes the client clock, every other field keeps its value. */
  function OptimisticUpdate(cache: Option<Note>, req: UpdateRequest, now: int): (r: Option<Note>)
    ensures r.Some? <==> cache.Some?
    ensures r.Some? ==> (
      && r.value.title == req.title.GetOr(cache.value.title)
      && r.value.content == req.content.GetOr(cache.value.content)
      && r.value.updatedAt == now
      && r.value.id == req.id
      && r.value.notebookId == cache.value.notebookId
      && r.value.createdAt == cache.value.createdAt
      && r.value.deletedAt == cache.value.deletedAt)
  {
    match cache
    case None => None
    case Some(n) =>
      Some(n.(id := req.id,
                title := req.title.GetOr(n.title),
                content := req.content.GetOr(n.content),
                updatedAt := now))
  }

  /** The optimistic value is what the server will hold: reading the patched document, stamped
      at time `t`, gives the note the optimistic update wrote at client time `t`. */
  lemma OptimisticMatchesServer(req: UpdateRequest, notebookId: string, d: NoteDoc, t: int, now: int)
    ensures var cached := Some(Parse(req.id, notebookId, d, now));
      OptimisticUpdate(cached, req, t) == Some(Parse(req.id, notebookId, ApplyPatch(d, UpdatePatch(req), t), now))
  {
    var p := UpdatePatch(req);
    assert "createdAt" !in p && "deletedAt" !in p;
  }

  /** A write to one note document. */
  datatype NoteWrite = Update(notebookId: string, id: string, patch: Patch) | Delete(notebookId: string, id: string)

  function SoftDeleteWrite(id: string, notebookId: string): NoteWrite {
    Update(notebookId, id, map["deletedAt" := ServerTimestamp])
  }

  function RestoreWrite(id: string, notebookId: string): NoteWrite {
    Update(notebookId, id, map["deletedAt" := Null])
  }

  function PermanentDeleteWrite(id: string, notebookId: string): NoteWrite {
    Delete(notebookId, id)
  }

  /** A write applied to the collection of notebook `notebookId`. */
  function ApplyWrite(notebookId: string, docs: seq<(string, NoteDoc)>, w: NoteWrite, t: int): (r: seq<(string, NoteDoc)>)
    ensures |r| <= |docs|
    decreases |docs|
  {
    if docs == [] || w.notebookId != notebookId then docs
    else
      var rest := ApplyWrite(notebookId, docs[1..], w, t);
      if docs[0].0 != w.id then [docs[0]] + rest
      else match w
        case Update(_, _, p) => [(docs[0].0, ApplyPatch(docs[0].1, p, t))] + rest
        case Delete(_, _) => rest
  }

  lemma {:induction false} SoftDeleteMarks(notebookId: string, docs: seq<(string, NoteDoc)>, id: string, t: int)
    ensures var r := ApplyWrite(notebookId, docs, SoftDeleteWrite(id, notebookId), t);
      |r| == |docs| && forall k :: 0 <= k < |r| ==> (
        && r[k].0 == docs[k].0
        && (r[k].0 == id ==> r[k].1 == docs[k].1.(deletedAt := Some(t)))
        && (r[k].0 != id ==> r[k].1 == docs[k].1))
    decreases |docs|
  {
    if docs != [] {
      SoftDeleteMarks(notebookId, docs[1..], id, t);
    }
  }

  lemma {:induction false} RestoreClears(notebookId: string, docs: seq<(string, NoteDoc)>, id: string, t: int)
    ensures var r := ApplyWrite(notebookId, docs, RestoreWrite(id, notebookId), t);
      |r| == |docs| && forall k :: 0 <= k < |r| ==> (
        && r[k].0 == docs[k].0
        && (r[k].0 == id ==> r[k].1 == docs[k].1.(deletedAt := None))
        && (r[k].0 != id ==> r[k].1 == docs[k].1))
    decreases |docs|
  {
    if docs != [] {
      RestoreClears(notebookId, docs[1..], id, t);
    }
  }

  lemma {:induction false} DeleteRemoves(notebookId: string, docs: seq<(string, NoteDoc)>, id: string, t: int)
    ensures var r := ApplyWrite(notebookId, docs, PermanentDeleteWrite(id, notebookId), t);
      (forall k :: 0 <= k < |r| ==> r[k].0 != id)
      && (forall k :: 0 <= k < |docs| && docs[k].0 != id ==> docs[k] in r)
    decreases |docs|
  {
    if docs != [] {
      DeleteRemoves(notebookId, docs[1..], id, t);
    }
  }

  /** After a soft delete no note with that id is left in its notebook's list. */
  lemma SoftDeleteHides(notebookId: string, docs: seq<(string, NoteDoc)>, id: string, t: int, now: int)
    ensures var after := ApplyWrite(notebookId, docs, SoftDeleteWrite(id, notebookId), t);
      forall n :: n in NotesList(notebookId, after, now) ==> n.id != id
  {
    var after := ApplyWrite(notebookId, docs, SoftDeleteWrite(id, notebookId), t);
    SoftDeleteMarks(notebookId, docs, id, t);
    NotesListSpec(notebookId, after, now);
    var list := NotesList(notebookId, after, now);
    forall n | n in list ensures n.id != id {
      var i :| 0 <= i < |list| && list[i] == n;
      var j :| 0 <= j < |after| && after[j].1.deletedAt.None? && list[i] == Parse(after[j].0, notebookId, after[j].1, now);
    }
  }

  /** A soft-deleted note is in the wastebasket, stamped with the deletion time. */
  lemma SoftDeleteTrashes(notebookId: string, docs: seq<(string, NoteDoc)>, id: string, t: int, now: int)
    ensures var after := ApplyWrite(notebookId, docs, SoftDeleteWrite(id, notebookId), t);
      forall k :: 0 <= k < |docs| && docs[k].0 == id ==>
        Parse(id, notebookId, docs[k].1.(deletedAt := Some(t)), now) in TrashedIn(notebookId, after, now)
  {
    var after := ApplyWrite(notebookId, docs, SoftDeleteWrite(id, notebookId), t);
    SoftDeleteMarks(notebookId, docs, id, t);
    var all := ParseAll(notebookId, after, now);
    forall k | 0 <= k < |docs| && docs[k].0 == id
      ensures Parse(id, notebookId, docs[k].1.(deletedAt := Some(t)), now) in TrashedIn(notebookId, after, now)
    {
      assert Trashed(all[k]);
    }
  }

  /** A soft delete leaves the other active notes of the notebook in its list. */
  lemma SoftDeleteKeepsOthers(notebookId: string, docs: seq<(string, NoteDoc)>, id: string, t: int, now: int)
    ensures var after := ApplyWrite(notebookId, docs, SoftDeleteWrite(id, notebookId), t);
      forall k :: 0 <= k < |docs| && docs[k].0 != id && docs[k].1.deletedAt.None? ==>
        Parse(docs[k].0, notebookId, docs[k].1, now) in NotesList(notebookId, after, now)
  {
    var after := ApplyWrite(notebookId, docs, SoftDeleteWrite(id, notebookId), t);
    SoftDeleteMarks(notebookId, docs, id, t);
    NotesListSpec(notebookId, after, now);
    forall k | 0 <= k < |docs| && docs[k].0 != id && docs[k].1.deletedAt.None?
      ensures Parse(docs[k].0, notebookId, docs[k].1, now) in NotesList(notebookId, after, now)
    {
      assert after[k] == docs[k];
    }
  }

  /** Restoring a note puts it back in its notebook's list. */
  lemma RestoreReturnsToList(notebookId: string, docs: seq<(string, NoteDoc)>, id: string, t: int, now: int)
    ensures var after := ApplyWrite(notebookId, docs, RestoreWrite(id, notebookId), t);
      forall k :: 0 <= k < |docs| && docs[k].0 == id ==>
        Parse(id, notebookId, docs[k].1.(deletedAt := None), now) in NotesList(notebookId, after, now)
  {
    var after := ApplyWrite(notebookId, docs, RestoreWrite(id, notebookId), t);
    RestoreClears(notebookId, docs, id, t);
    NotesListSpec(notebookId, after, now);
  }
}

=== FILE: pinpad.dfy ===
/**
 * `PinCodeModal.tsx`: the four-digit PIN pad that unlocks the private space, or sets its PIN up
 * when none is stored. The two 200 ms `setTimeout` continuations are queued timers that fire,
 * oldest first, on an `Elapsed` event; the awaited PIN save settles on a `SaveSettled` event.
 * What the modal asks of its surroundings (`unlockPrivateSpace`, `onClose`, the save mutation)
 * is recorded as effects.
 *
 * `unlocks` says whether calling the store's `unlockPrivateSpace` returns normally. The store in
 * `uiStore.ts` declares no such member, so there the selector yields `undefined` and the call
 * throws a `TypeError` (`unlocks == false`); `unlocks == true` is the store the modal was
 * written against.
 *
 * The pad carries the profile's `pin_code` as the modal last rendered it. A fulfilled save
 * writes the new PIN into the profile cache (`useUpdatePin`'s `onSuccess`, which runs before
 * the awaited mutation resolves), so `isSetup` turns false; the next render, the `Rendered`
 * event, then re-runs the reset effect, whose dependencies include `isSetup`.
 */
module PinPad {
  import opened Wrappers

  const PinLength := 4

  datatype Step = Enter | Create | Confirm

  /** A `setTimeout` continuation: switching to the confirm step, or `finalizeSetup` with the
      buffers it captured. */
  datatype Timer = ToConfirm | Finalize(original: string, confirmation: string)

  datatype Effect = Unlock | Close | SavePin(pin: string)

  datatype Pad = Pad(
    stored: Option<string>,  // the profile's `pin_code`
    setupSeen: bool,         // the `isSetup` the reset effect last ran with
    pin: string,
    confirmPin: string,
    step: Step,
    error: Option<string>,
    timers: seq<Timer>,      // pending continuations, oldest first
    saving: seq<string>,     // PINs whose save `finalizeSetup` awaits, oldest first
    effects: seq<Effect>)

  datatype Event =
    | Opened              // the modal opens: the reset effect runs
    | Rendered            // a render while open: the reset effect runs again if `isSetup` changed
    | Digit(d: char)      // a keypad button or a digit key
    | Delete              // the delete button or Backspace
    | Elapsed             // the oldest pending timer fires
    | SaveSettled(outcome: Outcome)
    | Dismiss             // the close button or Escape

  /** `isSetup`: no PIN, or an empty one, is stored. */
  predicate IsSetup(stored: Option<string>) {
    stored.None? || stored.value == ""
  }

  function DropLast(s: string): (r: string)
    ensures s == [] ==> r == []
    ensures s != [] ==> r + [s[|s| - 1]] == s
  {
    if s == [] then [] else s[..|s| - 1]
  }

  /** The reset effect: both buffers and the error cleared, and the step chosen by `isSetup`. */
  function Reset(s: Pad): Pad {
    var setup := IsSetup(s.stored);
    s.(pin := "", confirmPin := "", error := None, step := if setup then Create else Enter, setupSeen := setup)
  }

  /** `verifyPin`: the entered PIN against the stored one (absent never matches). When the
      unlock call throws, the handler stops there: the modal stays open and the pin stays. */
  function Verify(s: Pad, unlocks: bool, entered: string): Pad {
    if s.stored == Some(entered) then
      if unlocks then s.(pin := "", effects := s.effects + [Unlock, Close]) else s
    else s.(pin := "", error := Some("Incorrect PIN"))
  }

  /** `handleNumberClick`, after the error has been cleared. */
  function Press(s: Pad, unlocks: bool, d: char): Pad {
    if s.step == Enter && |s.pin| < PinLength then
      var p := s.pin + [d];
      if |p| == PinLength then Verify(s.(pin := p), unlocks, p) else s.(pin := p)
    else if s.step == Create && |s.pin| < PinLength then
      var p := s.pin + [d];
      if |p| == PinLength then s.(pin := p, timers := s.timers + [ToConfirm]) else s.(pin := p)
    else if s.step == Confirm && |s.confirmPin| < PinLength then
      var c := s.confirmPin + [d];
      if |c| == PinLength then s.(confirmPin := c, timers := s.timers + [Finalize(s.pin, c)])
      else s.(confirmPin := c)
    else s
  }

  /** A timer's continuation. A matching confirmation starts the save. */
  function Fire(s: Pad, t: Timer): Pad {
    match t
    case ToConfirm => s.(step := Confirm)
    case Finalize(original, confirmation) =>
      if original == confirmation then s.(saving := s.saving + [original], effects := s.effects + [SavePin(original)])
      else s.(error := Some("PINs do not match"), confirmPin := "")
  }

  /** The rest of `finalizeSetup` once the save of `saved` has settled. A fulfilled save has
      already stored the PIN (`pin_code: newPin || undefined`). The unlock call sits inside the
      `try`, so when it throws after a successful save the `catch` runs as for a failed save. */
  function Settle(s: Pad, saved: string, outcome: Outcome, unlocks: bool): Pad {
    var t := if outcome.Fulfilled? then s.(stored := if saved == "" then None else Some(saved)) else s;
    if outcome.Fulfilled? && unlocks then t.(effects := t.effects + [Unlock, Close])
    else t.(error := Some("Failed to save PIN"), step := Create, pin := "", confirmPin := "")
  }

  /** One event. */
  function StepPad(s: Pad, unlocks: bool, e: Event): (r: Pad)
    ensures e.Opened? || (e.Rendered? && IsSetup(s.stored) != s.setupSeen) ==>
      && r.pin == "" && r.confirmPin == "" && r.error.None?
      && r.step == (if IsSetup(s.stored) then Create else Enter) && r.setupSeen == IsSetup(s.stored)
      && r.effects == s.effects && r.timers == s.timers && r.saving == s.saving
    ensures e.Rendered? && IsSetup(s.stored) == s.setupSeen ==> r == s
    ensures !e.SaveSettled? ==> r.stored == s.stored
    ensures e.Delete? ==> r.error.None? && r.step == s.step && r.effects == s.effects
    ensures e.Delete? && s.step != Confirm ==> r.pin == DropLast(s.pin) && r.confirmPin == s.confirmPin
    ensures e.Delete? && s.step == Confirm ==> r.confirmPin == DropLast(s.confirmPin) && r.pin == s.pin
    ensures e.Dismiss? ==> r.effects == s.effects + [Close]
  {
    match e
    case Opened => Reset(s)
    case Rendered => if IsSetup(s.stored) != s.setupSeen then Reset(s) else s
    case Digit(d) => Press(s.(error := None), unlocks, d)
    case Delete =>
      if s.step == Confirm then s.(error := None, confirmPin := DropLast(s.confirmPin))
      else s.(error := None, pin := DropLast(s.pin))
    case Elapsed => if s.timers == [] then s else Fire(s.(timers := s.timers[1..]), s.timers[0])
    case SaveSettled(outcome) =>
      if s.saving == [] then s else Settle(s.(saving := s.saving[1..]), s.saving[0], outcome, unlocks)
    case Dismiss => s.(effects := s.effects + [Close])
  }

  function Run(s: Pad, unlocks: bool, events: seq<Event>): Pad
    decreases |events|
  {
    if events == [] then s else Run(StepPad(s, unlocks, events[0]), unlocks, events[1..])
  }

  function Digits(p: string): (r: seq<Event>)
    ensures |r| == |p|
    ensures forall i :: 0 <= i < |p| ==> r[i] == Digit(p[i])
  {
    seq(|p|, i requires 0 <= i < |p| => Digit(p[i]))
  }

  // ---------------------------------------------------------------------------------------
  // Properties

  /** Neither buffer ever holds more than four characters. */
  ghost predicate Bounded(s: Pad) {
    |s.pin| <= PinLength && |s.confirmPin| <= PinLength
  }

  lemma StepBounded(s: Pad, unlocks: bool, e: Event)
    requires Bounded(s)
    ensures Bounded(StepPad(s, unlocks, e))
  {}

  lemma {:induction false} RunBounded(s: Pad, unlocks: bool, events: seq<Event>)
    requires Bounded(s)
    ensures Bounded(Run(s, unlocks, events))
    decreases |events|
  {
    if events != [] {
      StepBounded(s, unlocks, events[0]);
      RunBounded(StepPad(s, unlocks, events[0]), unlocks, events[1..]);
    }
  }

  /** A digit clears the error, unless it completes a wrong PIN, which sets "Incorrect PIN" and
      empties the pin without unlocking. */
  lemma DigitClearsError(s: Pad, unlocks: bool, d: char)
    ensures var r := StepPad(s, unlocks, Digit(d));
      if s.step == Enter && |s.pin| == PinLength - 1 && s.stored != Some(s.pin + [d])
      then r.error == Some("Incorrect PIN") && r.pin == "" && r.effects == s.effects
      else r.error.None?
  {}

  /** The fourth digit of the right PIN unlocks and closes, and clears the pin. When the unlock
      call throws, nothing follows it: the modal stays open holding the four digits. */
  lemma CorrectPinUnlocks(s: Pad, unlocks: bool, d: char)
    requires s.step == Enter && |s.pin| == PinLength - 1 && s.stored == Some(s.pin + [d])
    ensures var r := StepPad(s, unlocks, Digit(d));
      && r.error.None?
      && (unlocks ==> r.effects == s.effects + [Unlock, Close] && r.pin == "")
      && (!unlocks ==> r == s.(pin := s.pin + [d], error := None))
  {}

  /** A digit on a full buffer changes nothing but the error. */
  lemma FullBufferIgnoresDigits(s: Pad, unlocks: bool, d: char)
    requires (s.step != Confirm && |s.pin| >= PinLength) || (s.step == Confirm && |s.confirmPin| >= PinLength)
    ensures StepPad(s, unlocks, Digit(d)) == s.(error := None)
  {}

  /** In the create step the fourth digit queues the switch to the confirm step, which happens
      when that timer fires. */
  lemma CreateMovesToConfirm(s: Pad, unlocks: bool, d: char)
    requires s.step == Create && |s.pin| == PinLength - 1 && s.timers == []
    ensures var r := StepPad(s, unlocks, Digit(d));
      && r.timers == [ToConfirm] && r.step == Create
      && StepPad(r, unlocks, Elapsed) == r.(step := Confirm, timers := [])
  {}

  /** In the confirm step the fourth digit queues `finalizeSetup` with both buffers. When it
      fires, equal PINs start the save; different ones report "PINs do not match", clear only
      the confirmation and stay in the confirm step. */
  lemma ConfirmFinalizes(s: Pad, unlocks: bool, d: char)
    requires s.step == Confirm && |s.confirmPin| == PinLength - 1 && s.timers == []
    ensures var r := StepPad(s, unlocks, Digit(d));
      var f := StepPad(r, unlocks, Elapsed);
      && r.timers == [Finalize(s.pin, s.confirmPin + [d])]
      && (s.pin == s.confirmPin + [d] ==> f.effects == s.effects + [SavePin(s.pin)] && f.saving == s.saving + [s.pin])
      && (s.pin != s.confirmPin + [d] ==>
            f.error == Some("PINs do not match") && f.confirmPin == "" && f.pin == s.pin
            && f.step == Confirm && f.effects == s.effects)
  {}

  /** The oldest awaited save settles. A successful one has stored the PIN (an empty one as
      none) and then unlocks and closes; a failed one leaves the stored PIN alone and goes back
      to the create step with both buffers cleared and "Failed to save PIN". So does a
      successful save whose unlock call throws, although the PIN is stored by then. */
  lemma SaveSettles(s: Pad, unlocks: bool, outcome: Outcome)
    requires s.saving != []
    ensures var r := StepPad(s, unlocks, SaveSettled(outcome));
      && r.saving == s.saving[1..]
      && (outcome.Fulfilled? ==> r.stored == (if s.saving[0] == "" then None else Some(s.saving[0])))
      && (outcome.Rejected? ==> r.stored == s.stored)
      && (outcome.Fulfilled? && unlocks ==> r.effects == s.effects + [Unlock, Close])
      && (outcome.Rejected? || !unlocks ==>
            r.step == Create && r.pin == "" && r.confirmPin == "" && r.error == Some("Failed to save PIN")
            && r.effects == s.effects)
  {}

  lemma {:induction false} RunAppend(s: Pad, unlocks: bool, a: seq<Event>, b: seq<Event>)
    ensures Run(s, unlocks, a + b) == Run(Run(s, unlocks, a), unlocks, b)
    decreases |a|
  {
    if a == [] {
      assert a + b == b;
    } else {
      assert (a + b)[1..] == a[1..] + b;
      RunAppend(StepPad(s, unlocks, a[0]), unlocks, a[1..], b);
    }
  }

  /** Typing four digits into an empty buffer of the create step fills it and queues the switch
      to the confirm step. */
  lemma {:induction false} TypeInCreate(s: Pad, unlocks: bool, p: string)
    requires s.step == Create && |s.pin| + |p| <= PinLength
    ensures var r := Run(s, unlocks, Digits(p));
      && r.pin == s.pin + p && r.step == Create && r.confirmPin == s.confirmPin
      && r.effects == s.effects && r.saving == s.saving && r.stored == s.stored && r.setupSeen == s.setupSeen
      && r.timers == s.timers + (if |p| > 0 && |s.pin| + |p| == PinLength then [ToConfirm] else [])
    decreases |p|
  {
    if p != [] {
      var s1 := StepPad(s, unlocks, Digit(p[0]));
      assert s1.pin == s.pin + [p[0]];
      assert Digits(p)[1..] == Digits(p[1..]);
      TypeInCreate(s1, unlocks, p[1..]);
      assert s.pin + [p[0]] + p[1..] == s.pin + p;
    }
  }

  /** The same in the confirm step: the confirmation fills and `finalizeSetup` is queued with
      the pin as it then stands. */
  lemma {:induction false} TypeInConfirm(s: Pad, unlocks: bool, p: string)
    requires s.step == Confirm && |s.confirmPin| + |p| <= PinLength
    ensures var r := Run(s, unlocks, Digits(p));
      && r.confirmPin == s.confirmPin + p && r.step == Confirm && r.pin == s.pin
      && r.effects == s.effects && r.saving == s.saving && r.stored == s.stored && r.setupSeen == s.setupSeen
      && r.timers == s.timers + (if |p| > 0 && |s.confirmPin| + |p| == PinLength then [Finalize(s.pin, s.confirmPin + p)] else [])
    decreases |p|
  {
    if p != [] {
      var s1 := StepPad(s, unlocks, Digit(p[0]));
      assert s1.confirmPin == s.confirmPin + [p[0]];
      assert Digits(p)[1..] == Digits(p[1..]);
      TypeInConfirm(s1, unlocks, p[1..]);
      assert s.confirmPin + [p[0]] + p[1..] == s.confirmPin + p;
    }
  }

  /** Setting up a PIN end to end: open with no PIN stored, type it, wait, type it again, wait,
      and let the save succeed. The PIN is saved once and stored; then the space is unlocked and
      the modal closed. When the unlock call throws, the saved PIN is reported as not saved and
      the pad is back at the create step, empty; the render that follows sees the PIN stored,
      so the reset moves the pad to the enter step and clears the error. */
  lemma SetupFlow(s: Pad, unlocks: bool, p: string)
    requires |p| == PinLength && s.stored == None && s.timers == [] && s.saving == []
    ensures var r := Run(s, unlocks, [Opened] + Digits(p) + [Elapsed] + Digits(p) + [Elapsed, SaveSettled(Fulfilled)]);
      && r.stored == Some(p) && r.saving == []
      && (unlocks ==> r.effects == s.effects + [SavePin(p), Unlock, Close])
      && (!unlocks ==>
            && r.effects == s.effects + [SavePin(p)] && r.error == Some("Failed to save PIN")
            && r.step == Create && r.pin == "" && r.confirmPin == ""
            && StepPad(r, unlocks, Rendered) == r.(step := Enter, error := None, setupSeen := false))
  {
    var s0 := StepPad(s, unlocks, Opened);
    assert s0.setupSeen;
    TypeInCreate(s0, unlocks, p);
    var s1 := Run(s0, unlocks, Digits(p));
    var s2 := StepPad(s1, unlocks, Elapsed);
    assert s2.step == Confirm && s2.pin == p && s2.confirmPin == "" && s2.timers == [];
    TypeInConfirm(s2, unlocks, p);
    var s3 := Run(s2, unlocks, Digits(p));
    assert s3.timers == [Finalize(p, p)];
    var s4 := StepPad(s3, unlocks, Elapsed);
    assert s4.effects == s.effects + [SavePin(p)] && s4.saving == [p] && s4.stored == None && s4.setupSeen;
    var s5 := StepPad(s4, unlocks, SaveSettled(Fulfilled));
    RunAppend(s, unlocks, [Opened], Digits(p));
    RunAppend(s, unlocks, [Opened] + Digits(p), [Elapsed]);
    RunAppend(s, unlocks, [Opened] + Digits(p) + [Elapsed], Digits(p));
    RunAppend(s, unlocks, [Opened] + Digits(p) + [Elapsed] + Digits(p), [Elapsed, SaveSettled(Fulfilled)]);
  }

  /** Typing into the enter step: every digit short of the fourth only extends the pin. */
  lemma {:induction false} TypeInEnter(s: Pad, unlocks: bool, p: string)
    requires s.step == Enter && |s.pin| + |p| < PinLength
    ensures var r := Run(s, unlocks, Digits(p));
      r.pin == s.pin + p && r.step == Enter && r.effects == s.effects && r.timers == s.timers && r.stored == s.stored
    decreases |p|
  {
    if p != [] {
      var s1 := StepPad(s, unlocks, Digit(p[0]));
      assert Digits(p)[1..] == Digits(p[1..]);
      TypeInEnter(s1, unlocks, p[1..]);
      assert s.pin + [p[0]] + p[1..] == s.pin + p;
    }
  }

  /** Unlocking end to end: open with a PIN stored and type four digits. The stored PIN unlocks
      and closes, leaving an empty pin; when the unlock call throws, the modal stays open with
      the four digits, so further digits are ignored. Any other PIN leaves "Incorrect PIN" and an
      empty pin. */
  lemma UnlockFlow(s: Pad, stored: string, unlocks: bool, p: string)
    requires |p| == PinLength && stored != "" && s.stored == Some(stored)
    ensures var r := Run(s, unlocks, [Opened] + Digits(p));
      && (p == stored && unlocks ==> r.effects == s.effects + [Unlock, Close] && r.error.None? && r.pin == "")
      && (p == stored && !unlocks ==> r.effects == s.effects && r.error.None? && r.pin == p && r.step == Enter)
      && (p != stored ==> r.effects == s.effects && r.error == Some("Incorrect PIN") && r.pin == "")
  {
    var s0 := StepPad(s, unlocks, Opened);
    var front := p[..PinLength - 1];
    assert p == front + [p[PinLength - 1]];
    assert Digits(p) == Digits(front) + [Digit(p[PinLength - 1])];
    TypeInEnter(s0, unlocks, front);
    var s1 := Run(s0, unlocks, Digits(front));
    assert s1.pin + [p[PinLength - 1]] == p;
    RunAppend(s, unlocks, [Opened], Digits(front));
    RunAppend(s, unlocks, [Opened] + Digits(front), [Digit(p[PinLength - 1])]);
    assert [Opened] + Digits(p) == [Opened] + Digits(front) + [Digit(p[PinLength - 1])];
  }

  /** A delete while the switch to the confirm step is pending shortens the pin, and the confirm
      step then starts with a three-digit pin, which no four-digit confirmation matches. */
  lemma DeleteDuringDelay(s: Pad, unlocks: bool, p: string)
    requires |p| == PinLength && IsSetup(s.stored) && s.timers == []
    ensures var r := Run(s, unlocks, [Opened] + Digits(p) + [Delete, Elapsed]);
      r.step == Confirm && r.pin == p[..PinLength - 1] && |r.pin| < PinLength
  {
    var s0 := StepPad(s, unlocks, Opened);
    TypeInCreate(s0, unlocks, p);
    RunAppend(s, unlocks, [Opened], Digits(p));
    RunAppend(s, unlocks, [Opened] + Digits(p), [Delete, Elapsed]);
  }
}

=== FILE: session.dfy ===
/**
 * The editing session of `MainView`: two debounced save callbacks (title after 500 ms, content
 * after 1000 ms) on top of the `Debounce` machine, the local title buffer, the `isSaving` flag,
 * the screen chosen from the selection and the note query, and the `NoteEditor` instance shown
 * on the editor screen.
 *
 * The selection (from the UI store) and the note query's result are inputs, delivered by events.
 * Each save callback reads the selection current when it runs, as the hook always invokes the
 * latest committed callback. MainView neither flushes nor cancels its debouncers.
 */
module Session {
  import opened Wrappers
  import opened Editor
  import D = Debounce
  import N = Notes

  const TitleDelay: nat := 500
  const ContentDelay: nat := 1000

  datatype Field = TitleField | ContentField

  /** The debounce delay of each save, in milliseconds: the title saves sooner. */
  function Delay(f: Field): (ms: nat)
    ensures f == TitleField ==> ms < ContentDelay
    ensures f == ContentField ==> ms > TitleDelay
  {
    match f
    case TitleField => TitleDelay
    case ContentField => ContentDelay
  }

  datatype Screen = Placeholder | Spinner | NotFound | EditorScreen

  /** What MainView renders: no selection gives the placeholder, then loading gives the
      spinner, then a missing note gives "not found", else the editor. */
  function ScreenOf(selected: Option<string>, loading: bool, note: Option<N.Note>): (r: Screen)
    ensures r == Placeholder <==> !N.Truthy(selected)
    ensures r == Spinner <==> N.Truthy(selected) && loading
    ensures r == NotFound <==> N.Truthy(selected) && !loading && note.None?
    ensures r == EditorScreen <==> N.Truthy(selected) && !loading && note.Some?
  {
    if !N.Truthy(selected) then Placeholder
    else if loading then Spinner
    else if note.None? then NotFound
    else EditorScreen
  }

  /** One run of a save callback: which debouncer, which of its invocations, and the update it
      sent (`None` when it returned early for want of a selected note). */
  datatype SaveRun = SaveRun(field: Field, invocation: nat, request: Option<N.UpdateRequest>)

  datatype Session = Session(
    mounted: bool,
    selected: Option<string>,      // selectedNoteId
    loading: bool,                 // the note query's isLoading
    note: Option<N.Note>,          // the note query's data
    title: string,                 // the local title state
    isSaving: bool,
    titleSaver: D.Debouncer<string>,
    contentSaver: D.Debouncer<seq<Block>>,
    editor: Option<Instance>,      // the mounted NoteEditor, if any
    runs: seq<SaveRun>)            // every run of either save callback, oldest first

  datatype Event =
    | Selected(id: Option<string>, nowLoading: bool, data: Option<N.Note>) // selection changed; the new key's query result
    | Delivered(nowLoading: bool, data: Option<N.Note>)    // a new result of the current query
    | TitleTyped(value: string)                            // the title input's change event
    | EditorChanged(document: seq<Block>)                  // the editor's change event
    | TitleTimer                                           // the title debouncer's timer expires
    | ContentTimer                                         // the content debouncer's timer expires
    | TitleSettled(promise: nat, outcome: Outcome)         // a title-save invocation's promise settles
    | ContentSettled(promise: nat, outcome: Outcome)       // a content-save invocation's promise settles
    | Unmounted

  /** Renders the editor instance for the current screen. MainView gives `NoteEditor` no key and
      no `noteId`, so an editor already shown is re-rendered rather than remounted. */
  function Render(s: Session): (r: Session)
    ensures r == s.(editor := r.editor)
    ensures r.editor.Some? <==> s.mounted && ScreenOf(s.selected, s.loading, s.note) == EditorScreen
    ensures r.editor.Some? && s.editor.None? ==> r.editor == Some(Mount(None, s.note.value.content))
    ensures r.editor.Some? && s.editor.Some? ==> r.editor.value.initial == s.editor.value.initial
  {
    if !s.mounted || ScreenOf(s.selected, s.loading, s.note) != EditorScreen then s.(editor := None)
    else match s.editor
      case None => s.(editor := Some(Mount(None, s.note.value.content)))
      case Some(e) => s.(editor := Some(Rerender(e, None, s.note.value.content)))
  }

  function Init(selected: Option<string>, loading: bool, note: Option<N.Note>): Session {
    Render(Session(true, selected, loading, note, "", false, D.Init(), D.Init(), None, []))
  }

  /** The body shared by both save callbacks: return at once without a selected note, else
      raise `isSaving` and send the update for the selected note. */
  function RunSave(s: Session, field: Field, invocation: nat, title: Option<string>, content: Option<RawContent>): (r: Session)
    ensures |r.runs| == |s.runs| + 1 && r.runs[..|s.runs|] == s.runs
    ensures r.runs[|s.runs|].field == field && r.runs[|s.runs|].invocation == invocation
    ensures !N.Truthy(s.selected) ==> r.runs[|s.runs|].request.None? && r == s.(runs := r.runs)
    ensures N.Truthy(s.selected) ==> r.isSaving && r.runs[|s.runs|].request == Some(N.UpdateRequest(s.selected.value, None, title, content))
    ensures r == s.(isSaving := r.isSaving, runs := r.runs)
  {
    if !N.Truthy(s.selected) then s.(runs := s.runs + [SaveRun(field, invocation, None)])
    else s.(isSaving := true, runs := s.runs + [SaveRun(field, invocation, Some(N.UpdateRequest(s.selected.value, None, title, content)))])
  }

  function SaveTitle(s: Session, invocation: nat, value: string): Session {
    RunSave(s, TitleField, invocation, Some(value), None)
  }

  function SaveContent(s: Session, invocation: nat, document: seq<Block>): Session {
    RunSave(s, ContentField, invocation, None, Some(Blocks(document)))
  }

  /** Whether the given invocation of a save callback got past the selection check. */
  predicate Saved(runs: seq<SaveRun>, field: Field, invocation: nat) {
    exists k :: 0 <= k < |runs| && runs[k].field == field && runs[k].invocation == invocation && runs[k].request.Some?
  }

  /** The `finally` of a save callback that got past the selection check lowers `isSaving`,
      whatever other save is still running. */
  function Lowered(s: Session, field: Field, invocation: nat): bool {
    if Saved(s.runs, field, invocation) then false else s.isSaving
  }

  function Apply(s: Session, e: Event): Session
    requires s.mounted
  {
    match e
    case Selected(id, l, n) =>
      s.(selected := id, loading := l, note := n, title := if n.Some? then n.value.title else s.title)
    case Delivered(l, n) =>
      s.(loading := l, note := n, title := if n.Some? then n.value.title else s.title)
    case TitleTyped(v) =>
      if s.editor.None? then s
      else s.(title := v, titleSaver := D.Call(s.titleSaver, v))
    case EditorChanged(document) =>
      if s.editor.None? then s
      else
        var (e', out) := OnChange(s.editor.value, document);
        var s' := s.(editor := Some(e'));
        if out.Some? then s'.(contentSaver := D.Call(s.contentSaver, out.value.document)) else s'
    case TitleTimer =>
      if !s.titleSaver.timer.Armed? then s
      else SaveTitle(s.(titleSaver := D.Fire(s.titleSaver)), |s.titleSaver.calls|, s.titleSaver.timer.args)
    case ContentTimer =>
      if !s.contentSaver.timer.Armed? then s
      else SaveContent(s.(contentSaver := D.Fire(s.contentSaver)), |s.contentSaver.calls|, s.contentSaver.timer.args)
    case TitleSettled(q, o) =>
      if q !in s.titleSaver.running then s
      else s.(isSaving := Lowered(s, TitleField, q), titleSaver := D.Settle(s.titleSaver, q, o))
    case ContentSettled(q, o) =>
      if q !in s.contentSaver.running then s
      else s.(isSaving := Lowered(s, ContentField, q), contentSaver := D.Settle(s.contentSaver, q, o))
    case Unmounted =>
      // The cleanups run in declaration order: the content debouncer's, then the title's.
      // State updates after unmount are ignored, so only the sent updates are recorded.
      var c := D.Unmount(s.contentSaver);
      var s1 := if |c.calls| > |s.contentSaver.calls|
        then s.(runs := SaveContent(s, |s.contentSaver.calls|, c.calls[|s.contentSaver.calls|]).runs)
        else s;
      var t := D.Unmount(s.titleSaver);
      var s2 := if |t.calls| > |s.titleSaver.calls|
        then s1.(runs := SaveTitle(s1, |s.titleSaver.calls|, t.calls[|s.titleSaver.calls|]).runs)
        else s1;
      s2.(mounted := false, contentSaver := c, titleSaver := t)
  }

  /** One event followed by the render it causes. Nothing happens once unmounted. */
  function Step(s: Session, e: Event): Session {
    if !s.mounted then s else Render(Apply(s, e))
  }

  function Run(s: Session, es: seq<Event>): Session
    decreases |es|
  {
    if es == [] then s else Run(Step(s, es[0]), es[1..])
  }

  // ---------------------------------------------------------------------------------------
  // Invariant

  /** Every run names an invocation of its own debouncer. */
  ghost predicate RunsNamed(runs: seq<SaveRun>, titleCalls: nat, contentCalls: nat) {
    forall k :: 0 <= k < |runs| ==>
      (runs[k].field == TitleField ==> runs[k].invocation < titleCalls)
      && (runs[k].field == ContentField ==> runs[k].invocation < contentCalls)
  }

  /** Both debouncers keep their invariant, the editor is shown exactly on the editor screen
      while mounted, and every run names an invocation of its debouncer. */
  ghost predicate Inv(s: Session) {
    && D.Inv(s.titleSaver) && D.Inv(s.contentSaver)
    && (s.editor.Some? <==> s.mounted && ScreenOf(s.selected, s.loading, s.note) == EditorScreen)
    && RunsNamed(s.runs, |s.titleSaver.calls|, |s.contentSaver.calls|)
  }

  lemma InitInv(selected: Option<string>, loading: bool, note: Option<N.Note>)
    ensures Inv(Init(selected, loading, note))
  {
    D.InitInv<string>();
    D.InitInv<seq<Block>>();
  }

  lemma RunsNamedGrow(runs: seq<SaveRun>, t: nat, c: nat, t': nat, c': nat)
    requires RunsNamed(runs, t, c) && t <= t' && c <= c'
    ensures RunsNamed(runs, t', c')
  {}

  lemma RunsNamedAppend(runs: seq<SaveRun>, t: nat, c: nat, run: SaveRun)
    requires RunsNamed(runs, t, c)
    requires run.field == TitleField ==> run.invocation < t
    requires run.field == ContentField ==> run.invocation < c
    ensures RunsNamed(runs + [run], t, c)
  {
    assert forall k :: 0 <= k < |runs| ==> (runs + [run])[k] == runs[k];
  }

  lemma ApplyTimerInv(s: Session, e: Event)
    requires Inv(s) && s.mounted && (e.TitleTimer? || e.ContentTimer?)
    ensures var a := Apply(s, e);
      D.Inv(a.titleSaver) && D.Inv(a.contentSaver) && a.mounted
      && RunsNamed(a.runs, |a.titleSaver.calls|, |a.contentSaver.calls|)
  {
    var t := |s.titleSaver.calls|;
    var c := |s.contentSaver.calls|;
    if e.TitleTimer? {
      D.StepPreservesInv(s.titleSaver, D.TimerExpired);
      if s.titleSaver.timer.Armed? {
        RunsNamedGrow(s.runs, t, c, t + 1, c);
        var a := Apply(s, e);
        RunsNamedAppend(s.runs, t + 1, c, a.runs[|s.runs|]);
        assert a.runs == s.runs + [a.runs[|s.runs|]];
      }
    } else {
      D.StepPreservesInv(s.contentSaver, D.TimerExpired);
      if s.contentSaver.timer.Armed? {
        RunsNamedGrow(s.runs, t, c, t, c + 1);
        var a := Apply(s, e);
        RunsNamedAppend(s.runs, t, c + 1, a.runs[|s.runs|]);
        assert a.runs == s.runs + [a.runs[|s.runs|]];
      }
    }
  }

  lemma ApplyUnmountInv(s: Session)
    requires Inv(s) && s.mounted
    ensures var a := Apply(s, Unmounted);
      D.Inv(a.titleSaver) && D.Inv(a.contentSaver) && !a.mounted
      && RunsNamed(a.runs, |a.titleSaver.calls|, |a.contentSaver.calls|)
  {
    D.StepPreservesInv(s.titleSaver, D.Unmounted);
    D.StepPreservesInv(s.contentSaver, D.Unmounted);
    var t := |s.titleSaver.calls|;
    var c := |s.contentSaver.calls|;
    var tc := |D.Unmount(s.titleSaver).calls|;
    var cc := |D.Unmount(s.contentSaver).calls|;
    RunsNamedGrow(s.runs, t, c, tc, cc);
    var runs1 := if cc > c then s.runs + [SaveContent(s, c, D.Unmount(s.contentSaver).calls[c]).runs[|s.runs|]] else s.runs;
    if cc > c {
      RunsNamedAppend(s.runs, tc, cc, runs1[|s.runs|]);
      assert SaveContent(s, c, D.Unmount(s.contentSaver).calls[c]).runs == runs1;
    }
    if tc > t {
      var s1 := s.(runs := runs1);
      var r := SaveTitle(s1, t, D.Unmount(s.titleSaver).calls[t]);
      RunsNamedAppend(runs1, tc, cc, r.runs[|runs1|]);
      assert r.runs == runs1 + [r.runs[|runs1|]];
    }
  }

  lemma StepPreservesInv(s: Session, e: Event)
    requires Inv(s)
    ensures Inv(Step(s, e))
  {
    if s.mounted {
      var t := |s.titleSaver.calls|;
      var c := |s.contentSaver.calls|;
      match e
      case TitleTyped(v) => D.StepPreservesInv(s.titleSaver, D.Called(v));
      case EditorChanged(document) =>
        if s.editor.Some? {
          var (e', out) := OnChange(s.editor.value, document);
          if out.Some? { D.StepPreservesInv(s.contentSaver, D.Called(out.value.document)); }
        }
      case TitleTimer => ApplyTimerInv(s, e);
      case ContentTimer => ApplyTimerInv(s, e);
      case TitleSettled(q, o) =>
        D.StepPreservesInv(s.titleSaver, D.Settled(q, o));
        RunsNamedGrow(s.runs, t, c, |D.Settle(s.titleSaver, q, o).calls|, c);
      case ContentSettled(q, o) =>
        D.StepPreservesInv(s.contentSaver, D.Settled(q, o));
        RunsNamedGrow(s.runs, t, c, t, |D.Settle(s.contentSaver, q, o).calls|);
      case Unmounted => ApplyUnmountInv(s);
      case _ =>
    }
  }

  lemma {:induction false} RunPreservesInv(s: Session, es: seq<Event>)
    requires Inv(s)
    ensures Inv(Run(s, es))
    decreases |es|
  {
    if es != [] {
      StepPreservesInv(s, es[0]);
      RunPreservesInv(Step(s, es[0]), es[1..]);
    }
  }

  // ---------------------------------------------------------------------------------------
  // Properties

  /** Typing a title sets the local title to the typed value and, in the same handler, arms the
      title debouncer with that value; the content debouncer is untouched. */
  lemma TitleTypedSchedulesSave(s: Session, v: string)
    requires s.mounted && s.editor.Some?
    ensures var r := Step(s, TitleTyped(v));
      && r.title == v
      && r.titleSaver.pending == Some(v) && r.titleSaver.timer == D.Armed(v)
      && r.titleSaver.calls == s.titleSaver.calls
      && r.contentSaver == s.contentSaver && r.runs == s.runs
  {}

  /** Whenever the query delivers a note, the local title becomes its title, with no regard to
      an edit still waiting in the title debouncer. */
  lemma DeliveryOverwritesTitle(s: Session, loading: bool, n: N.Note)
    requires s.mounted
    ensures var r := Step(s, Delivered(loading, Some(n)));
      r.title == n.title && r.titleSaver == s.titleSaver
  {}

  /** A typed title is lost from the input when a note arrives before its save runs, while the
      debouncer still holds the typed value and will send it later. */
  lemma TypedTitleOverwrittenBeforeSave(s: Session, v: string, n: N.Note)
    requires s.mounted && s.editor.Some? && n.title != v
    ensures var r := Step(Step(s, TitleTyped(v)), Delivered(false, Some(n)));
      r.title == n.title && r.titleSaver.timer == D.Armed(v)
  {}

  /** When the title timer expires, the save sends only the title, for the note selected at that
      moment, and raises `isSaving`; without a selection it sends nothing and changes nothing. */
  lemma TitleTimerSendsTitleOnly(s: Session)
    requires s.mounted && s.titleSaver.timer.Armed?
    ensures var r := Step(s, TitleTimer);
      var v := s.titleSaver.timer.args;
      && |r.runs| == |s.runs| + 1
      && r.titleSaver.calls == s.titleSaver.calls + [v]
      && (N.Truthy(s.selected) ==>
            r.isSaving && r.runs[|s.runs|].request == Some(N.UpdateRequest(s.selected.value, None, Some(v), None))
            && N.UpdatePatch(r.runs[|s.runs|].request.value).Keys == {"updatedAt", "title"})
      && (!N.Truthy(s.selected) ==> r.runs[|s.runs|].request.None? && r.isSaving == s.isSaving)
  {
    var r := Step(s, TitleTimer);
    if N.Truthy(s.selected) {
      var p := N.UpdatePatch(r.runs[|s.runs|].request.value);
      assert "updatedAt" in p && "title" in p;
    }
  }

  /** The content save sends only the content, for the note selected when its timer expires. */
  lemma ContentTimerSendsContentOnly(s: Session)
    requires s.mounted && s.contentSaver.timer.Armed?
    ensures var r := Step(s, ContentTimer);
      var d := s.contentSaver.timer.args;
      && |r.runs| == |s.runs| + 1
      && r.contentSaver.calls == s.contentSaver.calls + [d]
      && (N.Truthy(s.selected) ==>
            r.isSaving && r.runs[|s.runs|].request == Some(N.UpdateRequest(s.selected.value, None, None, Some(Blocks(d))))
            && N.UpdatePatch(r.runs[|s.runs|].request.value).Keys == {"updatedAt", "content"})
      && (!N.Truthy(s.selected) ==> r.runs[|s.runs|].request.None? && r.isSaving == s.isSaving)
  {
    var r := Step(s, ContentTimer);
    if N.Truthy(s.selected) {
      var p := N.UpdatePatch(r.runs[|s.runs|].request.value);
      assert "updatedAt" in p && "content" in p;
    }
  }

  /** A pending title save is sent to whichever note is selected when the timer expires, not the
      one it was typed for. */
  lemma PendingTitleFollowsSelection(s: Session, v: string, other: string, loading: bool, n: Option<N.Note>)
    requires s.mounted && s.editor.Some? && other != ""
    ensures var r := Step(Step(Step(s, TitleTyped(v)), Selected(Some(other), loading, n)), TitleTimer);
      r.runs[|r.runs| - 1].request == Some(N.UpdateRequest(other, None, Some(v), None))
  {}

  /** When a save that got past the selection check settles, fulfilled or rejected, `isSaving`
      is false afterwards. */
  lemma SettleLowersIsSaving(s: Session, k: nat, o: Outcome)
    requires s.mounted && k < |s.runs| && s.runs[k].request.Some?
    requires s.runs[k].field == TitleField ==> s.runs[k].invocation in s.titleSaver.running
    requires s.runs[k].field == ContentField ==> s.runs[k].invocation in s.contentSaver.running
    ensures var e := if s.runs[k].field == TitleField then TitleSettled(s.runs[k].invocation, o)
                     else ContentSettled(s.runs[k].invocation, o);
      !Step(s, e).isSaving
  {
    assert Saved(s.runs, s.runs[k].field, s.runs[k].invocation);
  }

  /** `isSaving` is one flag for both saves: a title save that settles lowers it even while a
      content save is still in flight. */
  lemma IsSavingLoweredWhileContentSaves(s: Session, id: string, v: string, d: seq<Block>)
    requires Inv(s) && s.mounted && s.editor.Some? && id != ""
    requires s.selected == Some(id)
    requires s.titleSaver.timer.Idle? && s.contentSaver.timer == D.Armed(d)
    ensures var a := Step(Step(s, TitleTyped(v)), TitleTimer);
      var b := Step(a, ContentTimer);
      var c := Step(b, TitleSettled(|s.titleSaver.calls|, Fulfilled));
      && b.isSaving
      && |s.contentSaver.calls| in c.contentSaver.running
      && !c.isSaving
  {
    var a := Step(Step(s, TitleTyped(v)), TitleTimer);
    var b := Step(a, ContentTimer);
    assert b.runs[|s.runs|].field == TitleField && b.runs[|s.runs|].invocation == |s.titleSaver.calls|;
    assert Saved(b.runs, TitleField, |s.titleSaver.calls|);
  }

  /** After the editor's suppressed first change, every change arms the content debouncer with
      the editor's document. */
  lemma EditorChangeSchedulesContent(s: Session, document: seq<Block>)
    requires s.mounted && s.editor.Some? && !s.editor.value.isInitialLoad
    ensures var r := Step(s, EditorChanged(document));
      r.contentSaver.timer == D.Armed(document) && r.contentSaver.pending == Some(document)
      && r.titleSaver == s.titleSaver
  {}

  /** The first change the editor reports after mounting is swallowed and schedules nothing. */
  lemma FirstEditorChangeIgnored(s: Session, document: seq<Block>)
    requires Inv(s) && s.mounted && s.editor.Some? && s.editor.value.isInitialLoad
    ensures var r := Step(s, EditorChanged(document));
      r.contentSaver == s.contentSaver && r.editor.Some? && !r.editor.value.isInitialLoad
  {}

  /** The editor mounts when the editor screen appears, with its initial content taken from the
      note shown at that moment; while the screen stays, later notes do not change it. */
  lemma EditorMountsWithScreen(s: Session, e: Event)
    requires Inv(s)
    ensures var r := Step(s, e);
      && (r.editor.Some? && s.editor.None? ==> r.editor.value.initial == InitialContent(r.note.value.content))
      && (r.editor.Some? && s.editor.Some? ==> r.editor.value.initial == s.editor.value.initial)
  {
    if s.mounted && Step(s, e).editor.Some? {
      var a := Apply(s, e);
      if s.editor.Some? {
        assert a.editor.Some? && a.editor.value.initial == s.editor.value.initial;
      }
    }
  }

  /** Unmounting with a title edit still pending sends it, for the selection at that moment,
      instead of dropping it. */
  lemma UnmountSendsPendingTitle(s: Session, v: string)
    requires Inv(s) && s.mounted && N.Truthy(s.selected)
    requires s.titleSaver.timer == D.Armed(v)
    ensures var r := Step(s, Unmounted);
      && !r.mounted && r.editor.None?
      && r.titleSaver.calls == s.titleSaver.calls + [v]
      && r.runs[|r.runs| - 1] == SaveRun(TitleField, |s.titleSaver.calls|, Some(N.UpdateRequest(s.selected.value, None, Some(v), None)))
  {}
}

=== FILE: sidebar.dfy ===
/**
 * `Sidebar.tsx`: the handlers behind the notebook tree and the wastebasket. A handler is a
 * function of the component state it reads and of what the user and the backend answer (the
 * `confirm` dialog, how an awaited mutation settled) to the state it leaves and the effects it
 * issues, in issue order.
 */
module Sidebar {
  import opened Wrappers
  import opened Sorting
  import opened JsString
  import opened Editor
  import N = Notes
  import NB = Notebooks
  import UiStore

  /** A mutation the sidebar calls. */
  datatype Call =
    | CreateNotebook(userId: string, notebook: NB.NewNotebook)
    | UpdateNotebook(update: NB.UpdateRequest)
    | SoftDeleteNotebook(id: string)
    | CreateNote(note: N.NewNote)
    | SoftDeleteNote(id: string, notebookId: string)
    | PermanentlyDeleteNotebook(id: string)
    | PermanentlyDeleteNote(id: string, notebookId: string)

  datatype Effect =
    | Mutate(call: Call)
    | Store(action: UiStore.Action)
    /** `toggleNotebookExpand(id, force)`: a store member that `uiStore.ts` does not define, so
        only the call is recorded. */
    | ExpandNotebook(id: string, force: bool)
    | Alert(message: string)

  /** The store after the store actions among `effects`, in order. */
  function StoreAfter(s: UiStore.Store, effects: seq<Effect>): UiStore.Store
    decreases |effects|
  {
    if effects == [] then s
    else StoreAfter(if effects[0].Store? then UiStore.Apply(s, effects[0].action) else s, effects[1..])
  }

  // ---------------------------------------------------------------------------------------
  // Creating and renaming notebooks

  /** The notebook creator: whether it is open, and its input. */
  datatype Creator = Creator(isCreating: bool, newTitle: string)

  /** How `createNotebook.mutateAsync` settled; a rejection carries `error.message`. */
  datatype CreateOutcome = Created | Failed(message: string)

  function CreateAlert(message: string): string {
    "Error creating notebook: " + (if message == "" then "Check your internet or Firestore rules." else message)
  }

  /** `handleCreateNotebook`; `user` is the signed-in user's uid. Nothing happens without a
      user or with a blank title. Otherwise the trimmed title is sent; success clears the input
      and closes the creator, failure keeps both and alerts. */
  function HandleCreateNotebook(c: Creator, user: Option<string>, outcome: CreateOutcome): (r: (Creator, seq<Effect>))
    ensures r.1 == [] <==> user.None? || AllSpace(c.newTitle)
    ensures r.1 == [] ==> r.0 == c
    ensures r.1 != [] ==>
      && r.1[0] == Mutate(CreateNotebook(user.value, NB.NewNotebook(Some(Trim(c.newTitle)), None)))
      && Trim(c.newTitle) != ""
    ensures r.1 != [] && outcome.Created? ==> r.0 == Creator(false, "") && |r.1| == 1
    ensures r.1 != [] && outcome.Failed? ==> r.0 == c && r.1[1..] == [Alert(CreateAlert(outcome.message))]
  {
    TrimEmptyIff(c.newTitle);
    if user.None? || Trim(c.newTitle) == "" then (c, [])
    else
      var call := Mutate(CreateNotebook(user.value, NB.NewNotebook(Some(Trim(c.newTitle)), None)));
      match outcome
      case Created => (Creator(false, ""), [call])
      case Failed(message) => (c, [call, Alert(CreateAlert(message))])
  }

  /** The notebook a create returns carries exactly the trimmed title, at the root, and
      belongs to the signed-in user. The create's `mutationFn` reads `auth.currentUser!.uid`
      rather than the `useAuth` user the handler checks; the lemma takes the two to be the same
      user, since `call.userId` is that user. */
  lemma CreatedNotebookTitle(c: Creator, user: Option<string>, outcome: CreateOutcome, id: string, now: int)
    requires HandleCreateNotebook(c, user, outcome).1 != []
    ensures var call := HandleCreateNotebook(c, user, outcome).1[0].call;
      var nb := NB.CreateResult(call.notebook, id, call.userId, now);
      nb.title == Trim(c.newTitle) && nb.parent.None? && nb.userId == user.value
  {}

  /** The rename editor: the notebook being renamed, and its input. */
  datatype Editing = Editing(editingId: Option<string>, editTitle: string)

  /** `handleRenameNotebook(id)`. A blank title leaves edit mode without an update; otherwise the
      trimmed title alone is sent, and edit mode is left only once the update has succeeded. */
  function HandleRename(e: Editing, id: string, outcome: Outcome): (r: (Editing, seq<Effect>))
    ensures AllSpace(e.editTitle) ==> r == (e.(editingId := None), [])
    ensures !AllSpace(e.editTitle) ==>
      && r.1 == [Mutate(UpdateNotebook(NB.UpdateRequest(id, Some(Trim(e.editTitle)), None)))]
      && Trim(e.editTitle) != ""
      && r.0 == (if outcome.Fulfilled? then e.(editingId := None) else e)
  {
    TrimEmptyIff(e.editTitle);
    if Trim(e.editTitle) == "" then (e.(editingId := None), [])
    else
      var call := Mutate(UpdateNotebook(NB.UpdateRequest(id, Some(Trim(e.editTitle)), None)));
      (if outcome.Fulfilled? then e.(editingId := None) else e, [call])
  }

  /** A rename changes the title to the trimmed input and keeps the parent and the deletion
      mark. */
  lemma RenameKeepsPlace(e: Editing, id: string, outcome: Outcome, userId: string, d: NB.NotebookDoc, t: int, now: int)
    requires !AllSpace(e.editTitle)
    ensures var req := HandleRename(e, id, outcome).1[0].call.update;
      var before := NB.Parse(id, userId, d, now);
      var after := NB.Parse(id, userId, NB.ApplyPatch(d, NB.UpdatePatch(req), t), now);
      && after.title == Trim(e.editTitle)
      && after.parent == before.parent && after.deletedAt == before.deletedAt
  {
    var req := HandleRename(e, id, outcome).1[0].call.update;
    NB.UpdateApplies(req, userId, d, t, now);
  }

  /** `handleDeleteNotebook`: the soft delete is sent only once confirmed. */
  function HandleDeleteNotebook(confirmed: bool, id: string): (r: seq<Effect>)
    ensures r == [] <==> !confirmed
    ensures confirmed ==> r == [Mutate(SoftDeleteNotebook(id))]
  {
    if confirmed then [Mutate(SoftDeleteNotebook(id))] else []
  }

  // ---------------------------------------------------------------------------------------
  // Notes in the tree

  const NewNoteTitle := "Untitled Note"

  /** `handleCreateNote` of a notebook item: a collapsed notebook is expanded first, then an
      untitled, empty note is created in it. A failed create is only logged. */
  function HandleCreateNote(expanded: bool, notebookId: string): (r: seq<Effect>)
    ensures |r| > 0 && r[|r| - 1] == Mutate(CreateNote(N.NewNote(notebookId, Some(NewNoteTitle), Some(Blocks([])))))
    ensures ExpandNotebook(notebookId, true) in r <==> !expanded
    ensures !expanded ==> r[0] == ExpandNotebook(notebookId, true)
    ensures forall i :: 0 <= i < |r| - 1 ==> r[i] == ExpandNotebook(notebookId, true)
  {
    (if expanded then [] else [ExpandNotebook(notebookId, true)])
      + [Mutate(CreateNote(N.NewNote(notebookId, Some(NewNoteTitle), Some(Blocks([])))))]
  }

  /** The note created from the tree is active, titled "Untitled Note" and has no blocks. */
  lemma CreatedNoteIsEmpty(expanded: bool, notebookId: string, id: string, now: int)
    ensures var effects := HandleCreateNote(expanded, notebookId);
      var n := N.CreateResult(effects[|effects| - 1].call.note, id, now);
      n.title == NewNoteTitle && n.content == Blocks([]) && n.notebookId == notebookId && N.Active(n)
  {}

  /** Clicking a note: the store's `selectNote` takes only the note id, so the notebook id passed
      along is dropped. */
  function ClickNote(note: N.Note): (r: seq<Effect>)
    ensures forall s :: StoreAfter(s, r) == s.(selectedNoteId := Some(note.id))
  {
    [Store(UiStore.SelectNote(Some(note.id)))]
  }

  /** `NoteItem`'s `handleDelete`; `selected` is the selection the item rendered with. Once
      confirmed the soft delete is sent, and after it succeeds a selection of this very note is
      cleared. */
  function HandleDeleteNote(selected: Option<string>, note: N.Note, confirmed: bool, outcome: Outcome): (r: seq<Effect>)
    ensures !confirmed ==> r == []
    ensures confirmed ==> |r| > 0 && r[0] == Mutate(SoftDeleteNote(note.id, note.notebookId))
    ensures |r| == 2 <==> confirmed && outcome.Fulfilled? && selected == Some(note.id)
    ensures |r| == 2 ==> r[1] == Store(UiStore.SelectNote(None))
    ensures |r| <= 2
  {
    if !confirmed then []
    else
      [Mutate(SoftDeleteNote(note.id, note.notebookId))]
        + (if outcome.Fulfilled? && selected == Some(note.id) then [Store(UiStore.SelectNote(None))] else [])
  }

  /** Trashing the selected note clears the note selection and keeps the notebook selection;
      trashing any other note, or a trash that fails, leaves the store as it was. */
  lemma DeleteNoteSelection(s: UiStore.Store, note: N.Note, confirmed: bool, outcome: Outcome)
    ensures var r := HandleDeleteNote(s.selectedNoteId, note, confirmed, outcome);
      if confirmed && outcome.Fulfilled? && s.selectedNoteId == Some(note.id)
      then StoreAfter(s, r) == s.(selectedNoteId := None)
      else StoreAfter(s, r) == s
  {
    var r := HandleDeleteNote(s.selectedNoteId, note, confirmed, outcome);
    if confirmed {
      assert StoreAfter(s, r) == StoreAfter(s, r[1..]);
    }
  }

  // ---------------------------------------------------------------------------------------
  // The wastebasket

  /** `trashedNotebookIds`; a list that has not loaded yet counts as empty. */
  function TrashedIds(notebooks: Option<seq<NB.Notebook>>): (r: set<string>)
    ensures forall x :: x in r <==> exists nb :: nb in notebooks.GetOr([]) && nb.id == x
  {
    set nb | nb in notebooks.GetOr([]) :: nb.id
  }

  function NotIn(ids: set<string>): N.Note -> bool {
    (n: N.Note) => n.notebookId !in ids
  }

  function In(ids: set<string>): N.Note -> bool {
    (n: N.Note) => n.notebookId in ids
  }

  function OfNotebook(k: string): N.Note -> bool {
    (n: N.Note) => n.notebookId == k
  }

  /** `orphanTrashedNotes`: the trashed notes whose notebook is not itself trashed. */
  function Orphans(notes: Option<seq<N.Note>>, ids: set<string>): (r: seq<N.Note>)
    ensures r == Filter(notes.GetOr([]), NotIn(ids))
    ensures forall n :: n in r <==> n in notes.GetOr([]) && n.notebookId !in ids
  {
    Filter(notes.GetOr([]), NotIn(ids))
  }

  /** The `forEach` that fills `notesByNotebook`, one note at a time. */
  function Grouped(notes: seq<N.Note>, ids: set<string>): map<string, seq<N.Note>>
    decreases |notes|
  {
    if notes == [] then map[]
    else
      var g := Grouped(notes[..|notes| - 1], ids);
      var n := notes[|notes| - 1];
      if n.notebookId in ids then g[n.notebookId := (if n.notebookId in g then g[n.notebookId] else []) + [n]]
      else g
  }

  function NotesByNotebook(notes: Option<seq<N.Note>>, ids: set<string>): map<string, seq<N.Note>> {
    Grouped(notes.GetOr([]), ids)
  }

  /** There is a group exactly for the trashed notebooks that hold a trashed note. */
  lemma {:induction false} GroupedKeys(notes: seq<N.Note>, ids: set<string>)
    ensures var g := Grouped(notes, ids);
      forall k :: k in g <==> k in ids && exists i :: 0 <= i < |notes| && notes[i].notebookId == k
    decreases |notes|
  {
    if notes != [] {
      var front := notes[..|notes| - 1];
      var n := notes[|notes| - 1];
      GroupedKeys(front, ids);
      var g0 := Grouped(front, ids);
      var g := Grouped(notes, ids);
      forall k ensures k in g <==> k in ids && exists i :: 0 <= i < |notes| && notes[i].notebookId == k {
        if k in ids && (exists i :: 0 <= i < |notes| && notes[i].notebookId == k) && k != n.notebookId {
          var i :| 0 <= i < |notes| && notes[i].notebookId == k;
          assert front[i] == notes[i];
        }
        if k in g0 {
          var i :| 0 <= i < |front| && front[i].notebookId == k;
          assert notes[i] == front[i];
        }
      }
    }
  }

  /** Each group is the list of trashed notes of one notebook, in their original order. */
  lemma {:induction false} GroupedGroups(notes: seq<N.Note>, ids: set<string>)
    ensures var g := Grouped(notes, ids);
      forall k :: k in g ==> g[k] == Filter(notes, OfNotebook(k))
    decreases |notes|
  {
    if notes != [] {
      var front := notes[..|notes| - 1];
      var n := notes[|notes| - 1];
      assert notes == front + [n];
      GroupedGroups(front, ids);
      GroupedKeys(front, ids);
      var g0 := Grouped(front, ids);
      var g := Grouped(notes, ids);
      forall k | k in g ensures g[k] == Filter(notes, OfNotebook(k)) {
        FilterSnoc(front, n, OfNotebook(k));
        if k !in g0 {
          assert forall i :: 0 <= i < |front| ==> !OfNotebook(k)(front[i]);
          FilterNone(front, OfNotebook(k));
        }
      }
    }
  }

  /** Every trashed note is in exactly one place: among the orphans when its notebook is not
      trashed, otherwise in its own notebook's group, and in no other group. */
  lemma TrashedNotePlaced(notes: Option<seq<N.Note>>, notebooks: Option<seq<NB.Notebook>>, n: N.Note)
    requires n in notes.GetOr([])
    ensures var ids := TrashedIds(notebooks); var g := NotesByNotebook(notes, ids);
      && (n in Orphans(notes, ids) <==> n.notebookId !in ids)
      && (n.notebookId in ids ==> n.notebookId in g && n in g[n.notebookId])
      && (forall k :: k in g && n in g[k] ==> k == n.notebookId && k in ids)
  {
    var ids := TrashedIds(notebooks);
    var s := notes.GetOr([]);
    var g := NotesByNotebook(notes, ids);
    var i :| 0 <= i < |s| && s[i] == n;
    if n.notebookId in ids {
      GroupedKeys(s, ids);
      assert s[i].notebookId == n.notebookId;
      GroupedGroups(s, ids);
      assert OfNotebook(n.notebookId)(s[i]);
    }
    forall k | k in g && n in g[k] ensures k == n.notebookId && k in ids {
      GroupedKeys(s, ids);
      GroupedGroups(s, ids);
      var f := Filter(s, OfNotebook(k));
      var j :| 0 <= j < |f| && f[j] == n;
      assert OfNotebook(k)(f[j]);
    }
  }

  /** `totalTrashed`, the badge count. */
  function TotalTrashed(notes: Option<seq<N.Note>>, notebooks: Option<seq<NB.Notebook>>): nat {
    |Orphans(notes, TrashedIds(notebooks))| + |notebooks.GetOr([])|
  }

  /** The badge counts the trashed notebooks and the orphans, and leaves out exactly the notes
      that sit inside a trashed notebook. */
  lemma TotalTrashedCounts(notes: Option<seq<N.Note>>, notebooks: Option<seq<NB.Notebook>>)
    ensures var ids := TrashedIds(notebooks);
      TotalTrashed(notes, notebooks) + |Filter(notes.GetOr([]), In(ids))|
        == |notes.GetOr([])| + |notebooks.GetOr([])|
  {
    var ids := TrashedIds(notebooks);
    FilterComplement(notes.GetOr([]), In(ids), NotIn(ids));
  }

  /** Trashing one more note of a notebook already in the wastebasket leaves the count alone. */
  lemma TrashedNoteInTrashedNotebookUncounted(notes: seq<N.Note>, notebooks: Option<seq<NB.Notebook>>, n: N.Note)
    requires n.notebookId in TrashedIds(notebooks)
    ensures TotalTrashed(Some(notes + [n]), notebooks) == TotalTrashed(Some(notes), notebooks)
  {
    FilterSnoc(notes, n, NotIn(TrashedIds(notebooks)));
  }

  /** The expand toggle of a trashed notebook flips that notebook alone. */
  function Toggle(expanded: set<string>, id: string): (r: set<string>)
    ensures id in r <==> id !in expanded
    ensures forall x :: x != id ==> (x in r <==> x in expanded)
  {
    if id in expanded then expanded - {id} else expanded + {id}
  }

  lemma ToggleTwice(expanded: set<string>, id: string)
    ensures Toggle(Toggle(expanded, id), id) == expanded
  {}

  /** The calls of `handleClearWastebasket`: nothing unless confirmed, otherwise every trashed
      notebook in list order, then every orphan note in list order. */
  function ClearCalls(confirmed: bool, notebooks: Option<seq<NB.Notebook>>, orphans: seq<N.Note>): (r: seq<Call>)
    ensures !confirmed ==> r == []
    ensures confirmed ==> |r| == |notebooks.GetOr([])| + |orphans|
    ensures confirmed ==> forall i :: 0 <= i < |notebooks.GetOr([])| ==>
      r[i] == PermanentlyDeleteNotebook(notebooks.GetOr([])[i].id)
    ensures confirmed ==> forall i :: 0 <= i < |orphans| ==>
      r[|notebooks.GetOr([])| + i] == PermanentlyDeleteNote(orphans[i].id, orphans[i].notebookId)
  {
    if !confirmed then []
    else
      Map(notebooks.GetOr([]), (nb: NB.Notebook) => PermanentlyDeleteNotebook(nb.id))
        + Map(orphans, (n: N.Note) => PermanentlyDeleteNote(n.id, n.notebookId))
  }

  /** The calls actually made when each is awaited in turn: a rejection ends the loop, so the
      calls made are a prefix that stops right after the first rejected one. */
  function Awaited(calls: seq<Call>, outcomes: seq<Outcome>): (r: seq<Call>)
    requires |outcomes| == |calls|
    ensures |r| <= |calls| && r == calls[..|r|]
    ensures calls != [] ==> r != []
    ensures forall i :: 0 <= i < |r| - 1 ==> outcomes[i].Fulfilled?
    ensures |r| < |calls| ==> r != [] && outcomes[|r| - 1].Rejected?
    decreases |calls|
  {
    if calls == [] then []
    else if outcomes[0].Rejected? then [calls[0]]
    else [calls[0]] + Awaited(calls[1..], outcomes[1..])
  }

  /** `handleClearWastebasket` with the outcome of each awaited call. */
  function HandleClearWastebasket(confirmed: bool, notes: Option<seq<N.Note>>, notebooks: Option<seq<NB.Notebook>>, outcomes: seq<Outcome>): (r: seq<Call>)
    requires |outcomes| == |ClearCalls(confirmed, notebooks, Orphans(notes, TrashedIds(notebooks)))|
    ensures !confirmed ==> r == []
  {
    Awaited(ClearCalls(confirmed, notebooks, Orphans(notes, TrashedIds(notebooks))), outcomes)
  }

  /** When every awaited call succeeds, every call is made. */
  lemma AwaitedAll(calls: seq<Call>, outcomes: seq<Outcome>)
    requires |outcomes| == |calls|
    requires forall i :: 0 <= i < |outcomes| ==> outcomes[i].Fulfilled?
    ensures Awaited(calls, outcomes) == calls
  {
    var r := Awaited(calls, outcomes);
    assert |r| == |calls|;
    assert calls[..|calls|] == calls;
  }

  /** In a confirmed clear, no notebook delete comes after a note delete. */
  lemma ClearCallsOrdered(notebooks: Option<seq<NB.Notebook>>, orphans: seq<N.Note>)
    ensures var r := ClearCalls(true, notebooks, orphans);
      forall i, j :: 0 <= i < j < |r| && r[i].PermanentlyDeleteNote? ==> r[j].PermanentlyDeleteNote?
  {
    var r := ClearCalls(true, notebooks, orphans);
    var m := |notebooks.GetOr([])|;
    forall i, j | 0 <= i < j < |r| && r[i].PermanentlyDeleteNote? ensures r[j].PermanentlyDeleteNote? {
      assert i >= m;
      assert r[m + (j - m)] == r[j];
    }
  }

  /** A confirmed clear names every trashed note: an orphan by its own delete, any other by the
      delete of its notebook. */
  lemma ClearNamesEveryNote(notes: Option<seq<N.Note>>, notebooks: Option<seq<NB.Notebook>>, n: N.Note)
    requires n in notes.GetOr([])
    ensures var r := ClearCalls(true, notebooks, Orphans(notes, TrashedIds(notebooks)));
      if n.notebookId in TrashedIds(notebooks) then PermanentlyDeleteNotebook(n.notebookId) in r
      else PermanentlyDeleteNote(n.id, n.notebookId) in r
  {
    var ids := TrashedIds(notebooks);
    var orphans := Orphans(notes, ids);
    var nbs := notebooks.GetOr([]);
    var r := ClearCalls(true, notebooks, orphans);
    if n.notebookId in ids {
      var nb :| nb in nbs && nb.id == n.notebookId;
      var i :| 0 <= i < |nbs| && nbs[i] == nb;
      assert r[i] == PermanentlyDeleteNotebook(n.notebookId);
    } else {
      assert n in orphans;
      var i :| 0 <= i < |orphans| && orphans[i] == n;
      assert r[|nbs| + i] == PermanentlyDeleteNote(n.id, n.notebookId);
    }
  }

  /** When every call succeeds, clearing reaches every trashed note: an orphan by its own delete,
      any other through the delete of its notebook, whose cascade removes the notes of its
      collection. No notebook delete comes after a note delete. */
  lemma ClearReachesEveryNote(notes: Option<seq<N.Note>>, notebooks: Option<seq<NB.Notebook>>, outcomes: seq<Outcome>,
                              n: N.Note, all: seq<NB.Notebook>, rank: map<string, nat>, collections: map<string, seq<string>>)
    requires |outcomes| == |ClearCalls(true, notebooks, Orphans(notes, TrashedIds(notebooks)))|
    requires forall i :: 0 <= i < |outcomes| ==> outcomes[i].Fulfilled?
    requires n in notes.GetOr([]) && n.id in NB.NotesIn(collections, n.notebookId)
    requires NB.Ranked(all, rank) && n.notebookId in rank
    ensures var r := HandleClearWastebasket(true, notes, notebooks, outcomes);
      || PermanentlyDeleteNote(n.id, n.notebookId) in r
      || (PermanentlyDeleteNotebook(n.notebookId) in r
          && NB.DeleteNote(n.notebookId, n.id) in NB.PermanentDeleteWrites(n.notebookId, all, rank, collections))
    ensures var r := HandleClearWastebasket(true, notes, notebooks, outcomes);
      forall i, j :: 0 <= i < j < |r| && r[i].PermanentlyDeleteNote? ==> r[j].PermanentlyDeleteNote?
  {
    var calls := ClearCalls(true, notebooks, Orphans(notes, TrashedIds(notebooks)));
    AwaitedAll(calls, outcomes);
    ClearCallsOrdered(notebooks, Orphans(notes, TrashedIds(notebooks)));
    ClearNamesEveryNote(notes, notebooks, n);
    NB.PermanentDeleteRemovesOwn(n.notebookId, all, rank, collections);
  }
}

=== FILE: sorting.dfy ===
/**
 * `Array.prototype.sort` with the comparator `(a, b) => key(b) - key(a)` on integer keys
 * (timestamps): newest first. The JavaScript sort is stable, so items with equal keys keep
 * their input order; the model is an insertion sort with that property proved.
 */
module Sorting {

  ghost predicate SortedDesc<T>(s: seq<T>, key: T -> int) {
    forall i, j :: 0 <= i < j < |s| ==> key(s[i]) >= key(s[j])
  }

  /** The items of `s` with key `k`, in order. */
  function WithKey<T>(s: seq<T>, key: T -> int, k: int): (r: seq<T>)
    ensures |r| <= |s|
  {
    if s == [] then []
    else (if key(s[0]) == k then [s[0]] else []) + WithKey(s[1..], key, k)
  }

  /** Places `x` before the first item whose key is not greater than its own. */
  function Insert<T>(x: T, s: seq<T>, key: T -> int): (r: seq<T>)
    requires SortedDesc(s, key)
    ensures SortedDesc(r, key)
    ensures multiset(r) == multiset(s) + multiset{x}
    ensures |r| == |s| + 1
    decreases |s|
  {
    if s == [] || key(s[0]) <= key(x) then
      SortedCons(x, s, key);
      [x] + s
    else
      var t := Insert(x, s[1..], key);
      HeadBoundsInsert(x, s, t, key);
      SortedCons(s[0], t, key);
      assert multiset([s[0]] + t) == multiset(s) + multiset{x} by {
        assert s == [s[0]] + s[1..];
      }
      [s[0]] + t
  }

  /** The head of a sorted sequence bounds any rearrangement of its tail with a smaller item. */
  lemma HeadBoundsInsert<T>(x: T, s: seq<T>, t: seq<T>, key: T -> int)
    requires SortedDesc(s, key) && s != [] && key(s[0]) > key(x)
    requires multiset(t) == multiset(s[1..]) + multiset{x}
    ensures forall j :: 0 <= j < |t| ==> key(s[0]) >= key(t[j])
  {
    forall j | 0 <= j < |t| ensures key(s[0]) >= key(t[j]) {
      assert t[j] in multiset(t);
      if t[j] != x {
        assert t[j] in multiset(s[1..]);
        var m :| 0 <= m < |s[1..]| && s[1..][m] == t[j];
        assert s[m + 1] == t[j];
      }
    }
  }

  lemma SortedCons<T>(h: T, t: seq<T>, key: T -> int)
    requires SortedDesc(t, key) && (t == [] || key(h) >= key(t[0]))
    ensures SortedDesc([h] + t, key)
  {
    var r := [h] + t;
    forall i, j | 0 <= i < j < |r| ensures key(r[i]) >= key(r[j]) {
      assert r[j] == t[j - 1];
      if i > 0 {
        assert r[i] == t[i - 1];
      } else if j > 1 {
        assert key(t[0]) >= key(t[j - 1]);
      }
    }
  }

  /** The stable descending sort: sorted newest first and a permutation of the input. */
  function SortDesc<T>(s: seq<T>, key: T -> int): (r: seq<T>)
    ensures SortedDesc(r, key)
    ensures multiset(r) == multiset(s)
    ensures |r| == |s|
    decreases |s|
  {
    if s == [] then []
    else
      assert s == [s[0]] + s[1..];
      Insert(s[0], SortDesc(s[1..], key), key)
  }

  /** Sorting neither adds nor drops an item. */
  lemma SortKeepsMembers<T>(s: seq<T>, key: T -> int)
    ensures forall x :: x in SortDesc(s, key) <==> x in s
  {
    var r := SortDesc(s, key);
    forall x ensures x in r <==> x in s {
      assert x in r <==> x in multiset(r);
      assert x in s <==> x in multiset(s);
    }
  }

  lemma WithKeyCons<T>(h: T, t: seq<T>, key: T -> int, k: int)
    ensures WithKey([h] + t, key, k) == (if key(h) == k then [h] else []) + WithKey(t, key, k)
  {
    assert ([h] + t)[0] == h;
    assert ([h] + t)[1..] == t;
  }

  lemma {:induction false} InsertWithKey<T>(x: T, s: seq<T>, key: T -> int, k: int)
    requires SortedDesc(s, key)
    ensures WithKey(Insert(x, s, key), key, k)
         == (if key(x) == k then [x] else []) + WithKey(s, key, k)
    decreases |s|
  {
    if s == [] || key(s[0]) <= key(x) {
      WithKeyCons(x, s, key, k);
    } else {
      var t := Insert(x, s[1..], key);
      assert Insert(x, s, key) == [s[0]] + t;
      InsertWithKey(x, s[1..], key, k);
      WithKeyCons(s[0], t, key, k);
      assert s == [s[0]] + s[1..];
      WithKeyCons(s[0], s[1..], key, k);
    }
  }

  /** Stability: for every key, the items with that key appear in the result in input order. */
  lemma {:induction false} SortStable<T>(s: seq<T>, key: T -> int, k: int)
    ensures WithKey(SortDesc(s, key), key, k) == WithKey(s, key, k)
    decreases |s|
  {
    if s != [] {
      SortStable(s[1..], key, k);
      InsertWithKey(s[0], SortDesc(s[1..], key), key, k);
    }
  }

  /** `Array.prototype.filter` */
  function Filter<T>(s: seq<T>, p: T -> bool): (r: seq<T>)
    ensures |r| <= |s|
    ensures forall i :: 0 <= i < |r| ==> p(r[i]) && r[i] in s
    ensures forall i :: 0 <= i < |s| && p(s[i]) ==> s[i] in r
    ensures multiset(r) <= multiset(s)
    decreases |s|
  {
    if s == [] then []
    else
      assert s == [s[0]] + s[1..];
      (if p(s[0]) then [s[0]] else []) + Filter(s[1..], p)
  }

  /** Filtering an extended sequence extends the filtered one. */
  lemma {:induction false} FilterSnoc<T>(s: seq<T>, x: T, p: T -> bool)
    ensures Filter(s + [x], p) == Filter(s, p) + (if p(x) then [x] else [])
    decreases |s|
  {
    if s == [] {
      assert s + [x] == [x];
    } else {
      var t := s + [x];
      assert t[0] == s[0];
      assert t[1..] == s[1..] + [x];
      FilterSnoc(s[1..], x, p);
      assert Filter(t, p) == (if p(s[0]) then [s[0]] else []) + Filter(s[1..] + [x], p);
    }
  }

  /** A filter keeps every item that passes as often as it occurs, and no other item. */
  lemma {:induction false} FilterCount<T>(s: seq<T>, p: T -> bool, x: T)
    ensures multiset(Filter(s, p))[x] == if p(x) then multiset(s)[x] else 0
    decreases |s|
  {
    if s != [] {
      FilterCount(s[1..], p, x);
      assert s == [s[0]] + s[1..];
      assert multiset(s) == multiset{s[0]} + multiset(s[1..]);
    }
  }

  /** Nothing passes a filter that no item satisfies. */
  lemma {:induction false} FilterNone<T>(s: seq<T>, p: T -> bool)
    requires forall i :: 0 <= i < |s| ==> !p(s[i])
    ensures Filter(s, p) == []
    decreases |s|
  {
    if s != [] {
      FilterNone(s[1..], p);
    }
  }

  /** A filter and its complement split the input between them. */
  lemma {:induction false} FilterComplement<T>(s: seq<T>, p: T -> bool, q: T -> bool)
    requires forall x :: q(x) == !p(x)
    ensures |Filter(s, p)| + |Filter(s, q)| == |s|
    decreases |s|
  {
    if s != [] {
      FilterComplement(s[1..], p, q);
    }
  }

  /** `Array.prototype.map` */
  function Map<T, U>(s: seq<T>, f: T -> U): (r: seq<U>)
    ensures |r| == |s|
    ensures forall i :: 0 <= i < |s| ==> r[i] == f(s[i])
  {
    seq(|s|, i requires 0 <= i < |s| => f(s[i]))
  }
}

=== FILE: uistore.dfy ===
/** The zustand store of `uiStore.ts`: sidebar visibility, the selection and the theme. */
module UiStore {
  import opened Wrappers

  datatype Store = Store(
    sidebarOpen: bool,
    selectedNotebookId: Option<string>,
    selectedNoteId: Option<string>,
    darkMode: bool)

  /** The initial state; `prefersDark` is the system colour-scheme query, true without a
      window. */
  function Init(prefersDark: bool): (s: Store)
    ensures s.sidebarOpen && s.selectedNotebookId.None? && s.selectedNoteId.None?
    ensures s.darkMode == prefersDark
  {
    Store(true, None, None, prefersDark)
  }

  datatype Action =
    | ToggleSidebar
    | SetSidebarOpen(open: bool)
    | SelectNotebook(notebookId: Option<string>)
    | SelectNote(noteId: Option<string>)
    | ToggleDarkMode
    | SetDarkMode(dark: bool)

  function Apply(s: Store, a: Action): Store {
    match a
    case ToggleSidebar => s.(sidebarOpen := !s.sidebarOpen)
    case SetSidebarOpen(open) => s.(sidebarOpen := open)
    case SelectNotebook(id) => s.(selectedNotebookId := id, selectedNoteId := None)
    case SelectNote(id) => s.(selectedNoteId := id)
    case ToggleDarkMode => s.(darkMode := !s.darkMode)
    case SetDarkMode(dark) => s.(darkMode := dark)
  }

  /** Only the selection actions touch the selection, and only the theme actions the theme.
      Selecting a notebook also clears the note; selecting a note leaves the notebook. */
  lemma ActionsTouchOwnFields(s: Store, a: Action)
    ensures a.SelectNotebook? ==>
      Apply(s, a).selectedNotebookId == a.notebookId && Apply(s, a).selectedNoteId.None?
    ensures a.SelectNote? ==>
      Apply(s, a).selectedNoteId == a.noteId && Apply(s, a).selectedNotebookId == s.selectedNotebookId
    ensures !(a.SelectNotebook? || a.SelectNote?) ==>
      Apply(s, a).selectedNotebookId == s.selectedNotebookId && Apply(s, a).selectedNoteId == s.selectedNoteId
    ensures !(a.ToggleDarkMode? || a.SetDarkMode?) ==> Apply(s, a).darkMode == s.darkMode
    ensures !(a.ToggleSidebar? || a.SetSidebarOpen?) ==> Apply(s, a).sidebarOpen == s.sidebarOpen
  {}

  /** Toggling twice is the identity, for the sidebar and for the theme. */
  lemma ToggleTwice(s: Store)
    ensures Apply(Apply(s, ToggleSidebar), ToggleSidebar) == s
    ensures Apply(Apply(s, ToggleDarkMode), ToggleDarkMode) == s
  {}

  /** Setting a flag sets it exactly, and setting it again changes nothing. */
  lemma SetIdempotent(s: Store, b: bool)
    ensures Apply(s, SetSidebarOpen(b)).sidebarOpen == b
    ensures Apply(Apply(s, SetSidebarOpen(b)), SetSidebarOpen(b)) == Apply(s, SetSidebarOpen(b))
    ensures Apply(s, SetDarkMode(b)).darkMode == b
    ensures Apply(Apply(s, SetDarkMode(b)), SetDarkMode(b)) == Apply(s, SetDarkMode(b))
  {}

  /** Selecting a note after a notebook keeps the notebook; selecting a notebook after a note
      drops the note. */
  lemma SelectionOrder(s: Store, nb: Option<string>, note: Option<string>)
    ensures Apply(Apply(s, SelectNotebook(nb)), SelectNote(note)).selectedNotebookId == nb
    ensures Apply(Apply(s, SelectNotebook(nb)), SelectNote(note)).selectedNoteId == note
    ensures Apply(Apply(s, SelectNote(note)), SelectNotebook(nb)).selectedNoteId.None?
  {}
}

=== FILE: wrappers.dfy ===
/** Small shared datatypes: JavaScript's `null`/`undefined` become `None`. */
module Wrappers {

  datatype Option<+T> = None | Some(value: T) {

    /** The value, or `default` when absent (JavaScript's `x ?? default`). */
    function GetOr(default: T): T {
      match this
      case Some(v) => v
      case None => default
    }
  }

  /** How an awaited promise settled. */
  datatype Outcome = Fulfilled | Rejected
}
